=== FILE: README.md ===
# c195 customer and appointment scheduler — Dafny model

The application is a desktop scheduler for a consulting office. It keeps
customers and their appointments in a MySQL database and shows them in
list screens. Records are edited in form dialogs. The office can filter
the appointment list by month or week, and it can print three reports:
counts by month and type, each contact's schedule, and the customers of
each first-level division.

This project models the record layer and the list, string and arithmetic
logic of the controllers:

- **Record** (`record.dfy`): required-field validation over the declared
  fields, in declaration order, with the camel-case title of the field in
  the message.
- **Customer** (`customer.dfy`) and **Appointment** (`appointment.dfy`):
  - trimming setters, `copy` and the positional `toValues` lists;
  - `applyChanges`, including the reflective default of `Model`;
  - Appointment's UTC rendering of its two instants for SQL (`datetime.dfy`).
- **Division** and **Contact** (`division.dfy`, `contact.dfy`): immutable
  values and their report header lines. **Country** and **User**
  (`country.dfy`) are bare value holders.
- **Base** (`base.dfy`):
  - locale coercion;
  - the lazily opened shared connection;
  - 1-based positional argument binding;
  - the error-first routing of query, update and insert outcomes to their handlers.
- **Table** and **CustomerTable** (`table.dfy`, `customer_table.dfy`):
  - the column order and the add, view, edit and delete buttons;
  - the id-keyed division and country maps, and appending customers from rows;
  - the statement texts and their placeholder counts, and the upcoming-appointment alert.
- **CustomerForm** (`customer_form.dfy`):
  - the country picker: each country owning a division once, in name order;
  - the division picker: the chosen country's divisions, in name order;
  - `validateRecord` and `setFields`.
- **AppointmentForm** (`appointment_form.dfy`):
  - the hour, minute and meridiem pickers in 12- and 24-hour locales;
  - showing a time in them and reading it back;
  - the customer and user maps, and `setComboBoxFromMap`.
- **Report** (`report.dfy`, `grouping.dfy`):
  - the count lines of report 1;
  - grouping rows by contact or division in order of first appearance, which reports 2 and 3 render;
  - the `runReport` dispatch.
- **Filter** (`filter.dfy`):
  - the year, month and week pickers;
  - the field name sent to the callback;
  - a callback that fires at most once, with "no filter" on clear.

Shared helpers:

- `text.dfy`: `String.trim`, `%d`, `%02d`, ASCII upper-casing, `compareTo` and `replace`.
- `sorting.dfy`: `List.sort` by a string key.
- `keyed.dfy`: `HashMap.put` once per row.
- `widgets.dfy`: the combo boxes and date pickers, reduced to their state.
- `sql.dfy`: values and statement outcomes at the JDBC boundary.
- `wrappers.dfy`: `Option` for nullable references.

Conventions of the model:

- **Query results** are parameters: the rows of the result set, or its SQLException.
- **`bundle.getString`** is a function parameter. So are the report lines of Customer and Appointment, whose classes do not define them in the code modelled.
- **Reflection** over declared fields becomes an explicit field list in declaration order.
- **A Java `null`** is `None`.
- **An uncaught exception** that ends a handler is a `false` or `None` result, where the state it leaves behind is stated.
- **`HashMap` iteration** visits keys in an order the model leaves open. Results that depend on it are stated as sets or as sorted sequences.

## Model

| member | source | states |
|---|---|---|
| Record.SplitCamel | src/Models/Record.java:30-32 | the camel-case split never shortens the name and keeps its first character |
| Record.SplitCamelSeparates | src/Models/Record.java:30-32 | after the replacement no lower-case letter is directly followed by an upper-case one |
| Record.SplitCamelOnlyInsertsSpaces | src/Models/Record.java:30-32 | the replacement only inserts spaces: removing them gives the name back |
| Record.TitleizeRecoversName | src/Models/Record.java:26-32 | the title of a field name, without its spaces, is the name with its first letter upper-cased, and it has no lower/upper pair left |
| Record.FirstUnfilled | src/Models/Record.java:34-55 | the index where the scan stops: every earlier field is filled and the field there is not |
| Record.ValidationResultSpec | src/Models/Record.java:34-55 | validate ends at the first unfilled field in declaration order: an "empty" ValidationError for a String or Long, the "unreachable" RuntimeException for any other type; it passes iff every field is filled |
| Record.BlankStringIsFilled | src/Models/Record.java:41-43 | emptiness is length only: a string of blanks passes |
| Record.Validate | src/Models/Record.java:34-55 | the loop returns exactly the outcome ValidationResultSpec characterises, and writes nothing |
| Customers.CustomerData.Trimmed | src/Models/Customer.java:27-53 | what the four trimming setters store: each string trimmed, the division id untouched |
| Customers.ValuesFollowFields | src/Models/Customer.java:63-66 | toValues has five entries, each binding the declared field at the same position |
| Customers.TrimmedIdempotent | src/Models/Customer.java:73-81 | trimming twice is trimming once, so applying the same customer twice gives the state of applying it once |
| Customers.ValidationSpec | src/Models/Record.java:34-55 | a customer passes iff its four strings are non-empty and its division id is non-zero |
| Customers.ValidationErrorSpec | src/Models/Record.java:34-47 | otherwise the first empty field in declaration order (name, address, postal code, phone, division id) names the error |
| Customers.UnsavedCustomerCanPass | src/Models/Record.java:12-14 | the inherited id is not scanned: a customer with id 0 and every field filled passes |
| Customers.BlankCustomerPasses | src/Models/Record.java:41-43 | whitespace-only strings pass validation, which does not trim |
| Customers.Customer.constructor | src/Models/Customer.java:14-21 | the id and all five fields are stored as given, untrimmed |
| Customers.Customer.SetId | src/Models/Record.java:22-24 | only the id changes |
| Customers.Customer.SetName | src/Models/Customer.java:27-29 | the name becomes the trimmed argument; nothing else changes |
| Customers.Customer.SetAddress | src/Models/Customer.java:35-37 | the address becomes the trimmed argument; nothing else changes |
| Customers.Customer.SetPostalCode | src/Models/Customer.java:43-45 | the postal code becomes the trimmed argument; nothing else changes |
| Customers.Customer.SetPhone | src/Models/Customer.java:51-53 | the phone becomes the trimmed argument; nothing else changes |
| Customers.Customer.SetDivisionId | src/Models/Customer.java:59-61 | the division id is stored unchanged; nothing else changes |
| Customers.Customer.ToValues | src/Models/Customer.java:63-66 | five values, each binding the declared field at its position |
| Customers.Customer.Copy | src/Models/Customer.java:68-71 | a new customer with the same id and fields |
| Customers.Customer.ApplyChanges | src/Models/Customer.java:73-81 | returns this; its fields become other's fields trimmed; the id stays; a distinct other is untouched |
| Customers.Customer.Validate | src/Models/Record.java:34-55 | validation of the declared fields, changing nothing |
| Appointments.AppointmentData.Overlay | src/Models/Model.java:11-21 | the state after the first k steps of the field-copying loop: the original at 0 steps, the source after all nine |
| Appointments.ValuesSpec | src/Models/Appointment.java:52-64 | toValues has nine entries in declaration order: the strings and ids as stored, and each instant bound as its UTC timestamp text |
| Appointments.ValuesIgnoreOffsets | src/Models/Appointment.java:59-60 | the bound values depend on the instants only, not on the offsets they were given in |
| Appointments.ValidationSpec | src/Models/Record.java:34-55 | an appointment never passes validate: an empty title, description, location or type names the error, otherwise start raises "unreachable" |
| Appointments.Appointment.constructor | src/Models/Appointment.java:25-45 | all ten arguments are stored as given |
| Appointments.Appointment.SetId | src/Models/Record.java:22-24 | only the id changes |
| Appointments.Appointment.SetTitle | src/Models/Appointment.java:70-72 | the title becomes the trimmed argument; nothing else changes |
| Appointments.Appointment.SetDescription | src/Models/Appointment.java:78-80 | the description becomes the trimmed argument; nothing else changes |
| Appointments.Appointment.SetLocation | src/Models/Appointment.java:86-88 | the location becomes the trimmed argument; nothing else changes |
| Appointments.Appointment.SetKind | src/Models/Appointment.java:94-96 | the type becomes the trimmed argument; nothing else changes |
| Appointments.Appointment.SetStart | src/Models/Appointment.java:102-104 | start is stored unchanged; nothing else changes |
| Appointments.Appointment.SetEnd | src/Models/Appointment.java:110-112 | end is stored unchanged; nothing else changes |
| Appointments.Appointment.SetCustomerId | src/Models/Appointment.java:118-120 | the customer id is stored unchanged; nothing else changes |
| Appointments.Appointment.SetUserId | src/Models/Appointment.java:126-128 | the user id is stored unchanged; nothing else changes |
| Appointments.Appointment.SetContactId | src/Models/Appointment.java:134-136 | the contact id is stored unchanged; nothing else changes |
| Appointments.Appointment.Copy | src/Models/Appointment.java:47-50 | a new appointment with the same id and nine fields |
| Appointments.Appointment.ToValues | src/Models/Appointment.java:52-64 | the values of the appointment's current data, so every property of ValuesSpec holds of them |
| Appointments.Appointment.CopyField | src/Models/Model.java:13-16 | one loop step: declared field k is taken from the source and the id stays |
| Appointments.Appointment.ApplyChanges | src/Models/Model.java:11-21 | returns this; every declared field equals other's old value; the id stays; a distinct other is untouched |
| Appointments.Appointment.ValidateDateField | src/Models/Appointment.java:151-154 | accepts every field name |
| Appointments.Appointment.Validate | src/Models/Record.java:34-55 | validation of the declared fields, changing nothing |
| DateTimes.UtcDateTime | src/Models/Appointment.java:59-60 | the UTC fields of an instant name a month 1..12, a day from 1, and a time within the clock |
| DateTimes.MonthDaySpec | src/Models/Appointment.java:59-60 | the month and day found for a day of the year lie within that month and count back to the same day of the year |
| DateTimes.CivilFromDaysSpec | src/Models/Appointment.java:59-60 | the date found for a day number is a valid date whose day number, counted from 1970-01-01, is the one given |
| DateTimes.UtcDateTimeSpec | src/Models/Appointment.java:59-60 | the UTC fields are a valid date (day within its month) and time that denote the instant itself: counting back to the epoch gives its second |
| DateTimes.UtcDateTimeInjective | src/Models/Appointment.java:59-60 | equal UTC fields mean the same instant, so rendering at UTC loses no instant |
| DateTimes.UtcIgnoresOffset | src/Models/Appointment.java:59-60 | two OffsetDateTimes of the same instant render alike at UTC |
| DateTimes.FormatYearSpec | src/Models/Appointment.java:54 | "yyyy" of a year 1..9999 is four digits that read back as the year |
| DateTimes.FormatSqlRoundTrip | src/Models/Appointment.java:54 | the "yyyy-MM-dd HH:mm:ss" text is 19 characters and reads back as the same calendar fields |
| DateTimes.SqlTimestampRoundTrip | src/Models/Appointment.java:54-60 | an instant whose UTC year has four digits binds as 19 characters that read back as its UTC fields |
| Divisions.ReportStringSpec | src/Models/Division.java:21-29 | the report header is the id, which reads back, a tab, the shown name and ":\n" |
| Divisions.ReportStringInjective | src/Models/Division.java:26-29 | two divisions with the same header have the same id and name |
| Contacts.ReportStringSpec | src/Models/Contact.java:21-28 | the report header is the id, which reads back, a tab, the shown name, a tab, the email and "\n" |
| Text.TrimStartSpec | src/Models/Customer.java:27-29 | trim's left end: a leading run of characters up to U+0020 is dropped, up to the first other one |
| Text.TrimEndSpec | src/Models/Customer.java:27-29 | trim's right end: a trailing run of such characters is dropped, back to the last other one |
| Text.TrimSpec | src/Models/Customer.java:27-29 | trim keeps the middle of the string, drops only trimmable characters at the ends, and leaves no trimmable end |
| Text.TrimOfTrimmed | src/Models/Customer.java:27-29 | trim leaves a string without trimmable ends alone |
| Text.TrimIdempotent | src/Controllers/CustomerForm.java:100-103 | trim is idempotent, so the form's trim before the setter's trim changes nothing |
| Text.TrimOfBlank | src/Models/Customer.java:27-29 | a string of blanks trims to the empty string |
| Text.NatToString | src/Models/Division.java:28 | "%d" of a natural number: digits only, no leading zero, one digit below 10 and two below 100 |
| Text.ParseNatToString | src/Models/Division.java:28 | the digits of n read back as n |
| Text.NatToStringInjective | src/Controllers/AppointmentForm.java:157-159 | distinct numbers render to distinct digit strings |
| Text.IntToString | src/Controllers/CustomerForm.java:65 | Long.toString and "%d": non-empty, digits and a minus sign only |
| Text.IntToStringRoundTrip | src/Controllers/CustomerForm.java:65 | the rendering of any integer reads back as that integer |
| Text.IntToStringInjective | src/Controllers/CustomerForm.java:65 | distinct integers render differently |
| Text.ZeroPadSpec | src/Controllers/AppointmentForm.java:107 | "%0wd" is all digits, of width w unless the number is wider, and reads back as the number |
| Text.Pad2Spec | src/Controllers/AppointmentForm.java:107 | "%02d" of a value below 100 is two digits that read back as the value |
| Text.Pad2Injective | src/Controllers/AppointmentForm.java:152-155 | distinct values below 100 have distinct "%02d" texts |
| Text.Upper | src/Controllers/Filter.java:99 | toUpperCase keeps the length and upper-cases each ASCII letter in place |
| Text.LexLeTotal | src/Controllers/CustomerForm.java:54 | compareTo orders any two strings one way or the other |
| Text.LexLeTransitive | src/Controllers/CustomerForm.java:54 | compareTo's order is transitive |
| Sorting.InsertBy | src/Controllers/CustomerForm.java:54 | inserting into a sorted list gives a sorted list with one more element and the same multiset plus x |
| Sorting.SortBy | src/Controllers/CustomerForm.java:54 | List.sort by a string key: a permutation, sorted by compareTo on the key |
| Sorting.SortByMembers | src/Controllers/CustomerForm.java:54 | sorting keeps exactly the elements it was given |
| Sorting.SortByDistinct | src/Controllers/CustomerForm.java:50-54 | sorting a duplicate-free list leaves it duplicate-free |
| Keyed.LastIndex | src/Controllers/CustomerTable.java:94-103 | the last row carrying a key: it carries the key and no later row does |
| Keyed.PutAllLookup | src/Controllers/CustomerTable.java:94-103 | after putting every row under its id, a key is present iff it was present or some row carries it; it holds the last such row, else its old value |
| Keyed.PutAllKeys | src/Controllers/CustomerTable.java:105-114 | the key set after the puts is the old keys plus the rows' ids |
| Keyed.PutAllSnoc | src/Controllers/AppointmentForm.java:62-64 | one more put extends the fold by one row |
| Widgets.FirstIndex | src/Controllers/Table.java:74-80 | the position of the first occurrence of an item, or -1 when absent |
| Widgets.IndexOf | src/Controllers/AppointmentForm.java:198-202 | the selected index of a value: the first item equal to it, or -1 when it is none or not an item |
| Widgets.IndexOfFirst | src/Controllers/AppointmentForm.java:198-202 | an item with no earlier equal item is selected at its own position |
| Base.CoerceLocaleSpec | src/Controllers/Base.java:29-40 | the locale is always English or French; a supported default is kept, any other becomes en_US; coercing twice is coercing once |
| Base.Positions | src/Controllers/Base.java:216-217 | the parameter positions 1..n, in order |
| Base.BoundSpec | src/Controllers/Base.java:214-220 | argument i is bound at position i + 1, positions 1..n are set, and every other position keeps its value |
| Base.PreparedStatement.constructor | src/Controllers/Base.java:159 | a new statement has no parameter bound |
| Base.SetArguments | src/Controllers/Base.java:214-220 | the loop binds each argument at its position; a null list binds nothing |
| Base.QueryArguments | src/Controllers/Base.java:158-169 | a query handler gets exactly one of the exception and the rows |
| Base.UpdateArguments | src/Controllers/Base.java:199-212 | an update handler gets exactly one of the exception and the affected-row count |
| Base.InsertArguments | src/Controllers/Base.java:171-190 | an insert handler gets the first generated key, or an exception: the insert's own, or the no-key error when no key came back |
| Base.Database.constructor | src/Controllers/Base.java:21 | no connection has been opened |
| Base.Database.CreateDatabaseConnection | src/Controllers/Base.java:105-115 | an open connection is reused; otherwise a new one is opened, or the field is left null when connecting fails |
| Base.Database.ExecuteQuery | src/Controllers/Base.java:158-169 | with a connection, the result is the handler applied to the error-first pair, after the arguments are bound; without one the handler never runs; the connection afterwards is the open one reused, a newly opened one (counted), or null when none could be made, and it stays open |
| Base.Database.ExecuteQueryWithoutArguments | src/Controllers/Base.java:125-130 | forwards a null argument list: nothing is bound, the handler's result is returned, and the connection ends as ExecuteQuery leaves it |
| Base.Database.ExecuteUpdate | src/Controllers/Base.java:192-212 | as ExecuteQuery with the affected-row count; the connection it ran on (reused or newly opened and counted) is closed afterwards, and a failed connect leaves it null |
| Base.Database.ExecuteInsert | src/Controllers/Base.java:171-190 | the handler receives the first generated key or an exception, no key taking the error path; the connection it ran on is closed afterwards, and a failed connect leaves it null |
| Tables.RemoveFirstSpec | src/Controllers/Table.java:74-80 | List.remove deletes exactly the first occurrence, keeps the rest in order, and leaves a list without the item unchanged |
| Tables.Table.constructor | src/Controllers/Table.java:16-24 | a table starts with no columns, items or selection |
| Tables.Table.AddColumns | src/Controllers/Table.java:26-31 | the ID column comes first, then the subclass's columns |
| Tables.Table.OpenForm | src/Controllers/Table.java:35-38 | opens the form once in the given mode and returns the same item |
| Tables.Table.AddItem | src/Controllers/Table.java:45-50 | the new item is opened in Create mode and passed to addToDatabase; the list is untouched |
| Tables.Table.ViewItem | src/Controllers/Table.java:57-60 | the selection is opened in Read mode; the list and the database hooks are untouched |
| Tables.Table.EditItem | src/Controllers/Table.java:65-69 | the selection is opened in Update mode and passed to updateInDatabase |
| Tables.Table.DeleteItem | src/Controllers/Table.java:74-80 | the selection goes to deleteFromDatabase and then only its first occurrence leaves the list |
| CustomerTables.Assignments | src/Controllers/CustomerTable.java:155-158 | one "column = ?" per column, in column order |
| CustomerTables.InsertSqlPlaceholders | src/Controllers/CustomerTable.java:145-149 | an insert statement has one placeholder per column |
| CustomerTables.UpdateSqlPlaceholders | src/Controllers/CustomerTable.java:155-159 | an update has one placeholder per assigned column and one for the key, which comes last |
| CustomerTables.DeleteSqlPlaceholders | src/Controllers/CustomerTable.java:165-167 | a delete by key has exactly one placeholder |
| CustomerTables.InsertPlaceholders | src/Controllers/CustomerTable.java:145-149 | the customer insert takes the five values of toValues plus two user ids: seven placeholders |
| CustomerTables.UpdatePlaceholders | src/Controllers/CustomerTable.java:155-159 | the customer update takes the five values, the updating user, then the customer id last |
| CustomerTables.DeletePlaceholders | src/Controllers/CustomerTable.java:165-175 | both delete statements take only the customer id |
| CustomerTables.BlankRecordFailsOnName | src/Controllers/CustomerTable.java:120-122 | the blank new customer fails validation on its empty name |
| CustomerTables.DivisionCell | src/Controllers/CustomerTable.java:36-39 | the division column has a value iff the customer's division is known |
| CustomerTables.CountryCell | src/Controllers/CustomerTable.java:40-44 | the country column resolves customer, then division, then country, so it needs the division |
| CustomerTables.CellsFromRows | src/Controllers/CustomerTable.java:36-44 | with maps loaded from rows, the columns show the last division row for the customer and the last country row for that division |
| CustomerTables.Records | src/Controllers/CustomerTable.java:124-139 | the id and fields of each listed customer, in list order |
| CustomerTables.CustomerTable.constructor | src/Controllers/CustomerTable.java:16-24 | empty maps, an empty table and no alert |
| CustomerTables.CustomerTable.BuildDivisionMap | src/Controllers/CustomerTable.java:94-103 | every division row is put under its own id, in row order, later rows overwriting |
| CustomerTables.CustomerTable.AddCountries | src/Controllers/CustomerTable.java:105-114 | every country row is put under its own id, in row order, later rows overwriting |
| CustomerTables.CustomerTable.ConsumeResultSet | src/Controllers/CustomerTable.java:124-139 | one new customer per row is appended in row order; the existing items stay |
| CustomerTables.CustomerTable.GetNewRecord | src/Controllers/CustomerTable.java:120-122 | a new customer with id 0, four empty strings and division 0 |
| CustomerTables.CustomerTable.CanUpdate | src/Controllers/CustomerTable.java:190-192 | every customer may be edited |
| CustomerTables.CustomerTable.DeleteDependencies | src/Controllers/CustomerTable.java:173-175 | binds the customer id at position 1 and succeeds iff no SQLException occurred, whatever the row count; the connection ends as ExecuteUpdate leaves it |
| CustomerTables.CustomerTable.PopulateData | src/Controllers/CustomerTable.java:52-92 | each map and the list change only when their query succeeded; the alert is shown iff the count query returned a row, upcoming iff the count is non-zero |
| CustomerTables.CustomerTable.Initialize | src/Controllers/Table.java:26-33 | the ID column, then the six customer columns, then the data as PopulateData loads it: the maps, fresh customers appended after the kept items, and the alert when the count query returned a row |
| CustomerForms.CustomerForm.CountriesOfAdd | src/Controllers/CustomerForm.java:48-53 | visiting one more division adds its country to the countries seen |
| CustomerForms.CustomerForm.DivisionsOfAdd | src/Controllers/CustomerForm.java:91-93 | visiting one more matching division adds it to the divisions found |
| CustomerForms.CustomerForm.constructor | src/Controllers/CustomerForm.java:39-43 | keeps both maps; the pickers start empty |
| CustomerForms.CustomerForm.CollectCountries | src/Controllers/CustomerForm.java:47-53 | the loop collects each country owning a division exactly once, whatever the visiting order |
| CustomerForms.CustomerForm.CollectDivisions | src/Controllers/CustomerForm.java:90-93 | the loop collects exactly the divisions of the country, one entry per division |
| CustomerForms.CustomerForm.DivisionsOfCountry | src/Controllers/CustomerForm.java:91-93 | a division is found iff it is stored and its country id is the country's |
| CustomerForms.CustomerForm.Initialize | src/Controllers/CustomerForm.java:46-58 | the country picker lists each owning country exactly once, sorted by name; the id field and division picker are disabled |
| CustomerForms.CustomerForm.PopulateDivisions | src/Controllers/CustomerForm.java:87-96 | the division picker holds exactly the selected country's divisions, once each, sorted by name, and is disabled iff read-only or empty; the selection is cleared; no country fails unless there are no divisions |
| CustomerForms.CustomerForm.ValidateRecord | src/Controllers/CustomerForm.java:99-109 | the customer gets the trimmed texts and the selected division's id (0 if none) and is validated; with no division it cannot pass |
| CustomerForms.CustomerForm.SelectDivision | src/Controllers/CustomerForm.java:74-78 | selects the division's country, refills the divisions with that country's divisions, one entry per division, in name order, disabled iff read-only or empty, and selects the division; an unknown division fails before any change; an unknown country clears the country selection, the division list and its selection, and fails |
| CustomerForms.CustomerForm.ShowTexts | src/Controllers/CustomerForm.java:65-73 | each text field shows its customer field and is disabled iff read-only |
| CustomerForms.CustomerForm.SetFields | src/Controllers/CustomerForm.java:61-79 | Read mode hides the button bar; texts and pickers show the customer, disabled iff read-only, with the same failure outcomes as SelectDivision; the country list and the id field are untouched |
| AppointmentForms.HourOptions | src/Controllers/AppointmentForm.java:150-160 | 24 options "00".."23", or 12 options "12", "1", .., "11" |
| AppointmentForms.MinuteOptions | src/Controllers/AppointmentForm.java:164-169 | 60 options "00".."59" |
| AppointmentForms.ShownHourIndex | src/Controllers/AppointmentForm.java:106-110 | the hour shown for h is selected at index h (24-hour) or h mod 12 (12-hour) |
| AppointmentForms.ShownMinuteIndex | src/Controllers/AppointmentForm.java:115 | the minute shown for m is selected at index m |
| AppointmentForms.ShowParseRoundTrip | src/Controllers/AppointmentForm.java:101-119 | showing any hour 0..23 and minute 0..59 and parsing the pickers back gives the same hour and minute, in both modes |
| AppointmentForms.PickedIndices | src/Controllers/AppointmentForm.java:198-202 | the hour index plus 12 unless "am" is the hour again |
| AppointmentForms.DefaultTime | src/Controllers/AppointmentForm.java:143-170 | the defaults "12", "am", "00" read back as noon in 24-hour mode and midnight in 12-hour mode |
| AppointmentForms.KeyById | src/Controllers/AppointmentForm.java:62-64 | each customer is put under its id, in list order |
| AppointmentForms.PutUsers | src/Controllers/AppointmentForm.java:183-186 | each user row is put under its id, in row order |
| AppointmentForms.AppointmentForm.constructor | src/Controllers/AppointmentForm.java:59-65 | keeps the contact map and keys the customers by id, a later customer with the same id winning |
| AppointmentForms.AppointmentForm.FillHours | src/Controllers/AppointmentForm.java:149-162 | appends the hour options and selects "12" |
| AppointmentForms.AppointmentForm.FillMinutes | src/Controllers/AppointmentForm.java:164-171 | appends "00".."59" and selects "00" |
| AppointmentForms.AppointmentForm.SetUpMeridiem | src/Controllers/AppointmentForm.java:137-147 | hidden and disabled in 24-hour mode; otherwise "am", "pm" with "am" selected, disabled iff read-only |
| AppointmentForms.AppointmentForm.InitializeDateFields | src/Controllers/AppointmentForm.java:136-177 | all six pickers filled with their options and defaults; in 12-hour mode the meridiem pickers are disabled iff read-only, in 24-hour mode hidden, disabled and unfilled; the hour, minute and date pickers keep their flags; both dates today |
| AppointmentForms.AppointmentForm.SetDateFields | src/Controllers/AppointmentForm.java:101-119 | shows hour, minute, meridiem and date of a time, each disabled iff read-only; no option list and no visibility changes, and in 24-hour mode the meridiem picker is left alone |
| AppointmentForms.AppointmentForm.ParseDateTime | src/Controllers/AppointmentForm.java:194-204 | the picked date at the selected hour index (plus 12 unless "am") and minute index; none where the source throws |
| AppointmentForms.AppointmentForm.SetComboBoxFromMap | src/Controllers/AppointmentForm.java:96-99 | a non-zero id selects the mapped record (none if unmapped), 0 keeps the selection; disabled iff read-only |
| AppointmentForms.AppointmentForm.BuildUserMap | src/Controllers/AppointmentForm.java:179-192 | on success every user row is put under its id; an error leaves the map alone |
| Grouping.AddAllSpec | src/Controllers/Report.java:129-155 | the grouping loop appends the header of each new key's first row in row order, and each group is its old members followed by its rows' members in row order |
| Grouping.HeaderKeys | src/Controllers/Report.java:117-120 | the key of every header, in header order |
| Grouping.AddAllAligned | src/Controllers/Report.java:143-150 | the loop keeps one header per group with distinct keys, so every lookup of a header's group succeeds |
| Grouping.EmptyAligned | src/Controllers/Report.java:26-30 | the empty state is aligned |
| Reports.ContactEntries | src/Controllers/Report.java:133-149 | each report 2 row is keyed by its appointment's contact id, with the contact built from that id, the name and the email |
| Reports.DivisionEntries | src/Controllers/Report.java:179-193 | each report 3 row is keyed by its customer's division id, with the division built from that id, the name and the country id |
| Reports.FormatPairSpec | src/Controllers/Report.java:79-81 | a count line is a tab, the key, ":\t", the count, which reads back, and a newline |
| Reports.MonthPairs | src/Controllers/Report.java:83-95 | one pair per row, in row order: the month's localized name and its count |
| Reports.TypePairs | src/Controllers/Report.java:97-107 | one pair per row, in row order: the type and its count |
| Reports.GroupedTextFromRows | src/Controllers/Report.java:116-124 | when each header's group holds its key's rows, the rendered groups read straight off the rows |
| Reports.FreshReportFollowsRows | src/Controllers/Report.java:109-155 | on a fresh report, reports 2 and 3 list each key's header in first-appearance order, each followed by its rows' members in row order |
| Reports.RerunRepeatsMembers | src/Controllers/Report.java:26-30 | the groups are never cleared: running again over the same rows adds no header but lists every member twice |
| Reports.RenderPairs | src/Controllers/Report.java:68-74 | the loop renders the count lines of the pairs in order |
| Reports.RenderMembers | src/Controllers/Report.java:121-123 | the loop renders one group's members in order |
| Reports.RenderGroups | src/Controllers/Report.java:117-124 | the loop renders each header and its group, in header order, with no lookup failing |
| Reports.Report.constructor | src/Controllers/Report.java:23-30 | empty lists and groups, aligned |
| Reports.Report.ParseMonthsCount | src/Controllers/Report.java:83-95 | on success the list is cleared and holds one labelled pair per row; an error changes nothing |
| Reports.Report.ParseTypesCount | src/Controllers/Report.java:97-107 | on success the list is cleared and holds one pair per row; an error changes nothing |
| Reports.Report.ParseContactsAndAppointments | src/Controllers/Report.java:129-155 | the rows are grouped onto what earlier runs left, keeping alignment; an error changes nothing |
| Reports.Report.ParseCustomersAndDivisions | src/Controllers/Report.java:174-199 | the rows are grouped onto what earlier runs left, keeping alignment; an error changes nothing |
| Reports.Report.Report1 | src/Controllers/Report.java:59-77 | the by-month heading and lines, a blank line, the by-type heading and lines |
| Reports.Report.Report2 | src/Controllers/Report.java:109-127 | the by-contact heading, then every contact so far with its appointments |
| Reports.Report.Report3 | src/Controllers/Report.java:157-172 | the by-division heading, then every division so far with its customers |
| Reports.ReportOf | src/Controllers/Report.java:40-55 | the report number is 1, 2 or 3 exactly when the id without "button" is that digit, and 0 otherwise |
| Reports.ReportOfButton | src/Controllers/Report.java:40-55 | an id "button" plus one character picks report 1, 2 or 3 for that digit and no report for any other character |
| Text.ReplaceAllShort | src/Controllers/Report.java:40 | a string shorter than the target is left unchanged by replace |
| Text.ReplaceAllLeading | src/Controllers/Report.java:40 | replace on the target followed by a shorter rest gives the replacement followed by the rest |
| Reports.Report.ShowReport | src/Controllers/Report.java:42-56 | report 1, 2 or 3 runs that report's queries (the pairs replaced, or the rows grouped in; a failed query leaves its state), shows that report's text and changes no other report's state; any other number shows the empty text and changes nothing else |
| Reports.Report.RunReport | src/Controllers/Report.java:37-57 | the button id without "button" picks report 1, 2 or 3, whose state becomes what its queries give and whose text is shown; no other report's state changes; any other id shows the empty report |
| Filters.BundleProp | src/Controllers/Filter.java:90-98 | "month" iff the month button is selected, otherwise "week" |
| Filters.FieldName | src/Controllers/Filter.java:90-99 | "MONTH" iff the month button is selected, otherwise "WEEK" |
| Filters.FieldNameIsUpperProp | src/Controllers/Filter.java:99 | the field name is the upper-cased resource key |
| Filters.LabelKeyIsFormatted | src/Controllers/Filter.java:100 | the label's resource key is "form." followed by the toggle's key: "form.month" or "form.week" |
| Filters.WeekOptions | src/Controllers/Filter.java:137-139 | one option per week row, in order, valued by the zero-based week |
| Filters.WeekLabelsOneBased | src/Controllers/Filter.java:139 | a week option's label reads back as its value plus one |
| Filters.MonthOptions | src/Controllers/Filter.java:161-163 | one option per month row, in order, valued by the month and labelled by its localized name |
| Filters.Filter.constructor | src/Controllers/Filter.java:226-237 | the window opens with a callback set and an open stage, nothing selected |
| Filters.Filter.CallCallback | src/Controllers/Filter.java:177-182 | delivers the values iff the callback is still set, then clears it: at most one delivery ever |
| Filters.Filter.HandleClose | src/Controllers/Filter.java:216-219 | the stage is closed and forgotten |
| Filters.Filter.HandleSave | src/Controllers/Filter.java:190-196 | sends (year, field name, picked value) and closes; with no year or option nothing changes |
| Filters.Filter.HandleClear | src/Controllers/Filter.java:204-208 | sends "no filter", closes and empties the toggle group |
| Filters.Filter.SetWeeks | src/Controllers/Filter.java:127-145 | clears the options, then, for a picked year, lists the week rows |
| Filters.Filter.SetMonths | src/Controllers/Filter.java:151-169 | clears the options, then, for a picked year, lists the month rows |
| Filters.Filter.UpdateItems | src/Controllers/Filter.java:90-102 | refills the options for the toggle, sets the field name and label, and picks the first option |
| Filters.Filter.SetYears | src/Controllers/Filter.java:108-121 | appends the year rows and picks the first year |
| Filters.Filter.Initialize | src/Controllers/Filter.java:75-83 | loads the years and selects the first, adds both toggles, selects the month button, and so lists the months with the first selected, field name "MONTH" and the month label; with no year the options are empty and the field name and label are kept |

## Left out

- JavaFX windows, FXML loading, alerts on screen, tab handling and `openFilterWindow` (src/Controllers/Filter.java:226-243) are user interface only. The Filter constructor stands for the state that `openFilterWindow` sets up.
- The JDBC driver, the `database.xml` connection string and `printSQLException` are I/O. What a statement returns is a parameter. Whether a connection can be made is a parameter of `Base.Database` and `CustomerTables.CustomerTable.DeleteDependencies`.
- `Reports.Report.Report1`, `Report2`, `Report3`, `ShowReport` and `RunReport`, `Filters.Filter.SetYears`, `SetWeeks`, `SetMonths`, `UpdateItems` and `Initialize`, and `AppointmentForms.AppointmentForm.BuildUserMap` take only the query's outcome (rows or an SQLException). The RuntimeException that `createDatabaseConnection` throws before the handler runs is not modelled for them. In `runReport` it would leave the text cleared and skip report 1's second query; in the filter's `initialize` it would stop at `setYears`.
- A result set that fails half-way through its rows is not modelled. Each query either returns all its rows or fails before the handler sees any.
- Time zones, daylight saving time, localized date formatting (`formatDate`) and the detection of 24-hour locales come from the platform. An instant is seconds since the epoch plus an offset. `use24HourTime` and today's date are parameters.
- AppointmentForm's `applyOtherFieldsToRecord` and the date half of `setFields` call `getLocalStart`, `getLocalEnd` and `getRecordId`. The Appointment class modelled does not define them, so the model stops at `ParseDateTime`, `SetDateFields` and `SetComboBoxFromMap`.
- Adding a map's values to a combo box (`addAll(map.values())`) is not modelled: its order is the HashMap's. The contact, customer and user pickers are represented by the maps themselves.
- The report lines of Customer and Appointment (`toReportString`) are parameters of the reports, because those classes do not define them in the code modelled.
- `CustomerTables.CustomerTable` owns a `Tables.Table` instead of extending it.
- The column headers that `getStringColumn` and `bundle.getString` produce are not modelled. The customer columns are named by the fields they show.
- `CustomerTables.InsertStatement`, `CustomerTables.UpdateStatement` and `CustomerTables.DeleteStatement` are built from the table name, the column list and one "?" per value. Their equality with the source's literal text is not proved; their placeholder counts are.
- The JavaFX listeners of the Filter dialog (the toggle group and the year picker re-running `updateItems`) are not modelled. `Filters.Filter.Initialize` runs the one `updateItems` that selecting the month button triggers.
- Clearing a JavaFX picker's items is modelled as clearing its selection too, in the filter's option picker and the customer form's division picker alike.
- Re-entering `handleClose` through the stage's `onHidden` handler is not modelled. `Filters.Filter.HandleClose` closes the stage once.
- `CustomerTables.CustomerTable.PopulateData`: a query run without a connection throws before its handler runs. The model treats that like a failed query.
- `CustomerForms.CustomerForm.Initialize` requires every division's country to be present in the country map. Otherwise the source would add a null country to the picker.
- `AppointmentForms.AppointmentForm.ParseDateTime` compares the meridiem by value. The source compares references (`== "am"`), which matches here because both sides are the same interned literal.
- The IDs are `long`, and the model uses unbounded integers. No id or count in this program comes near 2^63, so overflow is not modelled.
- Login, the AppointmentTable stubs, the form factories, View and Main are not part of this model.
- `Text.LexLe` orders strings by code point. `String.compareTo` compares UTF-16 code units, so a character above U+FFFF sorts before U+E000..U+FFFF in the source and after them in the model. The order is the same for text without such characters.
- `CustomerForms.CustomerForm.CollectCountries` removes duplicate countries by value. The source's `countries.contains` compares references, because Country does not override `equals`. The two agree when each country-map key holds one Country object with that id, as `addCountries` builds the map.
- Getters are not listed. Each one returns its field, which is the datatype field or class field of the same name.

=== FILE: appointment.dfy ===
/**
 * Models/Appointment and the default applyChanges of Models/Model: an
 * appointment row whose string setters trim, whose toValues renders the two
 * instants at UTC for SQL, and which takes another appointment's fields by
 * copying every declared field in declaration order.
 */
module Appointments {
  import opened Text
  import opened SqlTypes
  import opened DateTimes
  import opened Record
  import opened Wrappers

  /** The nine declared fields of an Appointment, in declaration order (the Java field `type` is `kind`). */
  datatype AppointmentData = AppointmentData(
    title: string, description: string, location: string, kind: string,
    start: OffsetDateTime, end: OffsetDateTime,
    customerId: int, userId: int, contactId: int)
  {
    /** The fields validate scans, as reflection lists them. */
    function Fields(): (fs: seq<Field>)
      ensures |fs| == 9
    {
      [ Field("title", StringValue(title)), Field("description", StringValue(description)),
        Field("location", StringValue(location)), Field("type", StringValue(kind)),
        Field("start", TimeValue(start)), Field("end", TimeValue(end)),
        Field("customerId", LongValue(customerId)), Field("userId", LongValue(userId)),
        Field("contactId", LongValue(contactId)) ]
    }

    /** toValues: the instants go to SQL as "yyyy-MM-dd HH:mm:ss" at UTC. */
    function Values(): (vs: seq<SqlValue>)
    {
      [ SqlString(title), SqlString(description), SqlString(location), SqlString(kind),
        SqlString(SqlTimestamp(start)), SqlString(SqlTimestamp(end)),
        SqlLong(customerId), SqlLong(userId), SqlLong(contactId) ]
    }

    /**
     * This with its first k declared fields taken from src: the state after
     * the first k steps of the field-copying loop.
     */
    function Overlay(src: AppointmentData, k: nat): (d: AppointmentData)
      ensures k == 0 ==> d == this
      ensures k >= 9 ==> d == src
    {
      AppointmentData(
        if k > 0 then src.title else title,
        if k > 1 then src.description else description,
        if k > 2 then src.location else location,
        if k > 3 then src.kind else kind,
        if k > 4 then src.start else start,
        if k > 5 then src.end else end,
        if k > 6 then src.customerId else customerId,
        if k > 7 then src.userId else userId,
        if k > 8 then src.contactId else contactId)
    }
  }

  /** An appointment as a result row gives it: the id and the declared fields. */
  datatype AppointmentRecord = AppointmentRecord(id: int, data: AppointmentData)

  /**
   * toValues has nine entries in declaration order: the four strings and
   * three ids as stored, and each instant as its UTC timestamp text, which
   * SqlTimestampRoundTrip reads back.
   */
  lemma ValuesSpec(d: AppointmentData)
    ensures |d.Values()| == 9
    ensures d.Values()[0] == SqlString(d.title) && d.Values()[1] == SqlString(d.description)
    ensures d.Values()[2] == SqlString(d.location) && d.Values()[3] == SqlString(d.kind)
    ensures d.Values()[4] == SqlString(SqlTimestamp(d.start)) && d.Values()[5] == SqlString(SqlTimestamp(d.end))
    ensures d.Values()[6] == SqlLong(d.customerId) && d.Values()[7] == SqlLong(d.userId)
    ensures d.Values()[8] == SqlLong(d.contactId)
  {
    NineElements(d.Values(), SqlString(d.title), SqlString(d.description), SqlString(d.location), SqlString(d.kind),
      SqlString(SqlTimestamp(d.start)), SqlString(SqlTimestamp(d.end)),
      SqlLong(d.customerId), SqlLong(d.userId), SqlLong(d.contactId));
  }

  /** The positions of a nine-element display, stated once for any element type. */
  lemma NineElements<T>(s: seq<T>, a0: T, a1: T, a2: T, a3: T, a4: T, a5: T, a6: T, a7: T, a8: T)
    requires s == [a0, a1, a2, a3, a4, a5, a6, a7, a8]
    ensures |s| == 9 && s[0] == a0 && s[1] == a1 && s[2] == a2 && s[3] == a3 && s[4] == a4
    ensures s[5] == a5 && s[6] == a6 && s[7] == a7 && s[8] == a8
  {
  }

  /** The bound values depend on the instants only, not on the offsets they carry. */
  lemma ValuesIgnoreOffsets(a: AppointmentData, s: OffsetDateTime, e: OffsetDateTime)
    requires SameInstant(a.start, s) && SameInstant(a.end, e)
    ensures a.(start := s, end := e).Values() == a.Values()
  {
    UtcIgnoresOffset(a.start, s);
    UtcIgnoresOffset(a.end, e);
  }

  /**
   * validate never passes for an appointment: it stops at the first empty
   * string among the four, or else reaches start, which is neither a String
   * nor a Long, and raises the "unreachable" error.
   */
  lemma ValidationSpec(d: AppointmentData)
    ensures ValidationResult(d.Fields()) != Passed
    ensures d.title == "" ==> ValidationResult(d.Fields()) == ValidationError(ErrorMessage(Titleize("title"), "empty"))
    ensures d.title != "" && d.description == "" ==>
      ValidationResult(d.Fields()) == ValidationError(ErrorMessage(Titleize("description"), "empty"))
    ensures d.title != "" && d.description != "" && d.location == "" ==>
      ValidationResult(d.Fields()) == ValidationError(ErrorMessage(Titleize("location"), "empty"))
    ensures d.title != "" && d.description != "" && d.location != "" && d.kind == "" ==>
      ValidationResult(d.Fields()) == ValidationError(ErrorMessage(Titleize("type"), "empty"))
    ensures d.title != "" && d.description != "" && d.location != "" && d.kind != "" ==>
      ValidationResult(d.Fields()) == RuntimeError("unreachable")
  {
    ValidationResultSpec(d.Fields());
    var fs := d.Fields();
    assert fs[0].value == StringValue(d.title) && fs[1].value == StringValue(d.description);
    assert fs[2].value == StringValue(d.location) && fs[3].value == StringValue(d.kind);
    assert fs[4].value == TimeValue(d.start);
  }

  class Appointment {
    var id: int
    var title: string
    var description: string
    var location: string
    var kind: string
    var start: OffsetDateTime
    var end: OffsetDateTime
    var customerId: int
    var userId: int
    var contactId: int

    /** The declared fields, without the inherited id. */
    function Data(): AppointmentData
      reads this
    {
      AppointmentData(title, description, location, kind, start, end, customerId, userId, contactId)
    }

    /** Stores all ten arguments as given. */
    constructor(id: int, title: string, description: string, location: string, kind: string,
                start: OffsetDateTime, end: OffsetDateTime, customerId: int, userId: int, contactId: int)
      ensures this.id == id
      ensures Data() == AppointmentData(title, description, location, kind, start, end, customerId, userId, contactId)
    {
      this.id := id;
      this.title := title;
      this.description := description;
      this.location := location;
      this.kind := kind;
      this.start := start;
      this.end := end;
      this.customerId := customerId;
      this.userId := userId;
      this.contactId := contactId;
    }

    method SetId(id: int)
      modifies this
      ensures this.id == id && Data() == old(Data())
    {
      this.id := id;
    }

    method SetTitle(title: string)
      modifies this
      ensures Data() == old(Data()).(title := Trim(title)) && id == old(id)
    {
      var t := Trim(title);
      this.title := t;
    }

    method SetDescription(description: string)
      modifies this
      ensures Data() == old(Data()).(description := Trim(description)) && id == old(id)
    {
      var t := Trim(description);
      this.description := t;
    }

    method SetLocation(location: string)
      modifies this
      ensures Data() == old(Data()).(location := Trim(location)) && id == old(id)
    {
      var t := Trim(location);
      this.location := t;
    }

    method SetKind(kind: string)
      modifies this
      ensures Data() == old(Data()).(kind := Trim(kind)) && id == old(id)
    {
      var t := Trim(kind);
      this.kind := t;
    }

    method SetStart(start: OffsetDateTime)
      modifies this
      ensures Data() == old(Data()).(start := start) && id == old(id)
    {
      this.start := start;
    }

    method SetEnd(end: OffsetDateTime)
      modifies this
      ensures Data() == old(Data()).(end := end) && id == old(id)
    {
      this.end := end;
    }

    method SetCustomerId(customerId: int)
      modifies this
      ensures Data() == old(Data()).(customerId := customerId) && id == old(id)
    {
      this.customerId := customerId;
    }

    method SetUserId(userId: int)
      modifies this
      ensures Data() == old(Data()).(userId := userId) && id == old(id)
    {
      this.userId := userId;
    }

    method SetContactId(contactId: int)
      modifies this
      ensures Data() == old(Data()).(contactId := contactId) && id == old(id)
    {
      this.contactId := contactId;
    }

    /** A new appointment with the same id and fields. */
    method Copy() returns (c: Appointment)
      ensures fresh(c)
      ensures c.id == id && c.Data() == Data()
    {
      c := new Appointment(id, title, description, location, kind, start, end, customerId, userId, contactId);
    }

    /** The nine values bound to the statements: strings and ids as stored, instants at UTC. */
    method ToValues() returns (vs: seq<SqlValue>)
      ensures vs == Data().Values()
    {
      var startText := SqlTimestamp(start);
      var endText := SqlTimestamp(end);
      vs := [ SqlString(title), SqlString(description), SqlString(location), SqlString(kind),
              SqlString(startText), SqlString(endText),
              SqlLong(customerId), SqlLong(userId), SqlLong(contactId) ];
    }

    /** Assigns declared field k of this from the same field of src: one step of the copying loop. */
    method CopyField(k: nat, src: AppointmentData, ghost base: AppointmentData)
      requires k < 9 && Data() == base.Overlay(src, k)
      modifies this
      ensures Data() == base.Overlay(src, k + 1)
      ensures id == old(id)
    {
      if k == 0 { title := src.title; }
      else if k == 1 { description := src.description; }
      else if k == 2 { location := src.location; }
      else if k == 3 { kind := src.kind; }
      else if k == 4 { start := src.start; }
      else if k == 5 { end := src.end; }
      else if k == 6 { customerId := src.customerId; }
      else if k == 7 { userId := src.userId; }
      else { contactId := src.contactId; }
    }

    /**
     * Model.applyChanges: for every declared field, in declaration order,
     * sets this's field to other's; the inherited id is not declared and
     * stays. Each field of other is read before it could be written, so
     * other == this leaves this unchanged.
     */
    method ApplyChanges(other: Appointment) returns (r: Appointment)
      modifies this
      ensures r == this
      ensures Data() == old(other.Data())
      ensures id == old(id)
      ensures other != this ==> other.Data() == old(other.Data()) && other.id == old(other.id)
    {
      var src := other.Data();
      var k := 0;
      while k < 9
        invariant 0 <= k <= 9
        invariant Data() == old(Data()).Overlay(src, k)
        invariant id == old(id)
        invariant other != this ==> other.Data() == old(other.Data()) && other.id == old(other.id)
      {
        CopyField(k, src, old(Data()));
        k := k + 1;
      }
      return this;
    }

    /** Appointment's validateDateField accepts every field name. */
    method ValidateDateField(name: string) returns (r: ValidationOutcome)
      ensures r == Passed
    {
      r := Passed;
    }

    /** validate over the declared fields; changes nothing. */
    method Validate() returns (r: ValidationOutcome)
      ensures r == ValidationResult(Data().Fields())
    {
      r := Record.Validate(Data().Fields());
    }
  }
}

=== FILE: appointment_form.dfy ===
/**
 * Controllers/AppointmentForm: the appointment dialog. Its time pickers
 * offer hours as "00".."23" in 24-hour locales and as "12", "1", .., "11"
 * plus an am/pm picker otherwise, and minutes as "00".."59"; a time is shown
 * by setting the pickers' values and read back from their selected indices.
 *
 * Whether the locale uses 24-hour time and today's date come from the
 * platform and are parameters here.
 */
module AppointmentForms {
  import opened Wrappers
  import opened Text
  import opened DateTimes
  import opened Keyed
  import opened SqlTypes
  import opened Widgets
  import opened Contacts
  import opened Countries
  import opened Customers

  /** The hour option at index k. */
  function HourLabel(use24HourTime: bool, k: nat): string
  {
    if use24HourTime then ZeroPad(k, 2) else if k == 0 then "12" else NatToString(k)
  }

  /** The hour options, in picker order: 24 of them, or 12. */
  function HourOptions(use24HourTime: bool): (r: seq<string>)
    ensures |r| == if use24HourTime then 24 else 12
    ensures forall k :: 0 <= k < |r| ==> r[k] == HourLabel(use24HourTime, k)
  {
    seq(if use24HourTime then 24 else 12, k requires 0 <= k => HourLabel(use24HourTime, k))
  }

  /** The minute options "00".."59". */
  function MinuteOptions(): (r: seq<string>)
    ensures |r| == 60
    ensures forall k :: 0 <= k < 60 ==> r[k] == ZeroPad(k, 2)
  {
    seq(60, k requires 0 <= k => ZeroPad(k, 2))
  }

  /** The hour picker's value for hour h: "%02d", or h mod 12 with 0 shown as 12. */
  function ShownHour(use24HourTime: bool, h: nat): string
  {
    if use24HourTime then ZeroPad(h, 2)
    else NatToString(if h % 12 == 0 then 12 else h % 12)
  }

  /** The meridiem picker's value for hour h. */
  function ShownMeridiem(h: nat): string
  {
    if h >= 12 then "pm" else "am"
  }

  /**
   * parseDateTime's hour and minute: the hour picker's selected index, plus
   * 12 in 12-hour mode unless "am" is selected, and the minute picker's
   * selected index.
   */
  function PickedTime(use24HourTime: bool, hourIndex: int, meridiem: Option<string>, minuteIndex: int): (int, int)
  {
    (hourIndex + (if !use24HourTime && meridiem != Some("am") then 12 else 0), minuteIndex)
  }

  lemma NatToStringTwelve()
    ensures NatToString(12) == "12"
  {
    assert NatToString(12) == NatToString(1) + [DigitChar(2)];
  }

  /**
   * The hour shown for h is the option at h in 24-hour mode and at h mod 12
   * in 12-hour mode, and no earlier option has the same label.
   */
  lemma ShownHourIndex(use24HourTime: bool, h: nat)
    requires h < 24
    ensures IndexOf(HourOptions(use24HourTime), Some(ShownHour(use24HourTime, h)))
      == if use24HourTime then h else h % 12
  {
    var options, shown := HourOptions(use24HourTime), ShownHour(use24HourTime, h);
    if use24HourTime {
      forall k | 0 <= k < h ensures options[k] != shown {
        Pad2Injective(k, h);
      }
      IndexOfFirst(options, shown, h);
    } else {
      NatToStringTwelve();
      var j := h % 12;
      forall k | 0 <= k < j ensures options[k] != shown {
        if k == 0 {
          NatToStringInjective(12, j);
        } else {
          NatToStringInjective(k, j);
        }
      }
      IndexOfFirst(options, shown, j);
    }
  }

  lemma ShownMinuteIndex(m: nat)
    requires m < 60
    ensures IndexOf(MinuteOptions(), Some(ZeroPad(m, 2))) == m
  {
    var options := MinuteOptions();
    forall k | 0 <= k < m ensures options[k] != ZeroPad(m, 2) {
      Pad2Injective(k, m);
    }
    IndexOfFirst(options, ZeroPad(m, 2), m);
  }

  /**
   * Showing a time and reading it back gives the same hour and minute, in
   * both modes, for every hour 0..23 and minute 0..59.
   */
  lemma ShowParseRoundTrip(use24HourTime: bool, h: nat, m: nat)
    requires h < 24 && m < 60
    ensures PickedTime(use24HourTime,
                       IndexOf(HourOptions(use24HourTime), Some(ShownHour(use24HourTime, h))),
                       Some(ShownMeridiem(h)),
                       IndexOf(MinuteOptions(), Some(ZeroPad(m, 2)))) == (h, m)
  {
    var hourIndex := IndexOf(HourOptions(use24HourTime), Some(ShownHour(use24HourTime, h)));
    var minuteIndex := IndexOf(MinuteOptions(), Some(ZeroPad(m, 2)));
    ShownHourIndex(use24HourTime, h);
    ShownMinuteIndex(m);
    PickedIndices(use24HourTime, h, hourIndex, minuteIndex);
  }

  /** The hour index plus the meridiem's 12 is the hour again. */
  lemma PickedIndices(use24HourTime: bool, h: nat, hourIndex: int, minuteIndex: int)
    requires h < 24 && hourIndex == if use24HourTime then h else h % 12
    ensures PickedTime(use24HourTime, hourIndex, Some(ShownMeridiem(h)), minuteIndex) == (h, minuteIndex)
  {
    MeridiemIsAm(h);
    if h >= 12 {
      assert h % 12 == h - 12;
    } else {
      assert h % 12 == h;
    }
  }

  lemma MeridiemIsAm(h: nat)
    ensures (Some(ShownMeridiem(h)) == Some("am")) == (h < 12)
  {
    if h >= 12 {
      assert ShownMeridiem(h)[0] == 'p';
    }
  }

  /**
   * The defaults "12", "am" and "00" read back as noon in 24-hour mode (where
   * "12" is the thirteenth option) and as midnight in 12-hour mode.
   */
  lemma DefaultTime(use24HourTime: bool)
    ensures PickedTime(use24HourTime, IndexOf(HourOptions(use24HourTime), Some("12")), Some("am"),
                       IndexOf(MinuteOptions(), Some("00")))
      == (if use24HourTime then 12 else 0, 0)
  {
    NatToStringTwelve();
    assert ZeroPad(12, 2) == "12";
    assert ZeroPad(0, 2) == "00";
    ShownHourIndex(use24HourTime, 12);
    ShownMinuteIndex(0);
  }

  /** The ids of the customers, in list order. */
  function CustomerIds(customers: seq<Customer>): (ids: seq<int>)
    reads set c | c in customers
    ensures |ids| == |customers|
    ensures forall k :: 0 <= k < |customers| ==> ids[k] == customers[k].id
  {
    if customers == [] then []
    else CustomerIds(customers[..|customers| - 1]) + [customers[|customers| - 1].id]
  }

  function UserIds(users: seq<User>): (ids: seq<int>)
    ensures |ids| == |users|
    ensures forall k :: 0 <= k < |users| ==> ids[k] == users[k].id
  {
    if users == [] then [] else UserIds(users[..|users| - 1]) + [users[|users| - 1].id]
  }

  /** The constructor's loop: puts each customer under its id, in list order. */
  method KeyById(customers: seq<Customer>) returns (m: map<int, Customer>)
    ensures m == PutAll(map[], CustomerIds(customers), customers)
  {
    m := map[];
    var i := 0;
    while i < |customers|
      invariant 0 <= i <= |customers|
      invariant m == PutAll(map[], CustomerIds(customers[..i]), customers[..i])
    {
      var customer := customers[i];
      assert customers[..i + 1] == customers[..i] + [customer];
      assert CustomerIds(customers[..i + 1]) == CustomerIds(customers[..i]) + [customer.id];
      PutAllSnoc(map[], CustomerIds(customers[..i]), customers[..i], customer.id, customer);
      m := m[customer.id := customer];
      i := i + 1;
    }
    assert customers[..i] == customers;
  }

  /** buildUserMap's loop: puts each user under its id, in row order. */
  method PutUsers(m: map<int, User>, rows: seq<User>) returns (r: map<int, User>)
    ensures r == PutAll(m, UserIds(rows), rows)
  {
    r := m;
    var i := 0;
    while i < |rows|
      invariant 0 <= i <= |rows|
      invariant r == PutAll(m, UserIds(rows[..i]), rows[..i])
    {
      var user := rows[i];
      assert rows[..i + 1] == rows[..i] + [user];
      assert UserIds(rows[..i + 1]) == UserIds(rows[..i]) + [user.id];
      PutAllSnoc(m, UserIds(rows[..i]), rows[..i], user.id, user);
      r := r[user.id := user];
      i := i + 1;
    }
    assert rows[..i] == rows;
  }

  /** The hour, minute and meridiem pickers of one date field: three new, empty controls. */
  method NewTimePickers() returns (hour: Picker, minute: Picker, meridiem: Picker)
    ensures fresh(hour) && fresh(minute) && fresh(meridiem)
    ensures hour != minute && hour != meridiem && minute != meridiem
    ensures hour.items == [] && minute.items == [] && meridiem.items == []
  {
    hour := new Picker();
    minute := new Picker();
    meridiem := new Picker();
  }

  class AppointmentForm {
    const use24HourTime: bool
    const readOnly: bool
    const contactMap: map<int, Contact>
    var customerMap: map<int, Customer>
    var userMap: map<int, User>

    const startDatePicker: DatePicker
    const startHourPicker: Picker
    const startMinutePicker: Picker
    const startMeridiemPicker: Picker
    const endDatePicker: DatePicker
    const endHourPicker: Picker
    const endMinutePicker: Picker
    const endMeridiemPicker: Picker

    /** The six string pickers are distinct controls. */
    predicate PickersDistinct()
      reads this
    {
      && startHourPicker != startMinutePicker && startHourPicker != startMeridiemPicker
      && startMinutePicker != startMeridiemPicker
      && endHourPicker != endMinutePicker && endHourPicker != endMeridiemPicker
      && endMinutePicker != endMeridiemPicker
      && startHourPicker != endHourPicker && startMinutePicker != endMinutePicker
      && startMeridiemPicker != endMeridiemPicker
      && startHourPicker != endMinutePicker && startHourPicker != endMeridiemPicker
      && startMinutePicker != endHourPicker && startMinutePicker != endMeridiemPicker
      && startMeridiemPicker != endHourPicker && startMeridiemPicker != endMinutePicker
      && startDatePicker != endDatePicker
    }

    /** Keys each customer by its id, in list order; a later customer with the same id wins. */
    constructor(use24HourTime: bool, readOnly: bool, contactMap: map<int, Contact>, customers: seq<Customer>)
      ensures this.use24HourTime == use24HourTime && this.readOnly == readOnly && this.contactMap == contactMap
      ensures customerMap == PutAll(map[], CustomerIds(customers), customers)
      ensures userMap == map[]
      ensures PickersDistinct()
      ensures fresh(startDatePicker) && fresh(startHourPicker) && fresh(startMinutePicker) && fresh(startMeridiemPicker)
      ensures fresh(endDatePicker) && fresh(endHourPicker) && fresh(endMinutePicker) && fresh(endMeridiemPicker)
      ensures startHourPicker.items == [] && startMinutePicker.items == [] && startMeridiemPicker.items == []
      ensures endHourPicker.items == [] && endMinutePicker.items == [] && endMeridiemPicker.items == []
    {
      var keyed := KeyById(customers);
      var startHour, startMinute, startMeridiem := NewTimePickers();
      var endHour, endMinute, endMeridiem := NewTimePickers();
      this.use24HourTime := use24HourTime;
      this.readOnly := readOnly;
      this.contactMap := contactMap;
      startDatePicker := new DatePicker();
      startHourPicker, startMinutePicker, startMeridiemPicker := startHour, startMinute, startMeridiem;
      endDatePicker := new DatePicker();
      endHourPicker, endMinutePicker, endMeridiemPicker := endHour, endMinute, endMeridiem;
      userMap := map[];
      customerMap := keyed;
    }

    /** Appends the hour options for this locale to a picker and selects "12". */
    method FillHours(picker: Picker)
      modifies picker
      ensures picker.items == old(picker.items) + HourOptions(use24HourTime)
      ensures picker.value == Some("12")
      ensures picker.disabled == old(picker.disabled) && picker.visible == old(picker.visible)
    {
      var options := HourOptions(use24HourTime);
      var count := if use24HourTime then 24 else 12;
      var h := 0;
      while h < count
        invariant 0 <= h <= count
        invariant picker.items == old(picker.items) + options[..h]
        invariant picker.value == old(picker.value)
        invariant picker.disabled == old(picker.disabled) && picker.visible == old(picker.visible)
      {
        var option := if use24HourTime then ZeroPad(h, 2) else NatToString(if h == 0 then 12 else h);
        NatToStringTwelve();
        assert options[..h + 1] == options[..h] + [option];
        picker.items := picker.items + [option];
        h := h + 1;
      }
      assert options[..h] == options;
      picker.value := Some("12");
    }

    /** Appends "00".."59" to a picker and selects "00". */
    method FillMinutes(picker: Picker)
      modifies picker
      ensures picker.items == old(picker.items) + MinuteOptions()
      ensures picker.value == Some("00")
      ensures picker.disabled == old(picker.disabled) && picker.visible == old(picker.visible)
    {
      var options := MinuteOptions();
      var m := 0;
      while m < 60
        invariant 0 <= m <= 60
        invariant picker.items == old(picker.items) + options[..m]
        invariant picker.value == old(picker.value)
        invariant picker.disabled == old(picker.disabled) && picker.visible == old(picker.visible)
      {
        assert options[..m + 1] == options[..m] + [ZeroPad(m, 2)];
        picker.items := picker.items + [ZeroPad(m, 2)];
        m := m + 1;
      }
      assert options[..m] == options;
      assert ZeroPad(0, 2) == "00";
      picker.value := Some("00");
    }

    /** The meridiem half of initializeDateFields for one picker. */
    method SetUpMeridiem(picker: Picker)
      modifies picker
      ensures use24HourTime ==> picker.disabled && !picker.visible && picker.items == old(picker.items)
      ensures use24HourTime ==> picker.value == old(picker.value)
      ensures !use24HourTime ==> picker.items == old(picker.items) + ["am", "pm"]
      ensures !use24HourTime ==> picker.value == Some("am") && picker.disabled == readOnly
      ensures !use24HourTime ==> picker.visible == old(picker.visible)
    {
      if use24HourTime {
        picker.disabled := true;
        picker.visible := false;
      } else {
        picker.items := picker.items + ["am", "pm"];
        picker.value := Some("am");
        picker.disabled := readOnly;
      }
    }

    /**
     * initializeDateFields: the meridiem pickers hold "am", "pm" with "am"
     * selected (or are hidden and disabled in 24-hour mode), the hour pickers
     * the hour options with "12" selected, the minute pickers "00".."59" with
     * "00" selected, and both dates are today.
     */
    method InitializeDateFields(today: LocalDate)
      requires PickersDistinct()
      modifies startHourPicker, startMinutePicker, startMeridiemPicker
      modifies endHourPicker, endMinutePicker, endMeridiemPicker, startDatePicker, endDatePicker
      ensures startHourPicker.items == old(startHourPicker.items) + HourOptions(use24HourTime)
      ensures endHourPicker.items == old(endHourPicker.items) + HourOptions(use24HourTime)
      ensures startHourPicker.value == Some("12") && endHourPicker.value == Some("12")
      ensures startMinutePicker.items == old(startMinutePicker.items) + MinuteOptions()
      ensures endMinutePicker.items == old(endMinutePicker.items) + MinuteOptions()
      ensures startMinutePicker.value == Some("00") && endMinutePicker.value == Some("00")
      ensures !use24HourTime ==> startMeridiemPicker.items == old(startMeridiemPicker.items) + ["am", "pm"]
      ensures !use24HourTime ==> endMeridiemPicker.items == old(endMeridiemPicker.items) + ["am", "pm"]
      ensures !use24HourTime ==> startMeridiemPicker.value == Some("am") && endMeridiemPicker.value == Some("am")
      ensures use24HourTime ==> !startMeridiemPicker.visible && !endMeridiemPicker.visible
      ensures !use24HourTime ==> startMeridiemPicker.disabled == readOnly && endMeridiemPicker.disabled == readOnly
      ensures !use24HourTime ==>
        startMeridiemPicker.visible == old(startMeridiemPicker.visible) && endMeridiemPicker.visible == old(endMeridiemPicker.visible)
      ensures use24HourTime ==> startMeridiemPicker.disabled && endMeridiemPicker.disabled
      ensures use24HourTime ==>
        startMeridiemPicker.items == old(startMeridiemPicker.items) && endMeridiemPicker.items == old(endMeridiemPicker.items)
      ensures use24HourTime ==>
        startMeridiemPicker.value == old(startMeridiemPicker.value) && endMeridiemPicker.value == old(endMeridiemPicker.value)
      ensures startHourPicker.disabled == old(startHourPicker.disabled) && startHourPicker.visible == old(startHourPicker.visible)
      ensures endHourPicker.disabled == old(endHourPicker.disabled) && endHourPicker.visible == old(endHourPicker.visible)
      ensures startMinutePicker.disabled == old(startMinutePicker.disabled) && startMinutePicker.visible == old(startMinutePicker.visible)
      ensures endMinutePicker.disabled == old(endMinutePicker.disabled) && endMinutePicker.visible == old(endMinutePicker.visible)
      ensures startDatePicker.value == Some(today) && endDatePicker.value == Some(today)
      ensures startDatePicker.disabled == old(startDatePicker.disabled) && endDatePicker.disabled == old(endDatePicker.disabled)
    {
      SetUpMeridiem(endMeridiemPicker);
      SetUpMeridiem(startMeridiemPicker);
      FillHours(startHourPicker);
      FillHours(endHourPicker);
      FillMinutes(startMinutePicker);
      FillMinutes(endMinutePicker);
      startDatePicker.value := Some(today);
      endDatePicker.value := Some(today);
    }

    /**
     * setDateFields: shows a local date-time in one set of pickers. The hour
     * is "%02d" in 24-hour mode; otherwise it is h mod 12 (0 shown as 12)
     * with "pm" iff h >= 12. Every picker is disabled iff read-only.
     */
    method SetDateFields(t: DateTime, datePicker: DatePicker, hourPicker: Picker, minutePicker: Picker, meridiemPicker: Picker)
      requires 0 <= t.hour < 24 && 0 <= t.minute < 60
      requires hourPicker != minutePicker && hourPicker != meridiemPicker && minutePicker != meridiemPicker
      modifies datePicker, hourPicker, minutePicker, meridiemPicker
      ensures hourPicker.value == Some(ShownHour(use24HourTime, t.hour)) && hourPicker.disabled == readOnly
      ensures minutePicker.value == Some(ZeroPad(t.minute, 2)) && minutePicker.disabled == readOnly
      ensures !use24HourTime ==> meridiemPicker.value == Some(ShownMeridiem(t.hour)) && meridiemPicker.disabled == readOnly
      ensures use24HourTime ==> meridiemPicker.value == old(meridiemPicker.value)
      ensures datePicker.value == Some(LocalDate(t.year, t.month, t.day)) && datePicker.disabled == readOnly
      ensures hourPicker.items == old(hourPicker.items) && minutePicker.items == old(minutePicker.items)
      ensures meridiemPicker.items == old(meridiemPicker.items)
      ensures use24HourTime ==> meridiemPicker.disabled == old(meridiemPicker.disabled)
      ensures hourPicker.visible == old(hourPicker.visible) && minutePicker.visible == old(minutePicker.visible)
      ensures meridiemPicker.visible == old(meridiemPicker.visible)
    {
      if use24HourTime {
        hourPicker.value := Some(ZeroPad(t.hour, 2));
      } else {
        var modHour := t.hour % 12;
        hourPicker.value := Some(NatToString(if modHour == 0 then 12 else modHour));
        meridiemPicker.value := Some(if t.hour >= 12 then "pm" else "am");
        meridiemPicker.disabled := readOnly;
      }
      hourPicker.disabled := readOnly;
      minutePicker.value := Some(ZeroPad(t.minute, 2));
      minutePicker.disabled := readOnly;
      datePicker.value := Some(LocalDate(t.year, t.month, t.day));
      datePicker.disabled := readOnly;
    }

    /**
     * parseDateTime: the picked date at the picked hour and minute. Without
     * a date, or with an hour or minute outside the clock (nothing
     * selected), the Java code throws; the result is then None.
     */
    method ParseDateTime(datePicker: DatePicker, hourPicker: Picker, minutePicker: Picker, meridiemPicker: Picker)
      returns (r: Option<DateTime>)
      ensures var (h, m) := PickedTime(use24HourTime, hourPicker.SelectedIndex(), meridiemPicker.value, minutePicker.SelectedIndex());
        r == if datePicker.value.None? || !(0 <= h < 24) || !(0 <= m < 60) then None
             else Some(DateTime(datePicker.value.value.year, datePicker.value.value.month, datePicker.value.value.day, h, m, 0))
    {
      var hour := hourPicker.SelectedIndex();
      if !use24HourTime {
        hour := hour + (if meridiemPicker.value == Some("am") then 0 else 12);
      }
      var minute := minutePicker.SelectedIndex();
      if datePicker.value.None? || !(0 <= hour < 24) || !(0 <= minute < 60) {
        return None;
      }
      var date := datePicker.value.value;
      return Some(DateTime(date.year, date.month, date.day, hour, minute, 0));
    }

    /** setComboBoxFromMap: a non-zero id selects the mapped record (none if unmapped); disabled iff read-only. */
    method SetComboBoxFromMap<T>(comboBox: RecordPicker<T>, m: map<int, T>, id: int)
      modifies comboBox
      ensures comboBox.selection == if id == 0 then old(comboBox.selection) else if id in m then Some(m[id]) else None
      ensures comboBox.disabled == readOnly
    {
      if id != 0 {
        comboBox.selection := if id in m then Some(m[id]) else None;
      }
      comboBox.disabled := readOnly;
    }

    /** buildUserMap: on success every user row is put under its id; an error leaves the map alone. */
    method BuildUserMap(outcome: QueryOutcome<User>)
      modifies this`userMap
      ensures outcome.QueryFailed? ==> userMap == old(userMap)
      ensures outcome.Rows? ==> userMap == PutAll(old(userMap), UserIds(outcome.rows), outcome.rows)
    {
      if outcome.QueryFailed? {
        return;
      }
      userMap := PutUsers(userMap, outcome.rows);
    }
  }
}

=== FILE: base.dfy ===
/**
 * Controllers/Base: what every controller shares. It picks the program's
 * locale, keeps one lazily opened database connection, binds positional
 * statement arguments, and hands each statement's outcome to an
 * error-first handler: either the exception or the result, never both.
 *
 * The platform's default locale, whether a connection can be made and
 * what the database answers are parameters; the connection string read
 * from database.xml is not part of this model.
 */
module Base {
  import opened Wrappers
  import opened SqlTypes
  import opened Keyed

  datatype Locale = Locale(language: string, country: string)

  /** coerceLocale: the default locale when its language is English or French, otherwise en_US. */
  function CoerceLocale(default: Locale): (l: Locale)
  {
    if default.language == "en" || default.language == "fr" then default else Locale("en", "US")
  }

  /**
   * The program always runs in English or French, keeps a supported
   * default untouched, and coercing again changes nothing.
   */
  lemma CoerceLocaleSpec(default: Locale)
    ensures CoerceLocale(default).language == "en" || CoerceLocale(default).language == "fr"
    ensures default.language == "en" || default.language == "fr" ==> CoerceLocale(default) == default
    ensures default.language != "en" && default.language != "fr" ==> CoerceLocale(default) == Locale("en", "US")
    ensures CoerceLocale(CoerceLocale(default)) == CoerceLocale(default)
  {
  }

  /** The parameter positions 1..n, in order. */
  function Positions(n: nat): (ps: seq<int>)
    ensures |ps| == n
    ensures forall i :: 0 <= i < n ==> ps[i] == i + 1
  {
    seq(n, i requires 0 <= i < n => i + 1)
  }

  /** The statement's parameters after binding the arguments one position at a time. */
  function Bound(parameters: map<int, SqlValue>, arguments: seq<SqlValue>): map<int, SqlValue>
  {
    PutAll(parameters, Positions(|arguments|), arguments)
  }

  /**
   * Argument i sits at position i + 1, positions 1..n are set, and every
   * other position keeps what it held.
   */
  lemma BoundSpec(parameters: map<int, SqlValue>, arguments: seq<SqlValue>)
    ensures forall p :: p in Bound(parameters, arguments) <==> p in parameters || 1 <= p <= |arguments|
    ensures forall i :: 0 <= i < |arguments| ==> Bound(parameters, arguments)[i + 1] == arguments[i]
    ensures forall p :: p in parameters && !(1 <= p <= |arguments|) ==> Bound(parameters, arguments)[p] == parameters[p]
  {
    var ps := Positions(|arguments|);
    forall p ensures p in Bound(parameters, arguments) <==> p in parameters || 1 <= p <= |arguments| {
      PutAllLookup(parameters, ps, arguments, p);
      if 1 <= p <= |arguments| {
        assert ps[p - 1] == p;
      }
    }
    forall i | 0 <= i < |arguments| ensures Bound(parameters, arguments)[i + 1] == arguments[i] {
      assert ps[i] == i + 1;
      PutAllLookup(parameters, ps, arguments, i + 1);
    }
    forall p | p in parameters && !(1 <= p <= |arguments|) ensures Bound(parameters, arguments)[p] == parameters[p] {
      PutAllLookup(parameters, ps, arguments, p);
    }
  }

  /** A JDBC PreparedStatement, reduced to its parameter bindings. */
  class PreparedStatement {
    var parameters: map<int, SqlValue>

    constructor()
      ensures parameters == map[]
    {
      parameters := map[];
    }
  }

  /** setArguments: binds arguments[i] at position i + 1; no argument list binds nothing. */
  method SetArguments(stmt: PreparedStatement, arguments: Option<seq<SqlValue>>)
    modifies stmt
    ensures stmt.parameters == if arguments.None? then old(stmt.parameters) else Bound(old(stmt.parameters), arguments.value)
  {
    if arguments.None? {
      return;
    }
    var args := arguments.value;
    var i := 0;
    while i < |args|
      invariant 0 <= i <= |args|
      invariant stmt.parameters == Bound(old(stmt.parameters), args[..i])
    {
      assert Positions(i + 1) == Positions(i) + [i + 1];
      assert args[..i + 1] == args[..i] + [args[i]];
      PutAllSnoc(old(stmt.parameters), Positions(i), args[..i], i + 1, args[i]);
      stmt.parameters := stmt.parameters[i + 1 := args[i]];
      i := i + 1;
    }
    assert args[..i] == args;
  }

  /** What an error-first query handler receives: the exception and no rows, or no exception and the rows. */
  function QueryArguments<R>(outcome: QueryOutcome<R>): (a: (Option<SqlError>, Option<seq<R>>))
    ensures a.0.Some? != a.1.Some?
    ensures outcome.QueryFailed? ==> a == (Some(outcome.error), None)
    ensures outcome.Rows? ==> a == (None, Some(outcome.rows))
  {
    match outcome
    case Rows(rows) => (None, Some(rows))
    case QueryFailed(e) => (Some(e), None)
  }

  /** What an update handler receives: the exception, or the affected-row count. */
  function UpdateArguments(outcome: UpdateOutcome): (a: (Option<SqlError>, Option<int>))
    ensures a.0.Some? != a.1.Some?
    ensures outcome.UpdateFailed? ==> a == (Some(outcome.error), None)
    ensures outcome.Affected? ==> a == (None, Some(outcome.count))
  {
    match outcome
    case Affected(n) => (None, Some(n))
    case UpdateFailed(e) => (Some(e), None)
  }

  /** The exception executeInsert raises itself when the insert yields no key. */
  const NoKeyError := SqlError("Creating user failed, no ID obtained.")

  /**
   * What an insert handler receives: the first generated key, or an
   * exception, which is the insert's own or, when no key came back, the
   * no-key error.
   */
  function InsertArguments(outcome: InsertOutcome): (a: (Option<SqlError>, Option<int>))
    ensures a.0.Some? != a.1.Some?
    ensures a.1.Some? <==> outcome.GeneratedKeys? && outcome.keys != []
    ensures a.1.Some? ==> a.1.value == outcome.keys[0]
    ensures outcome.InsertFailed? ==> a.0 == Some(outcome.error)
    ensures outcome.GeneratedKeys? && outcome.keys == [] ==> a.0 == Some(NoKeyError)
  {
    match outcome
    case GeneratedKeys(keys) => if keys != [] then (None, Some(keys[0])) else (Some(NoKeyError), None)
    case InsertFailed(e) => (Some(e), None)
  }

  /** A database connection: which one was opened, and whether it has since been closed. */
  datatype Connection = Connection(serial: nat, closed: bool)

  /**
   * The connection a statement runs on: the open one reused, else a new one
   * numbered by the connections opened so far, else none.
   */
  function ConnectionFor(conn: Option<Connection>, openCount: nat, connects: bool): Option<Connection>
  {
    if conn.Some? && !conn.value.closed then conn
    else if connects then Some(Connection(openCount, false))
    else None
  }

  /** The number of connections opened once a statement has found its connection. */
  function OpenCountFor(conn: Option<Connection>, openCount: nat, connects: bool): nat
  {
    if (conn.None? || conn.value.closed) && connects then openCount + 1 else openCount
  }

  /** The connection after try-with-resources has closed it. */
  function ClosedConnection(c: Option<Connection>): Option<Connection>
  {
    if c.Some? then Some(c.value.(closed := true)) else None
  }

  /** Base's static connection and the statements run on it. */
  class Database {
    var conn: Option<Connection>
    /** How many connections have been opened so far. */
    var openCount: nat

    constructor()
      ensures conn == None && openCount == 0
    {
      conn := None;
      openCount := 0;
    }

    /**
     * createDatabaseConnection: an open connection is reused; otherwise a
     * new one is opened, and when that fails the field is left null and the
     * failure escapes as a RuntimeException (None here).
     */
    method CreateDatabaseConnection(connects: bool) returns (c: Option<Connection>)
      modifies this
      ensures old(conn).Some? && !old(conn).value.closed ==> c == old(conn) && conn == old(conn) && openCount == old(openCount)
      ensures (old(conn).None? || old(conn).value.closed) && connects ==>
        c == Some(Connection(old(openCount), false)) && conn == c && openCount == old(openCount) + 1
      ensures (old(conn).None? || old(conn).value.closed) && !connects ==>
        c == None && conn == None && openCount == old(openCount)
    {
      if conn.Some? && !conn.value.closed {
        return conn;
      }
      conn := None;
      if !connects {
        return None;
      }
      conn := Some(Connection(openCount, false));
      openCount := openCount + 1;
      return conn;
    }

    /**
     * executeQuery: binds the arguments, runs the query, and returns what the
     * handler makes of the error-first pair. Without a connection the
     * RuntimeException escapes and the handler never runs (None).
     */
    method ExecuteQuery<R, T>(arguments: Option<seq<SqlValue>>, connects: bool, outcome: QueryOutcome<R>,
                              handler: (Option<SqlError>, Option<seq<R>>) -> T)
      returns (r: Option<T>, parameters: map<int, SqlValue>)
      modifies this
      ensures (old(conn).Some? && !old(conn).value.closed) || connects <==> r.Some?
      ensures r.Some? ==> r.value == handler(QueryArguments(outcome).0, QueryArguments(outcome).1)
      ensures r.Some? ==> parameters == if arguments.None? then map[] else Bound(map[], arguments.value)
      ensures r.None? ==> parameters == map[]
      ensures conn == ConnectionFor(old(conn), old(openCount), connects)
      ensures openCount == OpenCountFor(old(conn), old(openCount), connects)
      ensures r.Some? ==> conn.Some? && !conn.value.closed
    {
      var c := CreateDatabaseConnection(connects);
      parameters := map[];
      if c.None? {
        return None, parameters;
      }
      var stmt := new PreparedStatement();
      SetArguments(stmt, arguments);
      parameters := stmt.parameters;
      match outcome {
        case Rows(rows) => r := Some(handler(None, Some(rows)));
        case QueryFailed(e) => r := Some(handler(Some(e), None));
      }
    }

    /** The wrapper without arguments: forwards a null argument list, so nothing is bound. */
    method ExecuteQueryWithoutArguments<R, T>(connects: bool, outcome: QueryOutcome<R>,
                                              handler: (Option<SqlError>, Option<seq<R>>) -> T)
      returns (r: Option<T>, parameters: map<int, SqlValue>)
      modifies this
      ensures (old(conn).Some? && !old(conn).value.closed) || connects <==> r.Some?
      ensures r.Some? ==> r.value == handler(QueryArguments(outcome).0, QueryArguments(outcome).1)
      ensures parameters == map[]
      ensures conn == ConnectionFor(old(conn), old(openCount), connects)
      ensures openCount == OpenCountFor(old(conn), old(openCount), connects)
    {
      r, parameters := ExecuteQuery(None, connects, outcome, handler);
    }

    /**
     * executeUpdate: as executeQuery, with the affected-row count in place
     * of the rows; the connection is a resource of its try block, so it is
     * closed afterwards and the next statement opens a new one.
     */
    method ExecuteUpdate<T>(arguments: Option<seq<SqlValue>>, connects: bool, outcome: UpdateOutcome,
                            handler: (Option<SqlError>, Option<int>) -> T)
      returns (r: Option<T>, parameters: map<int, SqlValue>)
      modifies this
      ensures (old(conn).Some? && !old(conn).value.closed) || connects <==> r.Some?
      ensures r.Some? ==> r.value == handler(UpdateArguments(outcome).0, UpdateArguments(outcome).1)
      ensures r.Some? ==> parameters == if arguments.None? then map[] else Bound(map[], arguments.value)
      ensures r.None? ==> parameters == map[]
      ensures conn == ClosedConnection(ConnectionFor(old(conn), old(openCount), connects))
      ensures openCount == OpenCountFor(old(conn), old(openCount), connects)
      ensures r.Some? ==> conn.Some? && conn.value.closed
    {
      var c := CreateDatabaseConnection(connects);
      parameters := map[];
      if c.None? {
        return None, parameters;
      }
      var stmt := new PreparedStatement();
      SetArguments(stmt, arguments);
      parameters := stmt.parameters;
      match outcome {
        case Affected(n) => r := Some(handler(None, Some(n)));
        case UpdateFailed(e) => r := Some(handler(Some(e), None));
      }
      conn := Some(c.value.(closed := true));
    }

    /**
     * executeInsert: the handler is called once, with the first generated key
     * or with an exception; no key at all takes the error path. Returns the
     * pair the handler was given, or None when no connection could be made.
     * Like executeUpdate, it closes the shared connection.
     */
    method ExecuteInsert(arguments: Option<seq<SqlValue>>, connects: bool, outcome: InsertOutcome)
      returns (handed: Option<(Option<SqlError>, Option<int>)>, parameters: map<int, SqlValue>)
      modifies this
      ensures (old(conn).Some? && !old(conn).value.closed) || connects <==> handed.Some?
      ensures handed.Some? ==> handed.value == InsertArguments(outcome)
      ensures handed.Some? ==> parameters == if arguments.None? then map[] else Bound(map[], arguments.value)
      ensures handed.None? ==> parameters == map[]
      ensures conn == ClosedConnection(ConnectionFor(old(conn), old(openCount), connects))
      ensures openCount == OpenCountFor(old(conn), old(openCount), connects)
      ensures handed.Some? ==> conn.Some? && conn.value.closed
    {
      var c := CreateDatabaseConnection(connects);
      parameters := map[];
      if c.None? {
        return None, parameters;
      }
      var stmt := new PreparedStatement();
      SetArguments(stmt, arguments);
      parameters := stmt.parameters;
      match outcome {
        case GeneratedKeys(keys) =>
          if keys != [] {
            handed := Some((None, Some(keys[0])));
          } else {
            handed := Some((Some(NoKeyError), None));
          }
        case InsertFailed(e) => handed := Some((Some(e), None));
      }
      conn := Some(c.value.(closed := true));
    }
  }
}

=== FILE: contact.dfy ===
/**
 * Models/Contact: an immutable contact, shown in pickers by its name and in
 * report 2 as a group header "<id>\t<name>\t<email>\n".
 */
module Contacts {
  import opened Text

  /** The final fields are fixed at construction; a datatype has no setters. */
  datatype Contact = Contact(id: int, name: string, email: string)
  {
    /** toString: what the picker shows. */
    function ToString(): string
    {
      name
    }

    /** toReportString: String.format("%d\t%s\t%s\n", id, name, email). */
    function ReportString(): string
    {
      IntToString(id) + "\t" + name + "\t" + email + "\n"
    }
  }

  /**
   * A report header names its contact: the id is everything before the first
   * tab and reads back as the id; when the name holds no tab, the name and
   * the email are the two tab-separated fields after it.
   */
  lemma ReportStringSpec(c: Contact)
    ensures var line, n := c.ReportString(), |IntToString(c.id)|;
      && |line| == n + |c.name| + |c.email| + 3
      && '\t' !in line[..n]
      && line[n] == '\t'
      && ParseInt(line[..n]) == c.id
      && line[n + 1..n + 1 + |c.name|] == c.ToString()
      && line[n + 1 + |c.name|] == '\t'
      && line[n + 2 + |c.name|..|line| - 1] == c.email
      && line[|line| - 1] == '\n'
  {
    var line, digits := c.ReportString(), IntToString(c.id);
    var n := |digits|;
    assert line[..n] == digits;
    IntToStringRoundTrip(c.id);
    assert line[n + 1..n + 1 + |c.name|] == c.name;
    assert line[n + 2 + |c.name|..|line| - 1] == c.email;
  }
}

=== FILE: country.dfy ===
/** Models/Country and Models/User: immutable value holders shown by name. */
module Countries {

  /** A country; toString shows its name. */
  datatype Country = Country(id: int, country: string)
  {
    function ToString(): string
    {
      country
    }
  }

  /** A user; toString shows the user name. */
  datatype User = User(id: int, name: string)
  {
    function ToString(): string
    {
      name
    }
  }
}

=== FILE: customer.dfy ===
/**
 * Models/Customer: a customer row whose setters trim, whose toValues list
 * is bound positionally to the insert and update statements, and whose
 * applyChanges copies another customer's (trimmed) fields onto this one.
 */
module Customers {
  import opened Text
  import opened SqlTypes
  import opened Record

  /** The five declared fields of a Customer, in declaration order. */
  datatype CustomerData = CustomerData(name: string, address: string, postalCode: string, phone: string, divisionId: int)
  {
    /** The fields validate scans, as reflection lists them. */
    function Fields(): (fs: seq<Field>)
      ensures |fs| == 5
    {
      [ Field("name", StringValue(name)), Field("address", StringValue(address)),
        Field("postalCode", StringValue(postalCode)), Field("phone", StringValue(phone)),
        Field("divisionId", LongValue(divisionId)) ]
    }

    /** toValues: the values bound to the statement parameters, in order. */
    function Values(): (vs: seq<SqlValue>)
    {
      [SqlString(name), SqlString(address), SqlString(postalCode), SqlString(phone), SqlLong(divisionId)]
    }

    /** The four strings trimmed, as the setters store them. */
    function Trimmed(): (d: CustomerData)
      ensures IsTrimmed(d.name) && IsTrimmed(d.address) && IsTrimmed(d.postalCode) && IsTrimmed(d.phone)
      ensures d.divisionId == divisionId
    {
      TrimSpec(name);
      TrimSpec(address);
      TrimSpec(postalCode);
      TrimSpec(phone);
      CustomerData(Trim(name), Trim(address), Trim(postalCode), Trim(phone), divisionId)
    }
  }

  /** A customer as a result row gives it: the id and the declared fields. */
  datatype CustomerRecord = CustomerRecord(id: int, data: CustomerData)

  /** A statement value carries exactly what a field holds. */
  predicate Binds(f: Field, v: SqlValue) {
    match f.value
    case StringValue(s) => v == SqlString(s)
    case LongValue(n) => v == SqlLong(n)
    case TimeValue(_) => false
  }

  /** toValues lists the declared fields, in declaration order, one value each. */
  lemma ValuesFollowFields(d: CustomerData)
    ensures |d.Values()| == |d.Fields()| == 5
    ensures forall k :: 0 <= k < 5 ==> Binds(d.Fields()[k], d.Values()[k])
  {
  }

  /** Trimming twice is trimming once. */
  lemma TrimmedIdempotent(d: CustomerData)
    ensures d.Trimmed().Trimmed() == d.Trimmed()
  {
    TrimIdempotent(d.name);
    TrimIdempotent(d.address);
    TrimIdempotent(d.postalCode);
    TrimIdempotent(d.phone);
  }

  /** A customer passes validate exactly when its four strings are non-empty and its division id is not 0. */
  lemma ValidationSpec(d: CustomerData)
    ensures ValidationResult(d.Fields()) == Passed <==>
      d.name != "" && d.address != "" && d.postalCode != "" && d.phone != "" && d.divisionId != 0
  {
    ValidationResultSpec(d.Fields());
    var fs := d.Fields();
    assert fs[0].value == StringValue(d.name) && fs[1].value == StringValue(d.address);
    assert fs[2].value == StringValue(d.postalCode) && fs[3].value == StringValue(d.phone);
    assert fs[4].value == LongValue(d.divisionId);
  }

  /** Otherwise the first offending field, in declaration order, names the error. */
  lemma ValidationErrorSpec(d: CustomerData)
    ensures d.name == "" ==> ValidationResult(d.Fields()) == ValidationError(ErrorMessage(Titleize("name"), "empty"))
    ensures d.name != "" && d.address == "" ==>
      ValidationResult(d.Fields()) == ValidationError(ErrorMessage(Titleize("address"), "empty"))
    ensures d.name != "" && d.address != "" && d.postalCode == "" ==>
      ValidationResult(d.Fields()) == ValidationError(ErrorMessage(Titleize("postalCode"), "empty"))
    ensures d.name != "" && d.address != "" && d.postalCode != "" && d.phone == "" ==>
      ValidationResult(d.Fields()) == ValidationError(ErrorMessage(Titleize("phone"), "empty"))
    ensures d.name != "" && d.address != "" && d.postalCode != "" && d.phone != "" && d.divisionId == 0 ==>
      ValidationResult(d.Fields()) == ValidationError(ErrorMessage(Titleize("divisionId"), "empty"))
  {
    ValidationResultSpec(d.Fields());
    var fs := d.Fields();
    assert fs[0].value == StringValue(d.name) && fs[1].value == StringValue(d.address);
    assert fs[2].value == StringValue(d.postalCode) && fs[3].value == StringValue(d.phone);
    assert fs[4].value == LongValue(d.divisionId);
  }

  /** The id is not a declared field: an unsaved customer with every field filled passes. */
  lemma UnsavedCustomerCanPass(d: CustomerData)
    requires d.name != "" && d.address != "" && d.postalCode != "" && d.phone != "" && d.divisionId != 0
    ensures ValidationResult(d.Fields()) == Passed
  {
    ValidationSpec(d);
  }

  /** Whitespace-only strings are not empty: the check does not trim. */
  lemma BlankCustomerPasses()
    ensures ValidationResult(CustomerData(" ", " ", " ", " ", 1).Fields()) == Passed
  {
    ValidationSpec(CustomerData(" ", " ", " ", " ", 1));
  }

  class Customer {
    var id: int
    var name: string
    var address: string
    var postalCode: string
    var phone: string
    var divisionId: int

    /** The declared fields, without the inherited id. */
    function Data(): CustomerData
      reads this
    {
      CustomerData(name, address, postalCode, phone, divisionId)
    }

    /** Stores every argument as given; nothing is trimmed. */
    constructor(id: int, name: string, address: string, postalCode: string, phone: string, divisionId: int)
      ensures this.id == id
      ensures Data() == CustomerData(name, address, postalCode, phone, divisionId)
    {
      this.id := id;
      this.name := name;
      this.address := address;
      this.postalCode := postalCode;
      this.phone := phone;
      this.divisionId := divisionId;
    }

    method SetId(id: int)
      modifies this
      ensures this.id == id && Data() == old(Data())
    {
      this.id := id;
    }

    method SetName(name: string)
      modifies this
      ensures Data() == old(Data()).(name := Trim(name)) && id == old(id)
    {
      var t := Trim(name);
      this.name := t;
    }

    method SetAddress(address: string)
      modifies this
      ensures Data() == old(Data()).(address := Trim(address)) && id == old(id)
    {
      var t := Trim(address);
      this.address := t;
    }

    method SetPostalCode(postalCode: string)
      modifies this
      ensures Data() == old(Data()).(postalCode := Trim(postalCode)) && id == old(id)
    {
      var t := Trim(postalCode);
      this.postalCode := t;
    }

    method SetPhone(phone: string)
      modifies this
      ensures Data() == old(Data()).(phone := Trim(phone)) && id == old(id)
    {
      var t := Trim(phone);
      this.phone := t;
    }

    method SetDivisionId(divisionId: int)
      modifies this
      ensures Data() == old(Data()).(divisionId := divisionId) && id == old(id)
    {
      this.divisionId := divisionId;
    }

    /** The values bound to the insert and update statements. */
    method ToValues() returns (vs: seq<SqlValue>)
      ensures |vs| == 5
      ensures forall k :: 0 <= k < 5 ==> Binds(Data().Fields()[k], vs[k])
    {
      vs := [SqlString(name), SqlString(address), SqlString(postalCode), SqlString(phone), SqlLong(divisionId)];
    }

    /** A new customer with the same id and fields. */
    method Copy() returns (c: Customer)
      ensures fresh(c)
      ensures c.id == id && c.Data() == Data()
    {
      c := new Customer(id, name, address, postalCode, phone, divisionId);
    }

    /**
     * Copies other's five fields through the trimming setters and returns
     * this; the id stays. other is read before anything is written, so
     * passing this itself trims this in place.
     */
    method ApplyChanges(other: Customer) returns (r: Customer)
      modifies this
      ensures r == this
      ensures Data() == old(other.Data()).Trimmed()
      ensures id == old(id)
      ensures other != this ==> other.Data() == old(other.Data()) && other.id == old(other.id)
    {
      var d := other.Data();
      SetName(d.name);
      SetAddress(d.address);
      SetPostalCode(d.postalCode);
      SetPhone(d.phone);
      SetDivisionId(d.divisionId);
      return this;
    }

    /** validate over the declared fields; changes nothing. */
    method Validate() returns (r: ValidationOutcome)
      ensures r == ValidationResult(Data().Fields())
    {
      r := Record.Validate(Data().Fields());
    }
  }
}

=== FILE: customer_form.dfy ===
/**
 * Controllers/CustomerForm: the customer dialog. Its country picker lists
 * every country that owns a division, its division picker the divisions of
 * the chosen country, both in name order; saving copies the trimmed text
 * fields and the chosen division into the customer and validates it.
 *
 * The widgets become fields: a picker is its item list, its selection and
 * its disabled flag; a text field is its text and its disabled flag.
 * HashMap.forEach visits the keys in an order the model leaves open.
 */
module CustomerForms {
  import opened Wrappers
  import opened Text
  import opened Sorting
  import opened Record
  import opened Divisions
  import opened Countries
  import opened Customers
  import opened Forms
  import opened Keyed

  function CountryName(c: Country): string { c.country }

  function DivisionName(d: Division): string { d.division }

  class CustomerForm {
    const divisionMap: map<int, Division>
    const countryMap: map<int, Country>
    const mode: Mode
    const readOnly: bool
    const record: Customer

    var countries: seq<Country>
    var selectedCountry: Option<Country>
    var countryDisabled: bool
    var divisions: seq<Division>
    var selectedDivision: Option<Division>
    var divisionDisabled: bool
    var idText: string
    var idDisabled: bool
    var nameText: string
    var nameDisabled: bool
    var addressText: string
    var addressDisabled: bool
    var postalCodeText: string
    var postalCodeDisabled: bool
    var phoneText: string
    var phoneDisabled: bool
    var buttonBarVisible: bool

    /** Every division's country is known. */
    predicate CountriesKnown()
      reads this
    {
      forall id :: id in divisionMap ==> divisionMap[id].countryId in countryMap
    }

    /** The countries of the divisions stored under the given keys. */
    ghost function CountriesOf(ids: set<int>): set<Country>
      reads this
      requires CountriesKnown() && ids <= divisionMap.Keys
    {
      set id | id in ids :: countryMap[divisionMap[id].countryId]
    }

    /** The countries that own at least one division. */
    ghost function OwningCountries(): set<Country>
      reads this
      requires CountriesKnown()
    {
      CountriesOf(divisionMap.Keys)
    }

    lemma CountriesOfAdd(ids: set<int>, k: int)
      requires CountriesKnown() && ids <= divisionMap.Keys && k in divisionMap
      ensures CountriesOf(ids + {k}) == CountriesOf(ids) + {countryMap[divisionMap[k].countryId]}
    {
    }

    /** The divisions stored under the given keys. */
    ghost function DivisionsOf(ids: set<int>): set<Division>
      reads this
      requires ids <= divisionMap.Keys
    {
      set id | id in ids :: divisionMap[id]
    }

    lemma DivisionsOfAdd(ids: set<int>, k: int)
      requires ids <= divisionMap.Keys && k in divisionMap
      ensures DivisionsOf(ids + {k}) == DivisionsOf(ids) + {divisionMap[k]}
    {
    }

    /** Each country is stored under its own id. */
    predicate CountryKeysMatch()
      reads this
    {
      forall k :: k in countryMap ==> countryMap[k].id == k
    }

    /** The keys of the divisions of country c. */
    ghost function DivisionIdsOf(c: Country): set<int>
      reads this
    {
      set id | id in divisionMap && divisionMap[id].countryId == c.id
    }

    constructor(divisionMap: map<int, Division>, countryMap: map<int, Country>, mode: Mode, readOnly: bool, record: Customer)
      ensures this.divisionMap == divisionMap && this.countryMap == countryMap
      ensures this.mode == mode && this.readOnly == readOnly && this.record == record
      ensures countries == [] && selectedCountry.None? && divisions == [] && selectedDivision.None?
      ensures buttonBarVisible
    {
      this.divisionMap := divisionMap;
      this.countryMap := countryMap;
      this.mode := mode;
      this.readOnly := readOnly;
      this.record := record;
      countries := [];
      selectedCountry := None;
      countryDisabled := false;
      divisions := [];
      selectedDivision := None;
      divisionDisabled := false;
      idText, nameText, addressText, postalCodeText, phoneText := "", "", "", "", "";
      idDisabled, nameDisabled, addressDisabled, postalCodeDisabled, phoneDisabled := false, false, false, false, false;
      buttonBarVisible := true;
    }

    /** HashMap.forEach over the divisions: each owning country once, in visiting order. */
    method CollectCountries() returns (found: seq<Country>)
      requires CountriesKnown()
      ensures Elements(found) == OwningCountries()
      ensures Distinct(found)
    {
      found := [];
      var remaining := divisionMap.Keys;
      while remaining != {}
        invariant remaining <= divisionMap.Keys
        invariant Elements(found) == CountriesOf(divisionMap.Keys - remaining)
        invariant Distinct(found)
        decreases remaining
      {
        NonEmptyHasKey(remaining);
        var key :| key in remaining;
        var country := countryMap[divisionMap[key].countryId];
        CountriesOfAdd(divisionMap.Keys - remaining, key);
        assert divisionMap.Keys - (remaining - {key}) == (divisionMap.Keys - remaining) + {key};
        if country !in found {
          ElementsSnoc(found, country);
          found := found + [country];
        }
        remaining := remaining - {key};
      }
      assert divisionMap.Keys - remaining == divisionMap.Keys;
    }

    /** HashMap.forEach over the divisions: those of country c, in visiting order. */
    method CollectDivisions(c: Country) returns (found: seq<Division>)
      ensures Elements(found) == DivisionsOf(DivisionIdsOf(c))
      ensures |found| == |DivisionIdsOf(c)|
    {
      found := [];
      ghost var taken: set<int> := {};
      var remaining := divisionMap.Keys;
      while remaining != {}
        invariant remaining <= divisionMap.Keys
        invariant taken == set id | id in divisionMap.Keys - remaining && divisionMap[id].countryId == c.id
        invariant taken <= divisionMap.Keys
        invariant |found| == |taken|
        invariant Elements(found) == DivisionsOf(taken)
        decreases remaining
      {
        NonEmptyHasKey(remaining);
        var key :| key in remaining;
        var division := divisionMap[key];
        assert divisionMap.Keys - (remaining - {key}) == (divisionMap.Keys - remaining) + {key};
        if division.countryId == c.id {
          DivisionsOfAdd(taken, key);
          ElementsSnoc(found, division);
          found := found + [division];
          taken := taken + {key};
        }
        remaining := remaining - {key};
      }
      assert divisionMap.Keys - remaining == divisionMap.Keys;
    }

    /** The divisions of c are exactly the stored divisions whose country id is c's. */
    lemma DivisionsOfCountry(c: Country, d: Division)
      ensures d in DivisionsOf(DivisionIdsOf(c)) <==> d in divisionMap.Values && d.countryId == c.id
    {
      if d in divisionMap.Values && d.countryId == c.id {
        ValueHasKey(divisionMap, d);
        var k :| k in divisionMap && divisionMap[k] == d;
        assert k in DivisionIdsOf(c);
      }
    }

    /**
     * initialize: the country picker lists each country owning a division
     * exactly once, in name order; the id field and the division picker
     * start disabled.
     */
    method Initialize()
      requires countries == [] && CountriesKnown()
      modifies this`countries, this`idDisabled, this`divisionDisabled
      ensures forall c :: c in countries <==> c in OwningCountries()
      ensures Distinct(countries)
      ensures SortedBy(countries, CountryName)
      ensures idDisabled && divisionDisabled
    {
      var found := CollectCountries();
      SortByDistinct(found, CountryName);
      forall c ensures c in SortBy(found, CountryName) <==> c in found {
        SortByMembers(found, CountryName, c);
      }
      countries := SortBy(found, CountryName);
      idDisabled := true;
      divisionDisabled := true;
    }

    /**
     * populateDivisions: clears the division picker and refills it with the
     * divisions of the selected country, in name order; the picker is
     * disabled iff the form is read-only or the list is empty; clearing the
     * list clears its selection. With no country selected the lookup fails on the first division (ok is false)
     * after the list was cleared; with no divisions at all it does not.
     */
    method PopulateDivisions() returns (ok: bool)
      modifies this`divisions, this`divisionDisabled, this`selectedDivision
      ensures ok <==> selectedCountry.Some? || divisionMap == map[]
      ensures ok && selectedCountry.Some? ==>
        && (forall d :: d in divisions <==> d in divisionMap.Values && d.countryId == selectedCountry.value.id)
        && |divisions| == |DivisionIdsOf(selectedCountry.value)|
        && SortedBy(divisions, DivisionName)
      ensures !ok || selectedCountry.None? ==> divisions == []
      ensures divisionDisabled == if ok then readOnly || divisions == [] else old(divisionDisabled)
      ensures selectedDivision.None?
    {
      divisions := [];
      selectedDivision := None;
      if selectedCountry.None? {
        if divisionMap != map[] {
          return false;
        }
        divisionDisabled := true;
        return true;
      }
      var country := selectedCountry.value;
      var found := CollectDivisions(country);
      forall d ensures d in SortBy(found, DivisionName) <==> d in divisionMap.Values && d.countryId == country.id {
        SortByMembers(found, DivisionName, d);
        DivisionsOfCountry(country, d);
      }
      divisionDisabled := readOnly || found == [];
      divisions := SortBy(found, DivisionName);
      ok := true;
    }

    /**
     * validateRecord: the four texts, trimmed, and the selected division's
     * id (0 when none is selected) go into the customer through its setters,
     * then the customer is validated.
     */
    method ValidateRecord() returns (r: ValidationOutcome)
      modifies record
      ensures record.Data() == CustomerData(Trim(nameText), Trim(addressText), Trim(postalCodeText), Trim(phoneText),
        if selectedDivision.Some? then selectedDivision.value.id else 0)
      ensures record.id == old(record.id)
      ensures r == ValidationResult(record.Data().Fields())
      ensures selectedDivision.None? ==> r != Passed
    {
      TrimIdempotent(nameText);
      TrimIdempotent(addressText);
      TrimIdempotent(postalCodeText);
      TrimIdempotent(phoneText);
      record.SetName(Trim(nameText));
      record.SetAddress(Trim(addressText));
      record.SetPostalCode(Trim(postalCodeText));
      record.SetPhone(Trim(phoneText));
      var divisionId := if selectedDivision.Some? then selectedDivision.value.id else 0;
      record.SetDivisionId(divisionId);
      r := record.Validate();
      ValidationSpec(record.Data());
    }

    /**
     * The picker half of setFields: selects the country of the given
     * division (none when the country is unknown), refills the division
     * picker for it and selects the division. An unknown division fails at
     * the lookup before anything changes; an unknown country clears the
     * country selection, the division list and its selection, then fails when
     * populateDivisions meets the first division, before the division is
     * selected.
     */
    method SelectDivision(divisionId: int) returns (ok: bool)
      modifies this`selectedCountry, this`countryDisabled, this`divisions, this`divisionDisabled, this`selectedDivision
      ensures ok <==> divisionId in divisionMap && divisionMap[divisionId].countryId in countryMap
      ensures ok ==> var division := divisionMap[divisionId];
        && selectedCountry == Some(countryMap[division.countryId])
        && countryDisabled == readOnly
        && selectedDivision == Some(division)
        && (forall d :: d in divisions <==> d in divisionMap.Values && d.countryId == selectedCountry.value.id)
        && SortedBy(divisions, DivisionName)
        && |divisions| == |DivisionIdsOf(selectedCountry.value)|
        && divisionDisabled == (readOnly || divisions == [])
        && (CountryKeysMatch() ==> division in divisions && divisionDisabled == readOnly)
      ensures divisionId !in divisionMap ==>
        && selectedCountry == old(selectedCountry) && countryDisabled == old(countryDisabled)
        && divisions == old(divisions) && divisionDisabled == old(divisionDisabled)
        && selectedDivision == old(selectedDivision)
      ensures divisionId in divisionMap && divisionMap[divisionId].countryId !in countryMap ==>
        && selectedCountry.None? && countryDisabled == readOnly
        && divisions == [] && divisionDisabled == old(divisionDisabled)
        && selectedDivision.None?
    {
      if divisionId !in divisionMap {
        return false;
      }
      var division := divisionMap[divisionId];
      selectedCountry := if division.countryId in countryMap then Some(countryMap[division.countryId]) else None;
      countryDisabled := readOnly;
      assert division in divisionMap.Values;
      ok := PopulateDivisions();
      if !ok {
        return;
      }
      selectedDivision := Some(division);
    }

    /** The text half of setFields: each text shows its field and is disabled iff read-only. */
    method ShowTexts()
      modifies this`idText, this`nameText, this`nameDisabled, this`addressText, this`addressDisabled
      modifies this`postalCodeText, this`postalCodeDisabled, this`phoneText, this`phoneDisabled
      ensures idText == IntToString(record.id)
      ensures nameText == record.name && addressText == record.address
      ensures postalCodeText == record.postalCode && phoneText == record.phone
      ensures nameDisabled == readOnly && addressDisabled == readOnly
      ensures postalCodeDisabled == readOnly && phoneDisabled == readOnly
    {
      idText := IntToString(record.id);
      nameText := record.name;
      nameDisabled := readOnly;
      addressText := record.address;
      addressDisabled := readOnly;
      postalCodeText := record.postalCode;
      postalCodeDisabled := readOnly;
      phoneText := record.phone;
      phoneDisabled := readOnly;
    }

    /**
     * setFields: in Read mode the button bar is hidden; the texts show the
     * customer and are disabled iff read-only; then the pickers show the
     * customer's division and its country. The country list and the id
     * field are left as initialize set them.
     */
    method SetFields() returns (ok: bool)
      modifies this`buttonBarVisible, this`idText, this`nameText, this`nameDisabled, this`addressText, this`addressDisabled
      modifies this`postalCodeText, this`postalCodeDisabled, this`phoneText, this`phoneDisabled
      modifies this`selectedCountry, this`countryDisabled, this`divisions, this`divisionDisabled, this`selectedDivision
      ensures buttonBarVisible == (old(buttonBarVisible) && mode != Read)
      ensures idText == IntToString(record.id)
      ensures nameText == record.name && addressText == record.address
      ensures postalCodeText == record.postalCode && phoneText == record.phone
      ensures nameDisabled == readOnly && addressDisabled == readOnly
      ensures postalCodeDisabled == readOnly && phoneDisabled == readOnly
      ensures ok <==> record.divisionId in divisionMap && divisionMap[record.divisionId].countryId in countryMap
      ensures ok ==> var division := divisionMap[record.divisionId];
        && selectedCountry == Some(countryMap[division.countryId])
        && countryDisabled == readOnly
        && selectedDivision == Some(division)
        && (forall d :: d in divisions <==> d in divisionMap.Values && d.countryId == selectedCountry.value.id)
        && SortedBy(divisions, DivisionName)
        && |divisions| == |DivisionIdsOf(selectedCountry.value)|
        && divisionDisabled == (readOnly || divisions == [])
        && (CountryKeysMatch() ==> division in divisions && divisionDisabled == readOnly)
      ensures record.divisionId !in divisionMap ==>
        && selectedCountry == old(selectedCountry) && countryDisabled == old(countryDisabled)
        && divisions == old(divisions) && divisionDisabled == old(divisionDisabled)
        && selectedDivision == old(selectedDivision)
      ensures record.divisionId in divisionMap && divisionMap[record.divisionId].countryId !in countryMap ==>
        && selectedCountry.None? && countryDisabled == readOnly
        && divisions == [] && divisionDisabled == old(divisionDisabled)
        && selectedDivision.None?
    {
      if mode == Read {
        buttonBarVisible := false;
      }
      ShowTexts();
      ok := SelectDivision(record.divisionId);
    }
  }
}

=== FILE: customer_table.dfy ===
/**
 * Controllers/CustomerTable: the customer list. It loads the divisions and
 * countries into id-keyed maps, appends one Customer per result row to its
 * table, shows the upcoming-appointment alert, and supplies the statements
 * the customer form runs.
 *
 * Each query's result set is its rows (or its error), given as a
 * parameter; bundle.getString is the parameter `bundle`. CustomerTable
 * extends Table in the source; here it owns one.
 */
module CustomerTables {
  import opened Wrappers
  import opened Text
  import opened SqlTypes
  import opened Keyed
  import opened Record
  import opened Divisions
  import opened Countries
  import opened Customers
  import opened Tables
  import opened Base

  // ---------------------------------------------------------------------
  // Statement text. Each statement is built from its table, its column
  // names and one "?" per bound value, which spells out the source's
  // literal text.
  // ---------------------------------------------------------------------

  /** parts[0] + sep + parts[1] + sep + ... */
  function Join(parts: seq<string>, sep: string): string
    decreases |parts|
  {
    if parts == [] then ""
    else if |parts| == 1 then parts[0]
    else parts[0] + sep + Join(parts[1..], sep)
  }

  /** n placeholders, comma-separated: "?, ?, ?". */
  function Marks(n: nat): string
  {
    if n == 0 then "" else if n == 1 then "?" else "?, " + Marks(n - 1)
  }

  /** Number of placeholders in a statement or fragment. */
  function Placeholders(s: string): nat
  {
    Count(s, '?')
  }

  /** Number of placeholders in all the parts together. */
  function PlaceholdersIn(parts: seq<string>): nat
    decreases |parts|
  {
    if parts == [] then 0 else Placeholders(parts[0]) + PlaceholdersIn(parts[1..])
  }

  /** Names with no placeholder in them: table and column names. */
  predicate Plain(names: seq<string>)
  {
    forall i :: 0 <= i < |names| ==> '?' !in names[i]
  }

  /** "c = ?" for each column c. */
  function Assignments(columns: seq<string>): (r: seq<string>)
    ensures |r| == |columns|
    ensures forall i :: 0 <= i < |columns| ==> r[i] == columns[i] + " = ?"
  {
    seq(|columns|, i requires 0 <= i < |columns| => columns[i] + " = ?")
  }

  function Where(key: string): string
  {
    " WHERE " + key + " = ?"
  }

  function InsertSql(table: string, columns: seq<string>): string
  {
    var head := "INSERT INTO " + table + " (";
    var tail := ") VALUES (" + Marks(|columns|) + ")";
    head + Join(columns, ", ") + tail
  }

  function UpdateSql(table: string, columns: seq<string>, fixed: seq<string>, key: string): string
  {
    var head := "UPDATE " + table + " SET ";
    head + Join(Assignments(columns) + fixed, ", ") + Where(key)
  }

  function DeleteSql(table: string, key: string): string
  {
    "DELETE FROM " + table + Where(key)
  }

  lemma Sum3(a: string, b: string, c: string)
    ensures Placeholders(a + b + c) == Placeholders(a) + Placeholders(b) + Placeholders(c)
  {
    CountAppend(a, b, '?');
    CountAppend(a + b, c, '?');
  }

  /** A fragment between two placeholder-free strings keeps its count. */
  lemma Enclosed(a: string, s: string, c: string)
    requires '?' !in a && '?' !in c
    ensures Placeholders(a + s + c) == Placeholders(s)
  {
    Sum3(a, s, c);
    CountAbsent(a, '?');
    CountAbsent(c, '?');
  }

  lemma {:induction false} MarksCount(n: nat)
    ensures Placeholders(Marks(n)) == n
  {
    if n > 1 {
      MarksCount(n - 1);
      CountAppend("?, ", Marks(n - 1), '?');
    }
  }

  /** Joining with a placeholder-free separator adds no placeholder. */
  lemma {:induction false} JoinCount(parts: seq<string>, sep: string)
    requires '?' !in sep
    ensures Placeholders(Join(parts, sep)) == PlaceholdersIn(parts)
    decreases |parts|
  {
    if |parts| > 1 {
      JoinCount(parts[1..], sep);
      Sum3(parts[0], sep, Join(parts[1..], sep));
      CountAbsent(sep, '?');
    }
  }

  lemma {:induction false} PlaceholdersInAppend(a: seq<string>, b: seq<string>)
    ensures PlaceholdersIn(a + b) == PlaceholdersIn(a) + PlaceholdersIn(b)
    decreases |a|
  {
    if a != [] {
      assert (a + b)[0] == a[0] && (a + b)[1..] == a[1..] + b;
      PlaceholdersInAppend(a[1..], b);
    } else {
      assert a + b == b;
    }
  }

  lemma {:induction false} PlainHasNone(names: seq<string>)
    requires Plain(names)
    ensures PlaceholdersIn(names) == 0
    decreases |names|
  {
    if names != [] {
      CountAbsent(names[0], '?');
      PlainHasNone(names[1..]);
    }
  }

  lemma {:induction false} AssignmentsCount(columns: seq<string>)
    requires Plain(columns)
    ensures PlaceholdersIn(Assignments(columns)) == |columns|
    decreases |columns|
  {
    if columns != [] {
      AssignmentsCount(columns[1..]);
      assert Assignments(columns)[1..] == Assignments(columns[1..]);
      Enclosed(columns[0], " = ", "");
      CountAppend(columns[0] + " = " + "", "?", '?');
      assert columns[0] + " = ?" == columns[0] + " = " + "" + "?";
    }
  }

  lemma WhereCount(key: string)
    requires '?' !in key
    ensures Placeholders(Where(key)) == 1
  {
    Enclosed(" WHERE ", key, "");
    CountAbsent(key, '?');
    CountAppend(" WHERE " + key + "", " = ?", '?');
    assert Count(" = ?", '?') == 1;
    assert Where(key) == " WHERE " + key + "" + " = ?";
  }

  /** An insert has one placeholder per column. */
  lemma InsertSqlPlaceholders(table: string, columns: seq<string>)
    requires '?' !in table && Plain(columns)
    ensures Placeholders(InsertSql(table, columns)) == |columns|
  {
    var head := "INSERT INTO " + table + " (";
    var tail := ") VALUES (" + Marks(|columns|) + ")";
    Enclosed("INSERT INTO ", table, " (");
    CountAbsent(table, '?');
    Enclosed(") VALUES (", Marks(|columns|), ")");
    MarksCount(|columns|);
    JoinCount(columns, ", ");
    PlainHasNone(columns);
    Sum3(head, Join(columns, ", "), tail);
  }

  /**
   * An update has one placeholder per assigned column, then one for the key,
   * which is the statement's last placeholder.
   */
  lemma UpdateSqlPlaceholders(table: string, columns: seq<string>, fixed: seq<string>, key: string)
    requires '?' !in table && '?' !in key && Plain(columns) && Plain(fixed)
    ensures var s, w := UpdateSql(table, columns, fixed, key), Where(key);
      Placeholders(s) == |columns| + 1 &&
      |w| <= |s| && s[|s| - |w|..] == w && Placeholders(s[..|s| - |w|]) == |columns|
  {
    var head := "UPDATE " + table + " SET ";
    var body := Join(Assignments(columns) + fixed, ", ");
    var s := UpdateSql(table, columns, fixed, key);
    Enclosed("UPDATE ", table, " SET ");
    CountAbsent(table, '?');
    JoinCount(Assignments(columns) + fixed, ", ");
    PlaceholdersInAppend(Assignments(columns), fixed);
    AssignmentsCount(columns);
    PlainHasNone(fixed);
    WhereCount(key);
    CountAppend(head, body, '?');
    CountAppend(head + body, Where(key), '?');
    assert s[..|s| - |Where(key)|] == head + body;
  }

  lemma DeleteSqlPlaceholders(table: string, key: string)
    requires '?' !in table && '?' !in key
    ensures Placeholders(DeleteSql(table, key)) == 1
  {
    Enclosed("DELETE FROM ", table, "");
    CountAbsent(table, '?');
    WhereCount(key);
    CountAppend("DELETE FROM " + table + "", Where(key), '?');
    assert DeleteSql(table, key) == "DELETE FROM " + table + "" + Where(key);
  }

  const InsertColumns := ["Customer_Name", "Address", "Postal_Code", "Phone", "Division_ID", "Created_By", "Last_Updated_By"]
  const UpdateColumns := ["Customer_Name", "Address", "Postal_Code", "Phone", "Division_ID", "Last_Updated_By"]

  /** INSERT INTO customers (Customer_Name, ..., Last_Updated_By) VALUES (?, ?, ?, ?, ?, ?, ?) */
  function InsertStatement(): string
  {
    InsertSql("customers", InsertColumns)
  }

  /** UPDATE customers SET Customer_Name = ?, ..., Last_Update = NOW() WHERE Customer_ID = ? */
  function UpdateStatement(): string
  {
    UpdateSql("customers", UpdateColumns, ["Last_Update = NOW()"], "Customer_ID")
  }

  /** DELETE FROM customers WHERE Customer_ID = ? */
  function DeleteStatement(): string
  {
    DeleteSql("customers", "Customer_ID")
  }

  /** deleteDependencies: DELETE FROM appointments WHERE Customer_ID = ? */
  function DeleteAppointmentsStatement(): string
  {
    DeleteSql("appointments", "Customer_ID")
  }

  /**
   * The insert and update statements each take the five values of toValues
   * and two more: the creating and updating user for an insert; the
   * updating user and then the customer id, last, for an update. The delete
   * statements take only the customer id.
   */
  lemma InsertPlaceholders(d: CustomerData)
    ensures Placeholders(InsertStatement()) == |d.Values()| + 2 == 7
  {
    assert Plain(InsertColumns);
    InsertSqlPlaceholders("customers", InsertColumns);
  }

  /** The update binds the customer id last, after the five values and the updating user. */
  lemma UpdatePlaceholders(d: CustomerData)
    ensures Placeholders(UpdateStatement()) == |d.Values()| + 2
    ensures var s, w := UpdateStatement(), Where("Customer_ID");
      |w| <= |s| && s[|s| - |w|..] == w && Placeholders(s[..|s| - |w|]) == |d.Values()| + 1
  {
    assert Plain(UpdateColumns);
    assert Plain(["Last_Update = NOW()"]);
    UpdateSqlPlaceholders("customers", UpdateColumns, ["Last_Update = NOW()"], "Customer_ID");
  }

  lemma DeletePlaceholders()
    ensures Placeholders(DeleteStatement()) == 1
    ensures Placeholders(DeleteAppointmentsStatement()) == 1
  {
    DeleteSqlPlaceholders("customers", "Customer_ID");
    DeleteSqlPlaceholders("appointments", "Customer_ID");
  }

  // ---------------------------------------------------------------------
  // The table.
  // ---------------------------------------------------------------------

  function DivisionIds(rows: seq<Division>): (ids: seq<int>)
    ensures |ids| == |rows|
    ensures forall i :: 0 <= i < |rows| ==> ids[i] == rows[i].id
  {
    seq(|rows|, i requires 0 <= i < |rows| => rows[i].id)
  }

  function CountryIds(rows: seq<Country>): (ids: seq<int>)
    ensures |ids| == |rows|
    ensures forall i :: 0 <= i < |rows| ==> ids[i] == rows[i].id
  {
    seq(|rows|, i requires 0 <= i < |rows| => rows[i].id)
  }

  /** The columns addColumns adds after ID, named by what they show. */
  const CustomerColumns := ["name", "address", "postalCode", "phone", "division", "country"]

  /** getNewRecord's fields. */
  const BlankData := CustomerData("", "", "", "", 0)

  /** A new record cannot be saved unedited: validation stops at its empty name. */
  lemma BlankRecordFailsOnName()
    ensures ValidationResult(BlankData.Fields()) == ValidationError(ErrorMessage(Titleize("name"), "empty"))
  {
    ValidationErrorSpec(BlankData);
  }

  /** The division column: the name of the customer's division; None where the source dereferences null. */
  function DivisionCell(divisionMap: map<int, Division>, c: CustomerData): (r: Option<string>)
    ensures r.Some? <==> c.divisionId in divisionMap
  {
    if c.divisionId in divisionMap then Some(divisionMap[c.divisionId].division) else None
  }

  /** The country column: customer, then its division, then that division's country. */
  function CountryCell(divisionMap: map<int, Division>, countryMap: map<int, Country>, c: CustomerData): (r: Option<string>)
    ensures r.Some? ==> DivisionCell(divisionMap, c).Some?
  {
    if c.divisionId in divisionMap && divisionMap[c.divisionId].countryId in countryMap
    then Some(countryMap[divisionMap[c.divisionId].countryId].country)
    else None
  }

  /**
   * With the maps loaded from division and country rows, the division
   * column shows the last division row carrying the customer's division id,
   * and the country column the last country row carrying that division's
   * country id.
   */
  lemma CellsFromRows(divisions: seq<Division>, countries: seq<Country>, c: CustomerData)
    ensures var dm, cm := PutAll(map[], DivisionIds(divisions), divisions), PutAll(map[], CountryIds(countries), countries);
      var dids, cids := DivisionIds(divisions), CountryIds(countries);
      && DivisionCell(dm, c) == (if c.divisionId in dids then Some(divisions[LastIndex(dids, c.divisionId)].division) else None)
      && CountryCell(dm, cm, c) ==
           if c.divisionId !in dids then None
           else
             var d := divisions[LastIndex(dids, c.divisionId)];
             if d.countryId in cids then Some(countries[LastIndex(cids, d.countryId)].country) else None
  {
    var dids, cids := DivisionIds(divisions), CountryIds(countries);
    PutAllLookup(map[], dids, divisions, c.divisionId);
    if c.divisionId in dids {
      var d := divisions[LastIndex(dids, c.divisionId)];
      PutAllLookup(map[], cids, countries, d.countryId);
    }
  }

  /** The alert text: upcoming when the count is non-zero. */
  function AlertBody(count: int, bundle: string -> string): string
  {
    bundle(if count != 0 then "appointment.upcomingAppointment" else "appointment.noUpcomingAppointment")
  }

  datatype Alert = Alert(title: string, body: string)

  /** The id and declared fields of every listed customer. */
  function Records(items: seq<Customer>): (rs: seq<CustomerRecord>)
    reads items
    ensures |rs| == |items|
    ensures forall i :: 0 <= i < |items| ==> rs[i] == CustomerRecord(items[i].id, items[i].Data())
  {
    seq(|items|, i reads items requires 0 <= i < |items| => CustomerRecord(items[i].id, items[i].Data()))
  }

  class CustomerTable {
    const table: Table<Customer>
    var divisionMap: map<int, Division>
    var countryMap: map<int, Country>
    /** The alerts shown, in order. */
    var alerts: seq<Alert>

    constructor()
      ensures fresh(table)
      ensures table.columns == [] && table.items == [] && table.selected.None?
      ensures divisionMap == map[] && countryMap == map[] && alerts == []
    {
      table := new Table();
      divisionMap := map[];
      countryMap := map[];
      alerts := [];
    }

    /** buildDivisionMap: puts each row under its own id, in row order. */
    method BuildDivisionMap(rows: seq<Division>)
      modifies this`divisionMap
      ensures divisionMap == PutAll(old(divisionMap), DivisionIds(rows), rows)
    {
      var i := 0;
      while i < |rows|
        invariant 0 <= i <= |rows|
        invariant divisionMap == PutAll(old(divisionMap), DivisionIds(rows[..i]), rows[..i])
      {
        var division := rows[i];
        assert rows[..i + 1] == rows[..i] + [division];
        assert DivisionIds(rows[..i + 1]) == DivisionIds(rows[..i]) + [division.id];
        PutAllSnoc(old(divisionMap), DivisionIds(rows[..i]), rows[..i], division.id, division);
        divisionMap := divisionMap[division.id := division];
        i := i + 1;
      }
      assert rows[..i] == rows;
    }

    /** addCountries: puts each row under its own id, in row order. */
    method AddCountries(rows: seq<Country>)
      modifies this`countryMap
      ensures countryMap == PutAll(old(countryMap), CountryIds(rows), rows)
    {
      var i := 0;
      while i < |rows|
        invariant 0 <= i <= |rows|
        invariant countryMap == PutAll(old(countryMap), CountryIds(rows[..i]), rows[..i])
      {
        var country := rows[i];
        assert rows[..i + 1] == rows[..i] + [country];
        assert CountryIds(rows[..i + 1]) == CountryIds(rows[..i]) + [country.id];
        PutAllSnoc(old(countryMap), CountryIds(rows[..i]), rows[..i], country.id, country);
        countryMap := countryMap[country.id := country];
        i := i + 1;
      }
      assert rows[..i] == rows;
    }

    /** consumeResultSet: one new Customer per row, appended in row order after the existing items. */
    method ConsumeResultSet(rows: seq<CustomerRecord>)
      modifies table`items
      ensures |table.items| == |old(table.items)| + |rows|
      ensures table.items[..|old(table.items)|] == old(table.items)
      ensures forall i :: |old(table.items)| <= i < |table.items| ==> fresh(table.items[i])
      ensures Records(table.items) == old(Records(table.items)) + rows
    {
      var i := 0;
      while i < |rows|
        invariant 0 <= i <= |rows|
        invariant |table.items| == |old(table.items)| + i
        invariant table.items[..|old(table.items)|] == old(table.items)
        invariant forall k :: |old(table.items)| <= k < |table.items| ==> fresh(table.items[k])
        invariant Records(table.items) == old(Records(table.items)) + rows[..i]
      {
        var row := rows[i];
        var customer := new Customer(row.id, row.data.name, row.data.address, row.data.postalCode,
                                     row.data.phone, row.data.divisionId);
        table.items := table.items + [customer];
        assert rows[..i + 1] == rows[..i] + [row];
        i := i + 1;
      }
      assert rows[..i] == rows;
    }

    /** getNewRecord: an unsaved customer with every field empty. */
    method GetNewRecord() returns (c: Customer)
      ensures fresh(c)
      ensures c.id == 0 && c.Data() == BlankData
    {
      c := new Customer(0, "", "", "", "", 0);
    }

    /** canUpdate: every customer may be edited. */
    function CanUpdate(record: Customer): (b: bool)
      ensures b
    {
      true
    }

    /**
     * deleteDependencies: deletes the customer's appointments, binding the
     * customer id to the one placeholder, and succeeds iff no SQLException
     * occurred, whatever the number of rows deleted.
     */
    method DeleteDependencies(db: Database, record: Customer, connects: bool, outcome: UpdateOutcome)
      returns (r: Option<bool>, parameters: map<int, SqlValue>)
      modifies db
      ensures (old(db.conn).Some? && !old(db.conn).value.closed) || connects <==> r.Some?
      ensures r.Some? ==> (r.value <==> outcome.Affected?)
      ensures r.Some? ==> parameters == map[1 := SqlLong(record.id)]
      ensures db.conn == ClosedConnection(ConnectionFor(old(db.conn), old(db.openCount), connects))
      ensures db.openCount == OpenCountFor(old(db.conn), old(db.openCount), connects)
    {
      r, parameters := db.ExecuteUpdate(Some([SqlLong(record.id)]), connects, outcome,
                                        (ex: Option<SqlError>, updates: Option<int>) => ex.None?);
      if r.Some? {
        BoundSpec(map[], [SqlLong(record.id)]);
        var expected := map[1 := SqlLong(record.id)];
        assert forall p :: p in parameters <==> p in expected;
        assert parameters[1] == expected[1];
      }
    }

    /**
     * populateData: loads the divisions, the countries and the customers,
     * each only when its query succeeded, then shows the alert when the
     * count query returned a row.
     */
    method PopulateData(divisions: QueryOutcome<Division>, countries: QueryOutcome<Country>,
                        customers: QueryOutcome<CustomerRecord>, upcoming: QueryOutcome<int>,
                        bundle: string -> string)
      modifies this`divisionMap, this`countryMap, this`alerts, table`items
      ensures divisionMap == if divisions.Rows? then PutAll(old(divisionMap), DivisionIds(divisions.rows), divisions.rows) else old(divisionMap)
      ensures countryMap == if countries.Rows? then PutAll(old(countryMap), CountryIds(countries.rows), countries.rows) else old(countryMap)
      ensures customers.QueryFailed? ==> table.items == old(table.items)
      ensures customers.Rows? ==> Records(table.items) == old(Records(table.items)) + customers.rows
      ensures table.items[..|old(table.items)|] == old(table.items)
      ensures forall i :: |old(table.items)| <= i < |table.items| ==> fresh(table.items[i])
      ensures alerts == if upcoming.Rows? && |upcoming.rows| > 0
                        then old(alerts) + [Alert(bundle("appointment.alertTitle"), AlertBody(upcoming.rows[0], bundle))]
                        else old(alerts)
    {
      if divisions.Rows? {
        BuildDivisionMap(divisions.rows);
      }
      if countries.Rows? {
        AddCountries(countries.rows);
      }
      assert table.items == old(table.items) && Records(table.items) == old(Records(table.items));
      if customers.Rows? {
        ConsumeResultSet(customers.rows);
      }
      if upcoming.Rows? && |upcoming.rows| > 0 {
        alerts := alerts + [Alert(bundle("appointment.alertTitle"), AlertBody(upcoming.rows[0], bundle))];
      }
    }

    /** Table.initialize: the ID column, then the customer columns, then the data. */
    method Initialize(divisions: QueryOutcome<Division>, countries: QueryOutcome<Country>,
                      customers: QueryOutcome<CustomerRecord>, upcoming: QueryOutcome<int>,
                      bundle: string -> string)
      modifies this`divisionMap, this`countryMap, this`alerts, table`items, table`columns
      ensures table.columns == old(table.columns) + ["ID"] + CustomerColumns
      ensures divisionMap == if divisions.Rows? then PutAll(old(divisionMap), DivisionIds(divisions.rows), divisions.rows) else old(divisionMap)
      ensures countryMap == if countries.Rows? then PutAll(old(countryMap), CountryIds(countries.rows), countries.rows) else old(countryMap)
      ensures customers.QueryFailed? ==> table.items == old(table.items)
      ensures customers.Rows? ==> Records(table.items) == old(Records(table.items)) + customers.rows
      ensures table.items[..|old(table.items)|] == old(table.items)
      ensures forall i :: |old(table.items)| <= i < |table.items| ==> fresh(table.items[i])
      ensures alerts == if upcoming.Rows? && |upcoming.rows| > 0
                        then old(alerts) + [Alert(bundle("appointment.alertTitle"), AlertBody(upcoming.rows[0], bundle))]
                        else old(alerts)
    {
      table.AddColumns(CustomerColumns);
      PopulateData(divisions, countries, customers, upcoming, bundle);
    }
  }
}

=== FILE: datetime.dfy ===
/**
 * The slice of java.time the appointment model needs: an OffsetDateTime, the
 * UTC calendar fields of its instant, and the "yyyy-MM-dd HH:mm:ss" pattern
 * that binds it to SQL.
 */
module DateTimes {
  import opened Text
  import opened Wrappers

  /** Calendar fields, as LocalDateTime holds them. */
  datatype DateTime = DateTime(year: int, month: int, day: int, hour: int, minute: int, second: int)

  /** A LocalDate: what a date picker holds. */
  datatype LocalDate = LocalDate(year: int, month: int, day: int)

  /** An OffsetDateTime: the instant (seconds since 1970-01-01T00:00Z) and its offset from UTC. */
  datatype OffsetDateTime = OffsetDateTime(epochSecond: int, offsetSeconds: int)

  /** Two OffsetDateTimes denote the same instant (OffsetDateTime.isEqual). */
  predicate SameInstant(a: OffsetDateTime, b: OffsetDateTime) {
    a.epochSecond == b.epochSecond
  }

  /** The Gregorian leap-year rule of java.time.Year.isLeap. */
  predicate IsLeapYear(year: int) {
    year % 4 == 0 && (year % 100 != 0 || year % 400 == 0)
  }

  function YearLength(year: int): (n: int)
    ensures n == 365 || n == 366
  {
    if IsLeapYear(year) then 366 else 365
  }

  function MonthLength(year: int, month: int): (n: int)
    ensures 28 <= n <= 31
  {
    if month == 2 then (if IsLeapYear(year) then 29 else 28)
    else if month == 4 || month == 6 || month == 9 || month == 11 then 30
    else 31
  }

  /** The (month, day) of the zero-based day dayOfYear, counting months from month on. */
  function MonthDay(year: int, month: int, dayOfYear: int): (md: (int, int))
    requires 1 <= month <= 12 && 0 <= dayOfYear
    ensures month <= md.0 <= 12 && 1 <= md.1
    decreases 12 - month
  {
    if month == 12 || dayOfYear < MonthLength(year, month) then (month, dayOfYear + 1)
    else MonthDay(year, month + 1, dayOfYear - MonthLength(year, month))
  }

  /**
   * Proleptic Gregorian (year, month, day) of the day that lies `days` days
   * after 1 January of `year` (before it when negative), stepping a year at
   * a time.
   */
  function CivilFromDays(year: int, days: int): (ymd: (int, int, int))
    ensures 1 <= ymd.1 <= 12 && 1 <= ymd.2
    decreases if days < 0 then 1 else 0, if days < 0 then -days else days
  {
    if days < 0 then CivilFromDays(year - 1, days + YearLength(year - 1))
    else if days >= YearLength(year) then CivilFromDays(year + 1, days - YearLength(year))
    else
      var md := MonthDay(year, 1, days);
      (year, md.0, md.1)
  }

  /** The calendar fields of an instant at offset zero (atZoneSameInstant(ZoneOffset.UTC)). */
  function UtcDateTime(t: OffsetDateTime): (dt: DateTime)
    ensures 1 <= dt.month <= 12 && 1 <= dt.day
    ensures 0 <= dt.hour < 24 && 0 <= dt.minute < 60 && 0 <= dt.second < 60
  {
    var days := t.epochSecond / 86400;
    var secs := t.epochSecond % 86400;
    var (y, m, d) := CivilFromDays(1970, days);
    DateTime(y, m, d, secs / 3600, secs % 3600 / 60, secs % 60)
  }

  /** The number of days from 1 January 1970 to 1 January of year (negative before 1970). */
  function YearStart(year: int): int
    decreases if year < 1970 then 1970 - year else year - 1970
  {
    if year == 1970 then 0
    else if year > 1970 then YearStart(year - 1) + YearLength(year - 1)
    else YearStart(year + 1) - YearLength(year)
  }

  /** The number of days in the months of year before month. */
  function MonthsBefore(year: int, month: int): int
    requires 1 <= month <= 13
  {
    if month == 1 then 0 else MonthsBefore(year, month - 1) + MonthLength(year, month - 1)
  }

  /** The day number of a calendar date, counted from 1970-01-01. */
  function DaysFromCivil(year: int, month: int, day: int): int
    requires 1 <= month <= 12
  {
    YearStart(year) + MonthsBefore(year, month) + day - 1
  }

  /** The instant that calendar fields at offset zero denote, in seconds since the epoch. */
  function EpochSecondOf(dt: DateTime): int
    requires 1 <= dt.month <= 12
  {
    DaysFromCivil(dt.year, dt.month, dt.day) * 86400 + dt.hour * 3600 + dt.minute * 60 + dt.second
  }

  lemma YearStartStep(year: int)
    ensures YearStart(year + 1) == YearStart(year) + YearLength(year)
  {
  }

  /** The twelve months make up the year. */
  lemma MonthsMakeYear(year: int)
    ensures MonthsBefore(year, 13) == YearLength(year)
  {
    assert MonthsBefore(year, 2) == 31;
    assert MonthsBefore(year, 3) == 31 + MonthLength(year, 2);
    assert MonthsBefore(year, 4) == 62 + MonthLength(year, 2);
    assert MonthsBefore(year, 5) == 92 + MonthLength(year, 2);
    assert MonthsBefore(year, 6) == 123 + MonthLength(year, 2);
    assert MonthsBefore(year, 7) == 153 + MonthLength(year, 2);
    assert MonthsBefore(year, 8) == 184 + MonthLength(year, 2);
    assert MonthsBefore(year, 9) == 215 + MonthLength(year, 2);
    assert MonthsBefore(year, 10) == 245 + MonthLength(year, 2);
    assert MonthsBefore(year, 11) == 276 + MonthLength(year, 2);
    assert MonthsBefore(year, 12) == 306 + MonthLength(year, 2);
  }

  /** MonthDay finds the month holding the day of the year and a day within that month. */
  lemma {:induction false} MonthDaySpec(year: int, month: int, dayOfYear: int)
    requires 1 <= month <= 12 && 0 <= dayOfYear
    requires MonthsBefore(year, month) + dayOfYear < YearLength(year)
    ensures var md := MonthDay(year, month, dayOfYear);
      && MonthsBefore(year, md.0) + md.1 - 1 == MonthsBefore(year, month) + dayOfYear
      && md.1 <= MonthLength(year, md.0)
    decreases 12 - month
  {
    var length := MonthLength(year, month);
    assert MonthsBefore(year, month + 1) == MonthsBefore(year, month) + length;
    if month == 12 {
      MonthsMakeYear(year);
      assert MonthDay(year, month, dayOfYear) == (month, dayOfYear + 1);
    } else if dayOfYear < length {
      assert MonthDay(year, month, dayOfYear) == (month, dayOfYear + 1);
    } else {
      assert MonthDay(year, month, dayOfYear) == MonthDay(year, month + 1, dayOfYear - length);
      MonthDaySpec(year, month + 1, dayOfYear - length);
    }
  }

  /** CivilFromDays finds a valid date whose day number is the one it was given. */
  lemma {:induction false} CivilFromDaysSpec(year: int, days: int)
    ensures var ymd := CivilFromDays(year, days);
      && DaysFromCivil(ymd.0, ymd.1, ymd.2) == YearStart(year) + days
      && ymd.2 <= MonthLength(ymd.0, ymd.1)
    decreases if days < 0 then 1 else 0, if days < 0 then -days else days
  {
    if days < 0 {
      CivilFromDaysSpec(year - 1, days + YearLength(year - 1));
      YearStartStep(year - 1);
    } else if days >= YearLength(year) {
      CivilFromDaysSpec(year + 1, days - YearLength(year));
      YearStartStep(year);
    } else {
      MonthDaySpec(year, 1, days);
    }
  }

  lemma ClockSplit(secs: int)
    requires 0 <= secs < 86400
    ensures secs / 3600 * 3600 + secs % 3600 / 60 * 60 + secs % 60 == secs
  {
    var r := secs % 3600;
    assert secs == secs / 3600 * 3600 + r;
    assert r == r / 60 * 60 + r % 60;
    assert secs % 60 == r % 60 by {
      assert secs == (secs / 3600 * 60) * 60 + r;
    }
  }

  /**
   * The UTC fields are a valid date and time that denote the instant itself:
   * the day lies within its month, and counting back to the epoch gives the
   * instant's second.
   */
  lemma UtcDateTimeSpec(t: OffsetDateTime)
    ensures var dt := UtcDateTime(t);
      && 1 <= dt.day <= MonthLength(dt.year, dt.month)
      && EpochSecondOf(dt) == t.epochSecond
  {
    var days := t.epochSecond / 86400;
    var secs := t.epochSecond % 86400;
    CivilFromDaysSpec(1970, days);
    ClockSplit(secs);
    assert t.epochSecond == days * 86400 + secs;
  }

  /** Distinct instants have distinct UTC fields, so the rendering loses no instant. */
  lemma UtcDateTimeInjective(a: OffsetDateTime, b: OffsetDateTime)
    requires UtcDateTime(a) == UtcDateTime(b)
    ensures SameInstant(a, b)
  {
    UtcDateTimeSpec(a);
    UtcDateTimeSpec(b);
  }

  /** The rendering at UTC depends on the instant alone, not on the offset it was given in. */
  lemma UtcIgnoresOffset(a: OffsetDateTime, b: OffsetDateTime)
    requires SameInstant(a, b)
    ensures UtcDateTime(a) == UtcDateTime(b)
  {
  }

  /** The year of era that pattern letter 'y' prints: 1 - year before year 1. */
  function YearOfEra(year: int): nat
  {
    if year >= 1 then year else 1 - year
  }

  /** "yyyy": at least four digits; a '+' marks a value wider than four. */
  function FormatYear(year: int): string
  {
    var v := YearOfEra(year);
    if v > 9999 then "+" + NatToString(v) else ZeroPad(v, 4)
  }

  /** "MM", "dd", "HH", "mm", "ss": two digits. */
  function Format2(n: int): string
  {
    if n >= 0 then ZeroPad(n, 2) else IntToString(n)
  }

  /** DateTimeFormatter.ofPattern("yyyy-MM-dd HH:mm:ss").format(dt). */
  function FormatSql(dt: DateTime): string
  {
    FormatYear(dt.year) + "-" + Format2(dt.month) + "-" + Format2(dt.day) + " "
      + Format2(dt.hour) + ":" + Format2(dt.minute) + ":" + Format2(dt.second)
  }

  /** Calendar fields that the pattern prints in fixed width. */
  predicate InSqlRange(dt: DateTime) {
    && 1 <= dt.year <= 9999
    && 0 <= dt.month < 100 && 0 <= dt.day < 100
    && 0 <= dt.hour < 100 && 0 <= dt.minute < 100 && 0 <= dt.second < 100
  }

  /** How the database reads a "yyyy-MM-dd HH:mm:ss" literal back. */
  function ParseSql(s: string): Option<DateTime>
  {
    if |s| == 19 && s[4] == '-' && s[7] == '-' && s[10] == ' ' && s[13] == ':' && s[16] == ':'
       && AllDigits(s[0..4]) && AllDigits(s[5..7]) && AllDigits(s[8..10])
       && AllDigits(s[11..13]) && AllDigits(s[14..16]) && AllDigits(s[17..19])
    then Some(DateTime(ParseNat(s[0..4]), ParseNat(s[5..7]), ParseNat(s[8..10]),
                       ParseNat(s[11..13]), ParseNat(s[14..16]), ParseNat(s[17..19])))
    else None
  }

  /** "yyyy" for a year of the common era up to 9999: four digits that read back as the year. */
  lemma FormatYearSpec(year: int)
    requires 1 <= year <= 9999
    ensures |FormatYear(year)| == 4 && AllDigits(FormatYear(year))
    ensures ParseNat(FormatYear(year)) == year
  {
    NatToStringWidth(year);
    ZeroPadSpec(year, 4);
  }

  /** Where each field sits in the joined text. */
  lemma SqlLayout(y: string, mo: string, d: string, h: string, mi: string, se: string)
    requires |y| == 4 && |mo| == 2 && |d| == 2 && |h| == 2 && |mi| == 2 && |se| == 2
    ensures var s := y + "-" + mo + "-" + d + " " + h + ":" + mi + ":" + se;
      && |s| == 19
      && s[4] == '-' && s[7] == '-' && s[10] == ' ' && s[13] == ':' && s[16] == ':'
      && s[0..4] == y && s[5..7] == mo && s[8..10] == d
      && s[11..13] == h && s[14..16] == mi && s[17..19] == se
  {
    var s := y + "-" + mo + "-" + d + " " + h + ":" + mi + ":" + se;
    assert s[0..4] == y;
    assert s[5..7] == mo;
    assert s[8..10] == d;
    assert s[11..13] == h;
    assert s[14..16] == mi;
    assert s[17..19] == se;
  }

  /** The bound text is exactly 19 characters and reads back as the same calendar fields. */
  lemma FormatSqlRoundTrip(dt: DateTime)
    requires InSqlRange(dt)
    ensures |FormatSql(dt)| == 19
    ensures ParseSql(FormatSql(dt)) == Some(dt)
  {
    FormatYearSpec(dt.year);
    Pad2Spec(dt.month);
    Pad2Spec(dt.day);
    Pad2Spec(dt.hour);
    Pad2Spec(dt.minute);
    Pad2Spec(dt.second);
    SqlLayout(FormatYear(dt.year), Format2(dt.month), Format2(dt.day),
              Format2(dt.hour), Format2(dt.minute), Format2(dt.second));
  }

  /** The text toValues binds for an instant: its UTC calendar fields as "yyyy-MM-dd HH:mm:ss". */
  function SqlTimestamp(t: OffsetDateTime): string
  {
    FormatSql(UtcDateTime(t))
  }

  /** When the UTC year has four digits, the bound text is 19 characters and reads back as the UTC fields. */
  lemma SqlTimestampRoundTrip(t: OffsetDateTime)
    ensures InSqlRange(UtcDateTime(t)) ==>
      |SqlTimestamp(t)| == 19 && ParseSql(SqlTimestamp(t)) == Some(UtcDateTime(t))
  {
    if InSqlRange(UtcDateTime(t)) {
      FormatSqlRoundTrip(UtcDateTime(t));
    }
  }

  lemma {:induction false} NatToStringWidth(n: nat)
    requires n < 10000
    ensures |NatToString(n)| <= (if n < 10 then 1 else if n < 100 then 2 else if n < 1000 then 3 else 4)
  {
    if n >= 10 {
      NatToStringWidth(n / 10);
    }
  }
}

=== FILE: division.dfy ===
/**
 * Models/Division: an immutable first-level division of a country, shown in
 * pickers by its name and in report 3 as a group header "<id>\t<name>:\n".
 */
module Divisions {
  import opened Text

  /** The final fields are fixed at construction; a datatype has no setters. */
  datatype Division = Division(id: int, division: string, countryId: int)
  {
    /** toString: what the picker shows. */
    function ToString(): string
    {
      division
    }

    /** toReportString: String.format("%d\t%s:\n", id, division). */
    function ReportString(): string
    {
      IntToString(id) + "\t" + division + ":\n"
    }
  }

  /**
   * A report header names its division unambiguously: the id is everything
   * before the first tab and reads back as the id, and what lies between
   * that tab and the closing ":\n" is the shown name.
   */
  lemma ReportStringSpec(d: Division)
    ensures var line, n := d.ReportString(), |IntToString(d.id)|;
      && |line| == n + |d.division| + 3
      && '\t' !in line[..n]
      && line[n] == '\t'
      && ParseInt(line[..n]) == d.id
      && line[n + 1..|line| - 2] == d.ToString()
      && line[|line| - 2..] == ":\n"
  {
    var line, digits := d.ReportString(), IntToString(d.id);
    var n := |digits|;
    assert line[..n] == digits;
    IntToStringRoundTrip(d.id);
    assert line[n + 1..|line| - 2] == d.division;
  }

  /** Two divisions with the same report header have the same id and name. */
  lemma ReportStringInjective(a: Division, b: Division)
    requires a.ReportString() == b.ReportString()
    ensures a.id == b.id && a.division == b.division
  {
    ReportStringSpec(a);
    ReportStringSpec(b);
    var line := a.ReportString();
    var na, nb := |IntToString(a.id)|, |IntToString(b.id)|;
    if na < nb {
      assert false;
    } else if nb < na {
      assert false;
    }
  }
}

=== FILE: filter.dfy ===
/**
 * Controllers/Filter: the dialog that filters the appointment list by year
 * and by month or week. It fills its pickers from queries, builds the
 * FilterFields it hands to the callback it was opened with, and hands it
 * over at most once.
 *
 * Query results are parameters (their rows, or their error); bundle.getString
 * is the parameter `bundle`. A null reference is None. A
 * NullPointerException the source does not catch ends the handler where it
 * is raised; the methods report that as `ok == false`.
 */
module Filters {
  import opened Wrappers
  import opened Text
  import opened SqlTypes
  import opened Reports

  /** What the callback receives: the year, "MONTH" or "WEEK", and the month or week. */
  datatype FilterFields = FilterFields(year: int, field: Option<string>, fieldValue: int)

  /** A picker option: the text shown and the value queried. */
  datatype ComboBoxValue = ComboBoxValue(display: string, value: int)
  {
    function ToString(): (s: string)
    {
      display
    }
  }

  datatype Toggle = MonthButton | WeekButton

  /** The resource key and field name of the selected toggle; anything but the month button means weeks. */
  function BundleProp(toggle: Option<Toggle>): (p: string)
    ensures p == "month" <==> toggle == Some(MonthButton)
    ensures p == "month" || p == "week"
  {
    if toggle == Some(MonthButton) then "month" else "week"
  }

  /** The field name sent to the callback: the upper-cased resource key. */
  function FieldName(toggle: Option<Toggle>): (f: string)
    ensures f == "MONTH" <==> toggle == Some(MonthButton)
    ensures f == "MONTH" || f == "WEEK"
  {
    if toggle == Some(MonthButton) then "MONTH" else "WEEK"
  }

  lemma FieldNameIsUpperProp(toggle: Option<Toggle>)
    ensures FieldName(toggle) == Upper(BundleProp(toggle))
  {
    var p := BundleProp(toggle);
    var u := Upper(p);
    assert |u| == |p|;
    if toggle == Some(MonthButton) {
      assert u[0] == 'M' && u[1] == 'O' && u[2] == 'N' && u[3] == 'T' && u[4] == 'H';
    } else {
      assert u[0] == 'W' && u[1] == 'E' && u[2] == 'E' && u[3] == 'K';
    }
  }

  /** The resource key of the picker's label. */
  function LabelKey(toggle: Option<Toggle>): (k: string)
  {
    if toggle == Some(MonthButton) then "form.month" else "form.week"
  }

  /** The label key is "form." followed by the toggle's resource key. */
  lemma LabelKeyIsFormatted(toggle: Option<Toggle>)
    ensures LabelKey(toggle) == "form." + BundleProp(toggle)
  {
    var k := "form." + BundleProp(toggle);
    if toggle == Some(MonthButton) {
      assert k[5] == 'm' && k[6] == 'o' && k[7] == 'n' && k[8] == 't' && k[9] == 'h';
    } else {
      assert k[5] == 'w' && k[6] == 'e' && k[7] == 'e' && k[8] == 'k';
    }
  }

  /** setWeeks' options: each week shown one-based, valued zero-based, in row order. */
  function WeekOptions(weeks: seq<int>): (os: seq<ComboBoxValue>)
    ensures |os| == |weeks|
    ensures forall i :: 0 <= i < |weeks| ==> os[i].value == weeks[i]
  {
    seq(|weeks|, i requires 0 <= i < |weeks| => ComboBoxValue(IntToString(weeks[i] + 1), weeks[i]))
  }

  /** The label of a week option reads back as its value plus one. */
  lemma WeekLabelsOneBased(weeks: seq<int>)
    ensures forall i :: 0 <= i < |weeks| ==> ParseInt(WeekOptions(weeks)[i].display) == WeekOptions(weeks)[i].value + 1
  {
    forall i | 0 <= i < |weeks|
      ensures ParseInt(WeekOptions(weeks)[i].display) == WeekOptions(weeks)[i].value + 1
    {
      IntToStringRoundTrip(weeks[i] + 1);
    }
  }

  /** setMonths' options: each month under its month.<n> name, valued by its number, in row order. */
  function MonthOptions(months: seq<int>, bundle: string -> string): (os: seq<ComboBoxValue>)
    ensures |os| == |months|
    ensures forall i :: 0 <= i < |months| ==> os[i].value == months[i]
    ensures forall i :: 0 <= i < |months| ==> os[i].display == MonthLabel(bundle, months[i])
  {
    seq(|months|, i requires 0 <= i < |months| => ComboBoxValue(MonthLabel(bundle, months[i]), months[i]))
  }

  class Filter {
    /** callback != null */
    var hasCallback: bool
    /** The values the callback accepted, in order. */
    var delivered: seq<Option<FilterFields>>
    /** stage != null */
    var stageOpen: bool
    var fieldName: Option<string>
    var comboBoxLabel: string
    var years: seq<int>
    var year: Option<int>
    var options: seq<ComboBoxValue>
    var option: Option<ComboBoxValue>
    var toggles: seq<Toggle>
    var toggle: Option<Toggle>

    /** The callback has fired at most once, and never again after it has. */
    predicate Valid()
      reads this
    {
      |delivered| + (if hasCallback then 1 else 0) <= 1
    }

    /** The state openFilterWindow leaves before the window loads: a callback and an open stage. */
    constructor()
      ensures Valid()
      ensures hasCallback && delivered == [] && stageOpen
      ensures fieldName.None? && years == [] && year.None? && options == [] && option.None?
      ensures toggles == [] && toggle.None?
    {
      hasCallback := true;
      delivered := [];
      stageOpen := true;
      fieldName := None;
      comboBoxLabel := "";
      years := [];
      year := None;
      options := [];
      option := None;
      toggles := [];
      toggle := None;
    }

    /** callCallback: hands the values over if the callback is still set, then drops it. */
    method CallCallback(values: Option<FilterFields>)
      requires Valid()
      modifies this`hasCallback, this`delivered
      ensures Valid()
      ensures !hasCallback
      ensures delivered == if old(hasCallback) then old(delivered) + [values] else old(delivered)
    {
      if hasCallback {
        delivered := delivered + [values];
        hasCallback := false;
      }
    }

    /** handleClose: closes the stage if there is one and forgets it. */
    method HandleClose()
      modifies this`stageOpen
      ensures !stageOpen
    {
      stageOpen := false;
    }

    /**
     * handleSave: sends (year, field name, picked value) and closes. With no
     * year or no option picked, unboxing raises before anything is sent.
     */
    method HandleSave() returns (ok: bool)
      requires Valid()
      modifies this`hasCallback, this`delivered, this`stageOpen
      ensures Valid()
      ensures ok <==> year.Some? && option.Some?
      ensures !ok ==> hasCallback == old(hasCallback) && delivered == old(delivered) && stageOpen == old(stageOpen)
      ensures ok ==> !hasCallback && !stageOpen
      ensures ok ==> delivered == if old(hasCallback)
                                  then old(delivered) + [Some(FilterFields(year.value, fieldName, option.value.value))]
                                  else old(delivered)
    {
      if year.None? || option.None? {
        return false;
      }
      var fields := FilterFields(year.value, fieldName, option.value.value);
      CallCallback(Some(fields));
      HandleClose();
      ok := true;
    }

    /** handleClear: sends "no filter" (None), closes, and empties the toggle group. */
    method HandleClear()
      requires Valid()
      modifies this`hasCallback, this`delivered, this`stageOpen, this`toggles
      ensures Valid()
      ensures !hasCallback && !stageOpen && toggles == []
      ensures delivered == if old(hasCallback) then old(delivered) + [None] else old(delivered)
    {
      CallCallback(None);
      HandleClose();
      toggles := [];
    }

    /**
     * setWeeks: empties the options, then, for the picked year, adds each
     * week of the query's rows. List.of rejects a missing year, which ends
     * the call after the options are emptied.
     */
    method SetWeeks(weeks: QueryOutcome<int>) returns (ok: bool)
      modifies this`options, this`option
      ensures ok <==> year.Some?
      ensures option.None?
      ensures options == if ok && weeks.Rows? then WeekOptions(weeks.rows) else []
    {
      options := [];
      option := None;
      if year.None? {
        return false;
      }
      ok := true;
      if weeks.QueryFailed? {
        return;
      }
      var rows := weeks.rows;
      var i := 0;
      while i < |rows|
        invariant 0 <= i <= |rows|
        invariant options == WeekOptions(rows[..i]) && option.None?
      {
        var week := rows[i];
        options := options + [ComboBoxValue(IntToString(week + 1), week)];
        assert rows[..i + 1] == rows[..i] + [week];
        i := i + 1;
      }
      assert rows[..i] == rows;
    }

    /** setMonths: as setWeeks, with each month under its localized name. */
    method SetMonths(months: QueryOutcome<int>, bundle: string -> string) returns (ok: bool)
      modifies this`options, this`option
      ensures ok <==> year.Some?
      ensures option.None?
      ensures options == if ok && months.Rows? then MonthOptions(months.rows, bundle) else []
    {
      options := [];
      option := None;
      if year.None? {
        return false;
      }
      ok := true;
      if months.QueryFailed? {
        return;
      }
      var rows := months.rows;
      var i := 0;
      while i < |rows|
        invariant 0 <= i <= |rows|
        invariant options == MonthOptions(rows[..i], bundle) && option.None?
      {
        var month := rows[i];
        options := options + [ComboBoxValue(MonthLabel(bundle, month), month)];
        assert rows[..i + 1] == rows[..i] + [month];
        i := i + 1;
      }
      assert rows[..i] == rows;
    }

    /**
     * updateItems: refills the options for the toggle, then sets the field
     * name and label and picks the first option.
     */
    method UpdateItems(newValue: Option<Toggle>, rows: QueryOutcome<int>, bundle: string -> string) returns (ok: bool)
      modifies this`options, this`option, this`fieldName, this`comboBoxLabel
      ensures ok <==> year.Some?
      ensures options == if !ok || rows.QueryFailed? then []
                         else if newValue == Some(MonthButton) then MonthOptions(rows.rows, bundle)
                         else WeekOptions(rows.rows)
      ensures ok ==> fieldName == Some(FieldName(newValue)) && comboBoxLabel == bundle(LabelKey(newValue))
      ensures ok ==> option == if options == [] then None else Some(options[0])
      ensures !ok ==> fieldName == old(fieldName) && comboBoxLabel == old(comboBoxLabel) && option.None?
    {
      var bundleProp: string;
      if newValue == Some(MonthButton) {
        bundleProp := "month";
        ok := SetMonths(rows, bundle);
      } else {
        bundleProp := "week";
        ok := SetWeeks(rows);
      }
      if !ok {
        return;
      }
      FieldNameIsUpperProp(newValue);
      LabelKeyIsFormatted(newValue);
      fieldName := Some(Upper(bundleProp));
      comboBoxLabel := bundle("form." + bundleProp);
      if options != [] {
        option := Some(options[0]);
      }
    }

    /** setYears: appends the years of the query's rows, then picks the first year. */
    method SetYears(rows: QueryOutcome<int>)
      modifies this`years, this`year
      ensures years == if rows.Rows? then old(years) + rows.rows else old(years)
      ensures year == if years == [] then old(year) else Some(years[0])
    {
      if rows.Rows? {
        years := years + rows.rows;
      }
      if years != [] {
        year := Some(years[0]);
      }
    }

    /**
     * initialize: loads the years, adds the two toggles and selects the
     * month button, whose listener fills the options.
     */
    method Initialize(yearRows: QueryOutcome<int>, monthRows: QueryOutcome<int>, bundle: string -> string)
      returns (ok: bool)
      modifies this`years, this`year, this`toggles, this`toggle
      modifies this`options, this`option, this`fieldName, this`comboBoxLabel
      ensures toggles == old(toggles) + [MonthButton, WeekButton] && toggle == Some(MonthButton)
      ensures years == if yearRows.Rows? then old(years) + yearRows.rows else old(years)
      ensures ok <==> year.Some?
      ensures ok ==> fieldName == Some("MONTH") && comboBoxLabel == bundle("form.month")
      ensures year == if years == [] then old(year) else Some(years[0])
      ensures ok ==> options == if monthRows.Rows? then MonthOptions(monthRows.rows, bundle) else []
      ensures ok ==> option == if options == [] then None else Some(options[0])
      ensures !ok ==> options == [] && option.None? && fieldName == old(fieldName) && comboBoxLabel == old(comboBoxLabel)
    {
      SetYears(yearRows);
      toggles := toggles + [MonthButton, WeekButton];
      toggle := Some(MonthButton);
      ok := UpdateItems(toggle, monthRows, bundle);
    }
  }
}

=== FILE: form.dfy ===
/** Controllers/Form: the mode a record form is opened in. */
module Forms {

  datatype Mode = Create | Read | Update
}

=== FILE: grouping.dfy ===
/**
 * The grouping loop of the report screens. Every result row names a group
 * key, the header that opens its group and a member. A key seen for the
 * first time appends its header and starts an empty group; every row then
 * appends its member to its key's group.
 */
module Grouping {
  import opened Sorting

  datatype Entry<H, M> = Entry(key: int, header: H, member: M)

  /** The headers in the order they were added, and each key's members. */
  datatype Groups<H, M> = Groups(headers: seq<H>, members: map<int, seq<M>>)

  /** A key's members, or none when the key has no group. */
  function Lookup<M>(m: map<int, seq<M>>, k: int): seq<M>
  {
    if k in m then m[k] else []
  }

  /** One pass of the loop body. */
  function Add<H, M>(g: Groups<H, M>, e: Entry<H, M>): Groups<H, M>
  {
    if e.key in g.members then g.(members := g.members[e.key := g.members[e.key] + [e.member]])
    else Groups(g.headers + [e.header], g.members[e.key := [e.member]])
  }

  /** The whole loop over the rows, in row order. */
  function AddAll<H, M>(g: Groups<H, M>, es: seq<Entry<H, M>>): Groups<H, M>
    decreases |es|
  {
    if es == [] then g else Add(AddAll(g, es[..|es| - 1]), es[|es| - 1])
  }

  /** The members of the rows with key k, in row order. */
  function MembersWithKey<H, M>(es: seq<Entry<H, M>>, k: int): seq<M>
    decreases |es|
  {
    if es == [] then []
    else MembersWithKey(es[..|es| - 1], k) + (if es[|es| - 1].key == k then [es[|es| - 1].member] else [])
  }

  function KeysOf<H, M>(es: seq<Entry<H, M>>): set<int>
  {
    set i | 0 <= i < |es| :: es[i].key
  }

  /** The headers of the rows whose key is neither known nor seen in an earlier row. */
  function FirstHeaders<H, M>(known: set<int>, es: seq<Entry<H, M>>): seq<H>
    decreases |es|
  {
    if es == [] then []
    else
      var earlier, e := es[..|es| - 1], es[|es| - 1];
      FirstHeaders(known, earlier) + (if e.key in known || e.key in KeysOf(earlier) then [] else [e.header])
  }

  /**
   * After the loop: the new headers are those of the first row of each
   * previously unknown key, in row order; the keys are the old ones plus
   * the rows' keys; and each group is its old members followed by its rows'
   * members, in row order.
   */
  lemma AddAllSpec<H, M>(g: Groups<H, M>, es: seq<Entry<H, M>>)
    ensures AddAll(g, es).headers == g.headers + FirstHeaders(g.members.Keys, es)
    ensures AddAll(g, es).members.Keys == g.members.Keys + KeysOf(es)
    ensures forall k :: Lookup(AddAll(g, es).members, k) == Lookup(g.members, k) + MembersWithKey(es, k)
  {
    AddAllHeaders(g, es);
    AddAllKeys(g, es);
    forall k ensures Lookup(AddAll(g, es).members, k) == Lookup(g.members, k) + MembersWithKey(es, k) {
      AddAllMembers(g, es, k);
    }
  }

  lemma {:induction false} AddAllKeys<H, M>(g: Groups<H, M>, es: seq<Entry<H, M>>)
    ensures AddAll(g, es).members.Keys == g.members.Keys + KeysOf(es)
    decreases |es|
  {
    if es != [] {
      var earlier, e := es[..|es| - 1], es[|es| - 1];
      AddAllKeys(g, earlier);
      assert es == earlier + [e];
      assert KeysOf(es) == KeysOf(earlier) + {e.key};
    }
  }

  lemma {:induction false} AddAllHeaders<H, M>(g: Groups<H, M>, es: seq<Entry<H, M>>)
    ensures AddAll(g, es).headers == g.headers + FirstHeaders(g.members.Keys, es)
    decreases |es|
  {
    if es != [] {
      var earlier, e := es[..|es| - 1], es[|es| - 1];
      AddAllHeaders(g, earlier);
      AddAllKeys(g, earlier);
    }
  }

  lemma {:induction false} AddAllMembers<H, M>(g: Groups<H, M>, es: seq<Entry<H, M>>, k: int)
    ensures Lookup(AddAll(g, es).members, k) == Lookup(g.members, k) + MembersWithKey(es, k)
    decreases |es|
  {
    if es != [] {
      var earlier, e := es[..|es| - 1], es[|es| - 1];
      AddAllMembers(g, earlier, k);
      AddAllKeys(g, earlier);
    }
  }

  /** The key of every header, in header order. */
  function HeaderKeys<H>(headers: seq<H>, keyOf: H -> int): (ks: seq<int>)
    ensures |ks| == |headers|
    ensures forall i :: 0 <= i < |headers| ==> ks[i] == keyOf(headers[i])
  {
    seq(|headers|, i requires 0 <= i < |headers| => keyOf(headers[i]))
  }

  /** Each group has exactly one header, and the headers name distinct keys. */
  predicate Aligned<H, M>(g: Groups<H, M>, keyOf: H -> int)
  {
    Distinct(HeaderKeys(g.headers, keyOf)) && Elements(HeaderKeys(g.headers, keyOf)) == g.members.Keys
  }

  /** The loop keeps headers and groups in step when each row's header carries the row's key. */
  lemma {:induction false} AddAllAligned<H, M>(g: Groups<H, M>, es: seq<Entry<H, M>>, keyOf: H -> int)
    requires Aligned(g, keyOf)
    requires forall i :: 0 <= i < |es| ==> keyOf(es[i].header) == es[i].key
    ensures Aligned(AddAll(g, es), keyOf)
    decreases |es|
  {
    if es != [] {
      var earlier, e := es[..|es| - 1], es[|es| - 1];
      assert forall i :: 0 <= i < |earlier| ==> earlier[i] == es[i];
      AddAllAligned(g, earlier, keyOf);
      var before := AddAll(g, earlier);
      if e.key !in before.members {
        var ks := HeaderKeys(before.headers, keyOf);
        assert HeaderKeys(before.headers + [e.header], keyOf) == ks + [e.key];
        ElementsSnoc(ks, e.key);
        assert e.key !in ks;
      }
    }
  }

  lemma EmptyAligned<H, M>(keyOf: H -> int)
    ensures Aligned(Groups<H, M>.Groups([], map[]), keyOf)
  {
    assert HeaderKeys([], keyOf) == [];
  }
}

=== FILE: keyed.dfy ===
/**
 * HashMap<Long, T>.put applied once per row, in row order: a later row with
 * the same id overwrites an earlier one.
 */
module Keyed {

  /** A non-empty key set has a member to visit next. */
  lemma NonEmptyHasKey(s: set<int>)
    requires s != {}
    ensures exists k :: k in s
  {
    if forall k :: k !in s {
      assert false;
    }
  }

  /** A stored value is stored under some key. */
  lemma ValueHasKey<T>(m: map<int, T>, v: T)
    requires v in m.Values
    ensures exists k :: k in m && m[k] == v
  {
    if forall k :: k in m ==> m[k] != v {
      assert false;
    }
  }

  /** The position of the last occurrence of k in keys. */
  function LastIndex(keys: seq<int>, k: int): (i: nat)
    requires k in keys
    ensures i < |keys| && keys[i] == k
    ensures forall j :: i < j < |keys| ==> keys[j] != k
    decreases |keys|
  {
    if keys[|keys| - 1] == k then |keys| - 1
    else
      assert k in keys[..|keys| - 1] by {
        var j :| 0 <= j < |keys| && keys[j] == k;
        assert keys[..|keys| - 1][j] == k;
      }
      LastIndex(keys[..|keys| - 1], k)
  }

  /** m after put(keys[0], vals[0]), put(keys[1], vals[1]), ... */
  function PutAll<T>(m: map<int, T>, keys: seq<int>, vals: seq<T>): map<int, T>
    requires |keys| == |vals|
    decreases |keys|
  {
    if keys == [] then m
    else PutAll(m, keys[..|keys| - 1], vals[..|vals| - 1])[keys[|keys| - 1] := vals[|vals| - 1]]
  }

  /**
   * After the puts, a key is present iff it was present before or some row
   * carries it; its value is that of the last row carrying it, and a key no
   * row carries keeps its old value.
   */
  lemma {:induction false} PutAllLookup<T>(m: map<int, T>, keys: seq<int>, vals: seq<T>, k: int)
    requires |keys| == |vals|
    ensures k in PutAll(m, keys, vals) <==> k in m || k in keys
    ensures k in keys ==> PutAll(m, keys, vals)[k] == vals[LastIndex(keys, k)]
    ensures k !in keys && k in m ==> PutAll(m, keys, vals)[k] == m[k]
    decreases |keys|
  {
    if keys != [] {
      var n := |keys| - 1;
      PutAllLookup(m, keys[..n], vals[..n], k);
      assert keys == keys[..n] + [keys[n]];
      if k != keys[n] && k in keys {
        assert k in keys[..n];
        assert LastIndex(keys, k) == LastIndex(keys[..n], k);
      }
    }
  }

  /** The key set after the puts. */
  lemma PutAllKeys<T>(m: map<int, T>, keys: seq<int>, vals: seq<T>)
    requires |keys| == |vals|
    ensures PutAll(m, keys, vals).Keys == m.Keys + set k | k in keys
  {
    forall k ensures k in PutAll(m, keys, vals) <==> k in m || k in keys {
      PutAllLookup(m, keys, vals, k);
    }
  }

  /** One more put extends the fold by one row. */
  lemma PutAllSnoc<T>(m: map<int, T>, keys: seq<int>, vals: seq<T>, k: int, v: T)
    requires |keys| == |vals|
    ensures PutAll(m, keys + [k], vals + [v]) == PutAll(m, keys, vals)[k := v]
  {
    assert (keys + [k])[..|keys|] == keys;
    assert (vals + [v])[..|vals|] == vals;
  }
}

=== FILE: record.dfy ===
/**
 * Models/Record: the required-field check shared by every entity.
 *
 * The source finds the fields by reflection (getClass().getDeclaredFields());
 * here each entity lists its declared fields, in declaration order, as a
 * sequence of Field values. The inherited id is not declared by the concrete
 * class and so never appears in that list.
 */
module Record {
  import opened Text
  import opened DateTimes

  /** A Java field name: never empty. */
  type Identifier = s: string | s != [] witness "id"

  /** What reflection reads out of a declared field. */
  datatype FieldValue =
    | StringValue(s: string)
    | LongValue(n: int)
    | TimeValue(t: OffsetDateTime)   // neither a String nor a Long

  datatype Field = Field(name: Identifier, value: FieldValue)

  /** How validate ends: normally, with a ValidationError, or with a RuntimeException. */
  datatype ValidationOutcome =
    | Passed
    | ValidationError(message: string)
    | RuntimeError(message: string)

  /** getErrorMessage: "'<field>' should not be <issue>." */
  function ErrorMessage(field: string, issue: string): string
  {
    "'" + field + "' should not be " + issue + "."
  }

  /** value.replaceAll("([a-z])([A-Z])", "$1 $2"): a space inside every lower/upper pair. */
  function SplitCamel(s: string): (r: string)
    ensures |r| >= |s|
    ensures s != [] ==> r != [] && r[0] == s[0]
    decreases |s|
  {
    if |s| < 2 then s
    else if IsLower(s[0]) && IsUpper(s[1]) then [s[0], ' ', s[1]] + SplitCamel(s[2..])
    else [s[0]] + SplitCamel(s[1..])
  }

  /** titleize: the first character upper-cased, the rest split at lower/upper pairs. */
  function Titleize(value: Identifier): string
  {
    [UpperChar(value[0])] + SplitCamel(value[1..])
  }

  /** No lower-case letter is directly followed by an upper-case one. */
  predicate NoCamelPair(s: string) {
    forall k :: 0 <= k < |s| - 1 ==> !(IsLower(s[k]) && IsUpper(s[k + 1]))
  }

  function RemoveSpaces(s: string): (r: string)
  {
    if s == [] then [] else (if s[0] == ' ' then [] else [s[0]]) + RemoveSpaces(s[1..])
  }

  /** The replacement leaves no lower/upper pair behind. */
  lemma {:induction false} SplitCamelSeparates(s: string)
    ensures NoCamelPair(SplitCamel(s))
    decreases |s|
  {
    if |s| >= 2 {
      var r := SplitCamel(s);
      if IsLower(s[0]) && IsUpper(s[1]) {
        SplitCamelSeparates(s[2..]);
        var rest := SplitCamel(s[2..]);
        assert r == [s[0], ' ', s[1]] + rest;
        forall k | 0 <= k < |r| - 1 ensures !(IsLower(r[k]) && IsUpper(r[k + 1])) {
          if k >= 3 { assert r[k] == rest[k - 3] && r[k + 1] == rest[k - 2]; }
        }
      } else {
        SplitCamelSeparates(s[1..]);
        var rest := SplitCamel(s[1..]);
        assert r == [s[0]] + rest;
        forall k | 0 <= k < |r| - 1 ensures !(IsLower(r[k]) && IsUpper(r[k + 1])) {
          if k >= 1 { assert r[k] == rest[k - 1] && r[k + 1] == rest[k]; }
        }
      }
    }
  }

  lemma RemoveSpacesCons(c: char, t: string)
    ensures RemoveSpaces([c] + t) == (if c == ' ' then [] else [c]) + RemoveSpaces(t)
  {
    assert ([c] + t)[0] == c;
    assert ([c] + t)[1..] == t;
  }

  /** A suffix of a string without spaces has none either. */
  lemma NoSpaceInSuffix(s: string, n: nat)
    requires ' ' !in s && n <= |s|
    ensures ' ' !in s[n..]
  {
    forall k | 0 <= k < |s| - n ensures s[n..][k] != ' ' {
      assert s[n..][k] == s[k + n];
    }
  }

  /** Removing the spaces of a lower/upper pair split by SplitCamel gives the pair back. */
  lemma RemoveSpacesOfPair(a: char, b: char, rest: string)
    requires a != ' ' && b != ' '
    ensures RemoveSpaces([a, ' ', b] + rest) == [a, b] + RemoveSpaces(rest)
  {
    assert [a, ' ', b] + rest == [a] + ([' '] + ([b] + rest));
    RemoveSpacesCons(b, rest);
    RemoveSpacesCons(' ', [b] + rest);
    RemoveSpacesCons(a, [' '] + ([b] + rest));
  }

  /** The replacement only inserts spaces: removing them gives the original back. */
  lemma {:induction false} SplitCamelOnlyInsertsSpaces(s: string)
    requires ' ' !in s
    ensures RemoveSpaces(SplitCamel(s)) == s
    decreases |s|
  {
    if |s| == 1 {
      RemoveSpacesCons(s[0], []);
      assert s == [s[0]] + [];
    } else if |s| >= 2 && IsLower(s[0]) && IsUpper(s[1]) {
      NoSpaceInSuffix(s, 2);
      SplitCamelOnlyInsertsSpaces(s[2..]);
      RemoveSpacesOfPair(s[0], s[1], SplitCamel(s[2..]));
      assert s == [s[0], s[1]] + s[2..];
    } else if |s| >= 2 {
      NoSpaceInSuffix(s, 1);
      SplitCamelOnlyInsertsSpaces(s[1..]);
      RemoveSpacesCons(s[0], SplitCamel(s[1..]));
      assert s == [s[0]] + s[1..];
    }
  }

  /** The title of a field name without spaces reads back as the name once its spaces go. */
  lemma TitleizeRecoversName(name: Identifier)
    requires ' ' !in name
    ensures RemoveSpaces(Titleize(name)) == [UpperChar(name[0])] + name[1..]
    ensures NoCamelPair(Titleize(name)[1..])
  {
    assert ' ' !in name[1..] by {
      forall k | 0 <= k < |name[1..]| ensures name[1..][k] != ' ' { assert name[1..][k] == name[k + 1]; }
    }
    SplitCamelOnlyInsertsSpaces(name[1..]);
    SplitCamelSeparates(name[1..]);
    var t := Titleize(name);
    assert t[1..] == SplitCamel(name[1..]);
    assert UpperChar(name[0]) != ' ';
  }

  /** A field passes the check: a non-empty String or a non-zero Long. */
  predicate IsFilled(v: FieldValue) {
    match v
    case StringValue(s) => |s| != 0
    case LongValue(n) => n != 0
    case TimeValue(_) => false
  }

  /** How validate ends when the scan stops at field f. */
  function FailureAt(f: Field): ValidationOutcome
  {
    if f.value.TimeValue? then RuntimeError("unreachable")
    else ValidationError(ErrorMessage(Titleize(f.name), "empty"))
  }

  /** The outcome of validate over the declared fields. */
  function ValidationResult(fields: seq<Field>): ValidationOutcome
  {
    if fields == [] then Passed
    else if !IsFilled(fields[0].value) then FailureAt(fields[0])
    else ValidationResult(fields[1..])
  }

  /** Index of the first field that stops the scan, or |fields| if none does. */
  function FirstUnfilled(fields: seq<Field>): (i: nat)
    ensures i <= |fields|
    ensures forall j :: 0 <= j < i ==> IsFilled(fields[j].value)
    ensures i < |fields| ==> !IsFilled(fields[i].value)
  {
    if fields == [] || !IsFilled(fields[0].value) then 0
    else 1 + FirstUnfilled(fields[1..])
  }

  /**
   * validate fails at the first field, in declaration order, that is an
   * empty String, a zero Long, or of another type (the "unreachable"
   * RuntimeException); it passes exactly when every field is filled.
   */
  lemma {:induction false} ValidationResultSpec(fields: seq<Field>)
    ensures var i := FirstUnfilled(fields);
      ValidationResult(fields) == if i == |fields| then Passed else FailureAt(fields[i])
    ensures ValidationResult(fields) == Passed <==> forall j :: 0 <= j < |fields| ==> IsFilled(fields[j].value)
  {
    if fields != [] && IsFilled(fields[0].value) {
      ValidationResultSpec(fields[1..]);
      assert forall j :: 1 <= j < |fields| ==> fields[1..][j - 1] == fields[j];
    }
  }

  /** Emptiness is length only: a String of blanks passes the check. */
  lemma BlankStringIsFilled(s: string)
    requires s != [] && forall k :: 0 <= k < |s| ==> s[k] == ' '
    ensures IsFilled(StringValue(s))
  {
  }

  /** validate: scans the declared fields in order and stops at the first one that fails. */
  method Validate(fields: seq<Field>) returns (r: ValidationOutcome)
    ensures r == ValidationResult(fields)
  {
    var i := 0;
    while i < |fields|
      invariant 0 <= i <= |fields|
      invariant ValidationResult(fields) == ValidationResult(fields[i..])
    {
      var f := fields[i];
      var prettyName := Titleize(f.name);
      match f.value {
        case StringValue(s) =>
          if |s| == 0 {
            return ValidationError(ErrorMessage(prettyName, "empty"));
          }
        case LongValue(n) =>
          if n == 0 {
            return ValidationError(ErrorMessage(prettyName, "empty"));
          }
        case TimeValue(_) =>
          return RuntimeError("unreachable");
      }
      assert fields[i..][1..] == fields[i + 1..];
      i := i + 1;
    }
    return Passed;
  }
}

=== FILE: report.dfy ===
/**
 * Controllers/Report: the three reports. Report 1 lists appointment counts
 * by month and by type; report 2 lists each contact followed by its
 * appointments; report 3 lists each division followed by its customers.
 *
 * A query's result set is its rows (or its error), given as a parameter;
 * bundle.getString is the parameter `bundle`; Appointment and Customer
 * report lines are not part of this model and are the parameters
 * `renderAppointment` and `renderCustomer`.
 */
module Reports {
  import opened Text
  import opened SqlTypes
  import opened Sorting
  import opened Grouping
  import opened Contacts
  import opened Divisions
  import opened Appointments
  import opened Customers

  datatype MonthCountRow = MonthCountRow(month: int, count: int)
  datatype TypeCountRow = TypeCountRow(kind: string, count: int)

  /** A row of the report 2 query: the appointment, then its contact's name and email. */
  datatype ContactAppointmentRow = ContactAppointmentRow(appointment: AppointmentRecord, contactName: string, email: string)
  /** A row of the report 3 query: the customer, then its division's country id and name. */
  datatype CustomerDivisionRow = CustomerDivisionRow(customer: CustomerRecord, countryId: int, division: string)

  function ContactId(c: Contact): int { c.id }
  function ContactHeader(c: Contact): string { c.ReportString() }
  function DivisionId(d: Division): int { d.id }
  function DivisionHeader(d: Division): string { d.ReportString() }

  /** A report 2 row keyed by the appointment's contact id, with the contact built from the same column. */
  function ContactEntries(rows: seq<ContactAppointmentRow>): (es: seq<Entry<Contact, AppointmentRecord>>)
    ensures |es| == |rows|
    ensures forall i :: 0 <= i < |rows| ==>
      var a := rows[i].appointment;
      es[i] == Entry(a.data.contactId, Contact(a.data.contactId, rows[i].contactName, rows[i].email), a)
  {
    seq(|rows|, i requires 0 <= i < |rows| =>
      var a := rows[i].appointment;
      Entry(a.data.contactId, Contact(a.data.contactId, rows[i].contactName, rows[i].email), a))
  }

  /** A report 3 row keyed by the customer's division id, with the division built from the same column. */
  function DivisionEntries(rows: seq<CustomerDivisionRow>): (es: seq<Entry<Division, CustomerRecord>>)
    ensures |es| == |rows|
    ensures forall i :: 0 <= i < |rows| ==>
      var c := rows[i].customer;
      es[i] == Entry(c.data.divisionId, Division(c.data.divisionId, rows[i].division, rows[i].countryId), c)
  {
    seq(|rows|, i requires 0 <= i < |rows| =>
      var c := rows[i].customer;
      Entry(c.data.divisionId, Division(c.data.divisionId, rows[i].division, rows[i].countryId), c))
  }

  /** formatPair: "\t<key>:\t<count>\n". */
  function FormatPair(key: string, count: int): string
  {
    "\t" + key + ":\t" + IntToString(count) + "\n"
  }

  /** A count line shows its key after the leading tab and its count, which reads back, before the newline. */
  lemma FormatPairSpec(key: string, count: int)
    ensures var line, n := FormatPair(key, count), |key|;
      && |line| == n + |IntToString(count)| + 4
      && line[0] == '\t' && line[1..n + 1] == key && line[n + 1..n + 3] == ":\t"
      && ParseInt(line[n + 3..|line| - 1]) == count
      && line[|line| - 1] == '\n'
  {
    var line, n, digits := FormatPair(key, count), |key|, IntToString(count);
    assert line[1..n + 1] == key;
    assert line[n + 3..|line| - 1] == digits;
    IntToStringRoundTrip(count);
  }

  /** The count lines of a list of pairs, in list order. */
  function CountLines(pairs: seq<(string, int)>): string
    decreases |pairs|
  {
    if pairs == [] then ""
    else CountLines(pairs[..|pairs| - 1]) + FormatPair(pairs[|pairs| - 1].0, pairs[|pairs| - 1].1)
  }

  /** The month label of a month number: bundle key "month.%d". */
  function MonthLabel(bundle: string -> string, month: int): string
  {
    bundle("month." + IntToString(month))
  }

  /** parseMonthsCount's pairs: each row's month label and count, in row order. */
  function MonthPairs(rows: seq<MonthCountRow>, bundle: string -> string): (ps: seq<(string, int)>)
    ensures |ps| == |rows|
    ensures forall i :: 0 <= i < |rows| ==> ps[i] == (MonthLabel(bundle, rows[i].month), rows[i].count)
  {
    seq(|rows|, i requires 0 <= i < |rows| => (MonthLabel(bundle, rows[i].month), rows[i].count))
  }

  /** parseTypesCount's pairs: each row's type and count, in row order. */
  function TypePairs(rows: seq<TypeCountRow>): (ps: seq<(string, int)>)
    ensures |ps| == |rows|
    ensures forall i :: 0 <= i < |rows| ==> ps[i] == (rows[i].kind, rows[i].count)
  {
    seq(|rows|, i requires 0 <= i < |rows| => (rows[i].kind, rows[i].count))
  }

  /** Report 1: the by-month heading and lines, a blank line, the by-type heading and lines. */
  function Report1Text(bundle: string -> string, months: seq<(string, int)>, types: seq<(string, int)>): string
  {
    bundle("report.byMonth") + ":\n" + CountLines(months) + "\n" + bundle("report.byType") + ":\n" + CountLines(types)
  }

  /** A list of members rendered one after another. */
  function Concat<M>(ms: seq<M>, render: M -> string): string
    decreases |ms|
  {
    if ms == [] then "" else Concat(ms[..|ms| - 1], render) + render(ms[|ms| - 1])
  }

  /** Reports 2 and 3 after their heading: per header, a blank line, the header and its group's members. */
  function GroupedText<H, M>(headers: seq<H>, members: map<int, seq<M>>, keyOf: H -> int,
                             showHeader: H -> string, render: M -> string): string
    decreases |headers|
  {
    if headers == [] then ""
    else
      var h := headers[|headers| - 1];
      GroupedText(headers[..|headers| - 1], members, keyOf, showHeader, render)
        + "\n" + showHeader(h) + Concat(Lookup(members, keyOf(h)), render)
  }

  /** The same layout read straight off the rows: each header, then the members of the rows with its key. */
  function RowsText<H, M>(headers: seq<H>, es: seq<Entry<H, M>>, keyOf: H -> int,
                          showHeader: H -> string, render: M -> string): string
    decreases |headers|
  {
    if headers == [] then ""
    else
      var h := headers[|headers| - 1];
      RowsText(headers[..|headers| - 1], es, keyOf, showHeader, render)
        + "\n" + showHeader(h) + Concat(MembersWithKey(es, keyOf(h)), render)
  }

  lemma {:induction false} GroupedTextFromRows<H, M>(headers: seq<H>, members: map<int, seq<M>>, es: seq<Entry<H, M>>,
                                                      keyOf: H -> int, showHeader: H -> string, render: M -> string)
    requires forall i :: 0 <= i < |headers| ==> Lookup(members, keyOf(headers[i])) == MembersWithKey(es, keyOf(headers[i]))
    ensures GroupedText(headers, members, keyOf, showHeader, render) == RowsText(headers, es, keyOf, showHeader, render)
    decreases |headers|
  {
    if headers != [] {
      var prefix := headers[..|headers| - 1];
      assert forall i :: 0 <= i < |prefix| ==> prefix[i] == headers[i];
      GroupedTextFromRows(prefix, members, es, keyOf, showHeader, render);
    }
  }

  /**
   * Run on a fresh report, report 2 or 3 lists the header of each key in
   * the order the key first appears in the rows, each followed by the
   * members of that key's rows in row order.
   */
  lemma FreshReportFollowsRows<H, M>(es: seq<Entry<H, M>>, keyOf: H -> int, showHeader: H -> string, render: M -> string)
    ensures var g := AddAll(Groups<H, M>.Groups([], map[]), es);
      GroupedText(g.headers, g.members, keyOf, showHeader, render)
        == RowsText(FirstHeaders({}, es), es, keyOf, showHeader, render)
  {
    var empty := Groups<H, M>.Groups([], map[]);
    AddAllSpec(empty, es);
    assert empty.members.Keys == {};
    var g := AddAll(empty, es);
    assert g.headers == FirstHeaders({}, es);
    GroupedTextFromRows(g.headers, g.members, es, keyOf, showHeader, render);
  }

  lemma {:induction false} FirstHeadersOfKnown<H, M>(known: set<int>, es: seq<Entry<H, M>>)
    requires KeysOf(es) <= known
    ensures FirstHeaders(known, es) == []
    decreases |es|
  {
    if es != [] {
      var earlier := es[..|es| - 1];
      assert KeysOf(earlier) <= KeysOf(es) by {
        forall k | k in KeysOf(earlier) ensures k in KeysOf(es) {
          var i :| 0 <= i < |earlier| && earlier[i].key == k;
          assert es[i] == earlier[i];
        }
      }
      FirstHeadersOfKnown(known, earlier);
      assert es[|es| - 1].key in KeysOf(es);
    }
  }

  /**
   * The group map of reports 2 and 3 is never cleared: running a report
   * again over the same rows adds no header but appends every row's member
   * to its group a second time.
   */
  lemma RerunRepeatsMembers<H, M>(g: Groups<H, M>, es: seq<Entry<H, M>>, k: int)
    ensures AddAll(AddAll(g, es), es).headers == AddAll(g, es).headers
    ensures Lookup(AddAll(AddAll(g, es), es).members, k)
      == Lookup(g.members, k) + MembersWithKey(es, k) + MembersWithKey(es, k)
  {
    var once := AddAll(g, es);
    AddAllSpec(g, es);
    AddAllSpec(once, es);
    FirstHeadersOfKnown(once.members.Keys, es);
  }

  /** Renders the count lines of a list of pairs. */
  method RenderPairs(pairs: seq<(string, int)>) returns (text: string)
    ensures text == CountLines(pairs)
  {
    text := "";
    var i := 0;
    while i < |pairs|
      invariant 0 <= i <= |pairs|
      invariant text == CountLines(pairs[..i])
    {
      assert pairs[..i + 1][..i] == pairs[..i];
      text := text + FormatPair(pairs[i].0, pairs[i].1);
      i := i + 1;
    }
    assert pairs[..i] == pairs;
  }

  /** Renders one group's members in order. */
  method RenderMembers<M>(ms: seq<M>, render: M -> string) returns (text: string)
    ensures text == Concat(ms, render)
  {
    text := "";
    var j := 0;
    while j < |ms|
      invariant 0 <= j <= |ms|
      invariant text == Concat(ms[..j], render)
    {
      assert ms[..j + 1][..j] == ms[..j];
      text := text + render(ms[j]);
      j := j + 1;
    }
    assert ms[..j] == ms;
  }

  /** One more header extends the text by that header's block. */
  lemma GroupedTextStep<H, M>(headers: seq<H>, i: nat, members: map<int, seq<M>>, keyOf: H -> int,
                              showHeader: H -> string, render: M -> string)
    requires i < |headers|
    ensures GroupedText(headers[..i + 1], members, keyOf, showHeader, render)
      == GroupedText(headers[..i], members, keyOf, showHeader, render)
         + "\n" + showHeader(headers[i]) + Concat(Lookup(members, keyOf(headers[i])), render)
  {
    assert headers[..i + 1][..i] == headers[..i];
  }

  /** The header loop of reports 2 and 3; every header's group exists, so no lookup fails. */
  method RenderGroups<H, M>(g: Groups<H, M>, keyOf: H -> int, showHeader: H -> string, render: M -> string)
    returns (text: string)
    requires Aligned(g, keyOf)
    ensures text == GroupedText(g.headers, g.members, keyOf, showHeader, render)
  {
    text := "";
    var i := 0;
    while i < |g.headers|
      invariant 0 <= i <= |g.headers|
      invariant text == GroupedText(g.headers[..i], g.members, keyOf, showHeader, render)
    {
      var header := g.headers[i];
      assert HeaderKeys(g.headers, keyOf)[i] == keyOf(header);
      assert keyOf(header) in Elements(HeaderKeys(g.headers, keyOf));
      var ms := g.members[keyOf(header)];
      var membersText := RenderMembers(ms, render);
      GroupedTextStep(g.headers, i, g.members, keyOf, showHeader, render);
      text := text + "\n" + showHeader(header) + membersText;
      i := i + 1;
    }
    assert g.headers[..i] == g.headers;
  }

  /** Report 2: the by-contact heading, then each contact with its appointments. */
  function ContactReport(bundle: string -> string, g: Groups<Contact, AppointmentRecord>,
                         render: AppointmentRecord -> string): string
  {
    bundle("report.byContact") + ":\n" + GroupedText(g.headers, g.members, ContactId, ContactHeader, render)
  }

  /** Report 3: the by-division heading, then each division with its customers. */
  function DivisionReport(bundle: string -> string, g: Groups<Division, CustomerRecord>,
                          render: CustomerRecord -> string): string
  {
    bundle("report.three") + ":\n" + GroupedText(g.headers, g.members, DivisionId, DivisionHeader, render)
  }

  /** The month pairs after parseMonthsCount: the query's pairs, or the old ones when it failed. */
  function MonthsAfter(counts: seq<(string, int)>, outcome: QueryOutcome<MonthCountRow>,
                       bundle: string -> string): seq<(string, int)>
  {
    if outcome.QueryFailed? then counts else MonthPairs(outcome.rows, bundle)
  }

  /** The type pairs after parseTypesCount: the query's pairs, or the old ones when it failed. */
  function TypesAfter(counts: seq<(string, int)>, outcome: QueryOutcome<TypeCountRow>): seq<(string, int)>
  {
    if outcome.QueryFailed? then counts else TypePairs(outcome.rows)
  }

  /** The contact groups after parseContactsAndAppointments: the rows grouped in, or unchanged when the query failed. */
  function ContactsAfter(g: Groups<Contact, AppointmentRecord>, outcome: QueryOutcome<ContactAppointmentRow>)
    : Groups<Contact, AppointmentRecord>
  {
    if outcome.QueryFailed? then g else AddAll(g, ContactEntries(outcome.rows))
  }

  /** The division groups after parseCustomersAndDivisions: the rows grouped in, or unchanged when the query failed. */
  function DivisionsAfter(g: Groups<Division, CustomerRecord>, outcome: QueryOutcome<CustomerDivisionRow>)
    : Groups<Division, CustomerRecord>
  {
    if outcome.QueryFailed? then g else AddAll(g, DivisionEntries(outcome.rows))
  }

  /**
   * The report runReport's switch picks: the button id with every "button"
   * removed must be exactly "1", "2" or "3"; 0 stands for the default case.
   */
  function ReportOf(buttonId: string): (n: int)
    ensures 0 <= n <= 3
    ensures n == 1 <==> ReplaceAll(buttonId, "button", "") == "1"
    ensures n == 2 <==> ReplaceAll(buttonId, "button", "") == "2"
    ensures n == 3 <==> ReplaceAll(buttonId, "button", "") == "3"
  {
    var button := ReplaceAll(buttonId, "button", "");
    if button == "1" then 1 else if button == "2" then 2 else if button == "3" then 3 else 0
  }

  /**
   * A report button's id is "button" followed by one character: "1", "2"
   * and "3" pick their reports, and any other character picks none.
   */
  lemma ReportOfButton(d: char)
    ensures ReportOf("button" + [d]) == if d == '1' then 1 else if d == '2' then 2 else if d == '3' then 3 else 0
  {
    ReplaceAllLeading("button", [d], "");
  }

  class Report {
    var text: string
    var monthsCounts: seq<(string, int)>
    var typesCounts: seq<(string, int)>
    /** contacts and contactAppointmentMap. */
    var byContact: Groups<Contact, AppointmentRecord>
    /** divisions and divisionCustomerMap. */
    var byDivision: Groups<Division, CustomerRecord>

    /** Every listed contact and division has exactly one group, under its own id. */
    predicate Valid()
      reads this`byContact, this`byDivision
    {
      Aligned(byContact, ContactId) && Aligned(byDivision, DivisionId)
    }

    constructor()
      ensures Valid()
      ensures text == "" && monthsCounts == [] && typesCounts == []
      ensures byContact == Groups([], map[]) && byDivision == Groups([], map[])
    {
      text := "";
      monthsCounts := [];
      typesCounts := [];
      byContact := Groups([], map[]);
      byDivision := Groups([], map[]);
      EmptyAligned<Contact, AppointmentRecord>(ContactId);
      EmptyAligned<Division, CustomerRecord>(DivisionId);
    }

    /** parseMonthsCount: on success the list is cleared and holds one labelled pair per row. */
    method ParseMonthsCount(outcome: QueryOutcome<MonthCountRow>, bundle: string -> string)
      modifies this`monthsCounts
      ensures monthsCounts == MonthsAfter(old(monthsCounts), outcome, bundle)
    {
      if outcome.QueryFailed? {
        return;
      }
      var rows := outcome.rows;
      monthsCounts := [];
      var i := 0;
      while i < |rows|
        invariant 0 <= i <= |rows|
        invariant monthsCounts == MonthPairs(rows[..i], bundle)
      {
        monthsCounts := monthsCounts + [(MonthLabel(bundle, rows[i].month), rows[i].count)];
        i := i + 1;
      }
      assert rows[..i] == rows;
    }

    /** parseTypesCount: on success the list is cleared and holds one pair per row. */
    method ParseTypesCount(outcome: QueryOutcome<TypeCountRow>)
      modifies this`typesCounts
      ensures typesCounts == TypesAfter(old(typesCounts), outcome)
    {
      if outcome.QueryFailed? {
        return;
      }
      var rows := outcome.rows;
      typesCounts := [];
      var i := 0;
      while i < |rows|
        invariant 0 <= i <= |rows|
        invariant typesCounts == TypePairs(rows[..i])
      {
        typesCounts := typesCounts + [(rows[i].kind, rows[i].count)];
        i := i + 1;
      }
      assert rows[..i] == rows;
    }

    /** parseContactsAndAppointments: groups the rows onto what earlier runs left; an error changes nothing. */
    method ParseContactsAndAppointments(outcome: QueryOutcome<ContactAppointmentRow>)
      requires Valid()
      modifies this`byContact
      ensures Valid()
      ensures byContact == ContactsAfter(old(byContact), outcome)
    {
      if outcome.QueryFailed? {
        return;
      }
      var es := ContactEntries(outcome.rows);
      AddAllAligned(byContact, es, ContactId);
      var i := 0;
      while i < |es|
        invariant 0 <= i <= |es|
        invariant byContact == AddAll(old(byContact), es[..i])
      {
        var e := es[i];
        assert es[..i + 1][..i] == es[..i];
        if e.key in byContact.members {
          byContact := byContact.(members := byContact.members[e.key := byContact.members[e.key] + [e.member]]);
        } else {
          byContact := Groups(byContact.headers + [e.header], byContact.members[e.key := [e.member]]);
        }
        i := i + 1;
      }
      assert es[..i] == es;
    }

    /** parseCustomersAndDivisions: groups the rows onto what earlier runs left; an error changes nothing. */
    method ParseCustomersAndDivisions(outcome: QueryOutcome<CustomerDivisionRow>)
      requires Valid()
      modifies this`byDivision
      ensures Valid()
      ensures byDivision == DivisionsAfter(old(byDivision), outcome)
    {
      if outcome.QueryFailed? {
        return;
      }
      var es := DivisionEntries(outcome.rows);
      AddAllAligned(byDivision, es, DivisionId);
      var i := 0;
      while i < |es|
        invariant 0 <= i <= |es|
        invariant byDivision == AddAll(old(byDivision), es[..i])
      {
        var e := es[i];
        assert es[..i + 1][..i] == es[..i];
        if e.key in byDivision.members {
          byDivision := byDivision.(members := byDivision.members[e.key := byDivision.members[e.key] + [e.member]]);
        } else {
          byDivision := Groups(byDivision.headers + [e.header], byDivision.members[e.key := [e.member]]);
        }
        i := i + 1;
      }
      assert es[..i] == es;
    }

    /** report1: runs both count queries, then lists the month pairs and the type pairs. */
    method Report1(months: QueryOutcome<MonthCountRow>, types: QueryOutcome<TypeCountRow>, bundle: string -> string)
      returns (display: string)
      modifies this`monthsCounts, this`typesCounts
      ensures monthsCounts == MonthsAfter(old(monthsCounts), months, bundle)
      ensures typesCounts == TypesAfter(old(typesCounts), types)
      ensures display == Report1Text(bundle, monthsCounts, typesCounts)
    {
      ParseMonthsCount(months, bundle);
      ParseTypesCount(types);
      var monthLines := RenderPairs(monthsCounts);
      var typeLines := RenderPairs(typesCounts);
      display := bundle("report.byMonth") + ":\n" + monthLines + "\n" + bundle("report.byType") + ":\n" + typeLines;
    }

    /** report2: runs the contact query, then lists every contact so far with its appointments. */
    method Report2(outcome: QueryOutcome<ContactAppointmentRow>, bundle: string -> string,
                   renderAppointment: AppointmentRecord -> string)
      returns (display: string)
      requires Valid()
      modifies this`byContact
      ensures Valid()
      ensures byContact == ContactsAfter(old(byContact), outcome)
      ensures display == ContactReport(bundle, byContact, renderAppointment)
    {
      ParseContactsAndAppointments(outcome);
      var body := RenderGroups(byContact, ContactId, ContactHeader, renderAppointment);
      display := bundle("report.byContact") + ":\n" + body;
    }

    /** report3: runs the customer query, then lists every division so far with its customers. */
    method Report3(outcome: QueryOutcome<CustomerDivisionRow>, bundle: string -> string,
                   renderCustomer: CustomerRecord -> string)
      returns (display: string)
      requires Valid()
      modifies this`byDivision
      ensures Valid()
      ensures byDivision == DivisionsAfter(old(byDivision), outcome)
      ensures display == DivisionReport(bundle, byDivision, renderCustomer)
    {
      ParseCustomersAndDivisions(outcome);
      var body := RenderGroups(byDivision, DivisionId, DivisionHeader, renderCustomer);
      display := bundle("report.three") + ":\n" + body;
    }

    /**
     * runReport's switch: report n's text is shown, and only that report's
     * state changes; any n other than 1, 2 and 3 shows the empty report and
     * runs no query.
     */
    method ShowReport(n: int, months: QueryOutcome<MonthCountRow>, types: QueryOutcome<TypeCountRow>,
                      contactRows: QueryOutcome<ContactAppointmentRow>, divisionRows: QueryOutcome<CustomerDivisionRow>,
                      bundle: string -> string, renderAppointment: AppointmentRecord -> string,
                      renderCustomer: CustomerRecord -> string)
      requires Valid()
      modifies this`text, this`monthsCounts, this`typesCounts, this`byContact, this`byDivision
      ensures Valid()
      ensures n == 1 ==>
        && monthsCounts == MonthsAfter(old(monthsCounts), months, bundle)
        && typesCounts == TypesAfter(old(typesCounts), types)
        && text == Report1Text(bundle, monthsCounts, typesCounts)
        && byContact == old(byContact) && byDivision == old(byDivision)
      ensures n == 2 ==>
        && byContact == ContactsAfter(old(byContact), contactRows)
        && text == ContactReport(bundle, byContact, renderAppointment)
        && monthsCounts == old(monthsCounts) && typesCounts == old(typesCounts) && byDivision == old(byDivision)
      ensures n == 3 ==>
        && byDivision == DivisionsAfter(old(byDivision), divisionRows)
        && text == DivisionReport(bundle, byDivision, renderCustomer)
        && monthsCounts == old(monthsCounts) && typesCounts == old(typesCounts) && byContact == old(byContact)
      ensures n != 1 && n != 2 && n != 3 ==>
        && text == ""
        && monthsCounts == old(monthsCounts) && typesCounts == old(typesCounts)
        && byContact == old(byContact) && byDivision == old(byDivision)
    {
      text := "";
      if n == 1 {
        text := Report1(months, types, bundle);
      } else if n == 2 {
        text := Report2(contactRows, bundle, renderAppointment);
      } else if n == 3 {
        text := Report3(divisionRows, bundle, renderCustomer);
      }
    }

    /**
     * runReport: the button id without "button" picks the report; any other
     * id shows the empty report and runs no query.
     */
    method RunReport(buttonId: string, months: QueryOutcome<MonthCountRow>, types: QueryOutcome<TypeCountRow>,
                     contactRows: QueryOutcome<ContactAppointmentRow>, divisionRows: QueryOutcome<CustomerDivisionRow>,
                     bundle: string -> string, renderAppointment: AppointmentRecord -> string,
                     renderCustomer: CustomerRecord -> string)
      requires Valid()
      modifies this`text, this`monthsCounts, this`typesCounts, this`byContact, this`byDivision
      ensures Valid()
      ensures ReportOf(buttonId) == 1 ==>
        && monthsCounts == MonthsAfter(old(monthsCounts), months, bundle)
        && typesCounts == TypesAfter(old(typesCounts), types)
        && text == Report1Text(bundle, monthsCounts, typesCounts)
        && byContact == old(byContact) && byDivision == old(byDivision)
      ensures ReportOf(buttonId) == 2 ==>
        && byContact == ContactsAfter(old(byContact), contactRows)
        && text == ContactReport(bundle, byContact, renderAppointment)
        && monthsCounts == old(monthsCounts) && typesCounts == old(typesCounts) && byDivision == old(byDivision)
      ensures ReportOf(buttonId) == 3 ==>
        && byDivision == DivisionsAfter(old(byDivision), divisionRows)
        && text == DivisionReport(bundle, byDivision, renderCustomer)
        && monthsCounts == old(monthsCounts) && typesCounts == old(typesCounts) && byContact == old(byContact)
      ensures ReportOf(buttonId) == 0 ==>
        && text == ""
        && monthsCounts == old(monthsCounts) && typesCounts == old(typesCounts)
        && byContact == old(byContact) && byDivision == old(byDivision)
    {
      ShowReport(ReportOf(buttonId), months, types, contactRows, divisionRows, bundle, renderAppointment, renderCustomer);
    }
  }
}

=== FILE: sorting.dfy ===
/**
 * List.sort(Comparator.comparing(key)) for a string key: the result is the
 * same elements in non-decreasing order of String.compareTo on the key.
 */
module Sorting {
  import opened Text

  lemma {:induction false} LexLeReflexive(a: string)
    ensures LexLe(a, a)
    decreases |a|
  {
    if a != [] {
      LexLeReflexive(a[1..]);
    }
  }

  predicate SortedBy<T>(s: seq<T>, key: T -> string) {
    forall i, j :: 0 <= i < j < |s| ==> LexLe(key(s[i]), key(s[j]))
  }

  /** Inserts x before the first element whose key is strictly greater. */
  function InsertBy<T>(x: T, s: seq<T>, key: T -> string): (r: seq<T>)
    requires SortedBy(s, key)
    ensures |r| == |s| + 1
    ensures multiset(r) == multiset(s) + multiset{x}
    ensures forall k :: 0 <= k < |r| ==> r[k] == x || r[k] in s
    ensures SortedBy(r, key)
  {
    if s == [] then [x]
    else if !LexLe(key(s[0]), key(x)) then
      LexLeTotal(key(s[0]), key(x));
      assert forall j :: 0 <= j < |s| ==> LexLe(key(x), key(s[j])) by {
        forall j | 0 <= j < |s| ensures LexLe(key(x), key(s[j])) {
          if j > 0 { LexLeTransitive(key(x), key(s[0]), key(s[j])); }
        }
      }
      [x] + s
    else
      var rest := InsertBy(x, s[1..], key);
      assert s == [s[0]] + s[1..];
      assert forall k :: 0 <= k < |rest| ==> LexLe(key(s[0]), key(rest[k])) by {
        forall k | 0 <= k < |rest| ensures LexLe(key(s[0]), key(rest[k])) {
          if rest[k] != x {
            var j :| 0 <= j < |s[1..]| && s[1..][j] == rest[k];
            assert s[j + 1] == rest[k];
          }
        }
      }
      [s[0]] + rest
  }

  /** Insertion sort: a sorted permutation of s. */
  function SortBy<T>(s: seq<T>, key: T -> string): (r: seq<T>)
    ensures |r| == |s|
    ensures multiset(r) == multiset(s)
    ensures SortedBy(r, key)
    decreases |s|
  {
    if s == [] then []
    else
      assert s == s[..|s| - 1] + [s[|s| - 1]];
      InsertBy(s[|s| - 1], SortBy(s[..|s| - 1], key), key)
  }

  /** Sorting keeps exactly the elements it was given. */
  lemma SortByMembers<T>(s: seq<T>, key: T -> string, x: T)
    ensures x in SortBy(s, key) <==> x in s
  {
    var r := SortBy(s, key);
    assert x in r <==> x in multiset(r);
    assert x in s <==> x in multiset(s);
  }

  /** No element occurs twice. */
  predicate Distinct<T(==)>(s: seq<T>) {
    forall i, j :: 0 <= i < j < |s| ==> s[i] != s[j]
  }

  /** A sequence is duplicate-free iff no element occurs twice in its multiset. */
  lemma {:induction false} CountsOnceDistinct<T>(s: seq<T>)
    requires forall x :: multiset(s)[x] <= 1
    ensures Distinct(s)
    decreases |s|
  {
    if s != [] {
      var t, last := s[..|s| - 1], s[|s| - 1];
      assert s == t + [last];
      forall x ensures multiset(t)[x] <= 1 {
        assert multiset(s)[x] == multiset(t)[x] + (if x == last then 1 else 0);
      }
      CountsOnceDistinct(t);
      forall i, j | 0 <= i < j < |s| ensures s[i] != s[j] {
        if j < |s| - 1 {
          assert s[i] == t[i] && s[j] == t[j];
        } else {
          assert s[i] == t[i] && s[j] == last;
          assert multiset(s)[last] == multiset(t)[last] + 1;
          assert t[i] in multiset(t);
        }
      }
    }
  }

  lemma {:induction false} DistinctCountsOnce<T>(s: seq<T>, x: T)
    requires Distinct(s)
    ensures multiset(s)[x] <= 1
    decreases |s|
  {
    if s != [] {
      var t := s[..|s| - 1];
      assert s == t + [s[|s| - 1]];
      DistinctCountsOnce(t, x);
      if x == s[|s| - 1] {
        assert x !in t;
      }
    }
  }

  /** Sorting a duplicate-free list leaves it duplicate-free. */
  lemma SortByDistinct<T>(s: seq<T>, key: T -> string)
    requires Distinct(s)
    ensures Distinct(SortBy(s, key))
  {
    forall x ensures multiset(SortBy(s, key))[x] <= 1 {
      DistinctCountsOnce(s, x);
    }
    CountsOnceDistinct(SortBy(s, key));
  }

  /** The elements of a sequence, as a set. */
  function Elements<T>(s: seq<T>): set<T>
  {
    set x | x in s
  }

  lemma ElementsSnoc<T>(s: seq<T>, x: T)
    ensures Elements(s + [x]) == Elements(s) + {x}
  {
  }
}

=== FILE: sql.dfy ===
/**
 * What crosses the JDBC boundary: the values bound to statement parameters
 * and read from result columns, and the outcome of running a statement.
 */
module SqlTypes {

  /** A parameter or column value: a String, a Long or an Integer. */
  datatype SqlValue = SqlString(s: string) | SqlLong(n: int) | SqlInt(i: int)

  /** An SQLException, reduced to its message. */
  datatype SqlError = SqlError(message: string)

  /** What executeQuery produced: the rows of the result set, or the exception. */
  datatype QueryOutcome<R> = Rows(rows: seq<R>) | QueryFailed(error: SqlError)

  /** What executeUpdate produced: the affected-row count, or the exception. */
  datatype UpdateOutcome = Affected(count: int) | UpdateFailed(error: SqlError)

  /** What an insert produced: the generated keys (possibly none), or the exception. */
  datatype InsertOutcome = GeneratedKeys(keys: seq<int>) | InsertFailed(error: SqlError)
}

=== FILE: table.dfy ===
/**
 * Controllers/Table: the list screens. A table has an ID column followed by
 * its own columns, and the add, view, edit and delete buttons, which open
 * the record form in a mode and pass the item on to the subclass's
 * database hooks.
 *
 * The form and the database hooks are the subclass's and are not part of
 * this model; each call to one of them is recorded in a log field, in call
 * order. The selection is None when no row is selected (null in the
 * source).
 */
module Tables {
  import opened Wrappers
  import opened Forms
  import opened Widgets

  /** List.remove(Object): drops the first element equal to x, if any. */
  function RemoveFirst<T(==)>(s: seq<T>, x: T): (r: seq<T>)
    decreases |s|
  {
    if s == [] then []
    else if s[0] == x then s[1..]
    else [s[0]] + RemoveFirst(s[1..], x)
  }

  lemma {:induction false} RemoveFirstAbsent<T>(s: seq<T>, x: T)
    requires x !in s
    ensures RemoveFirst(s, x) == s
    decreases |s|
  {
    if s != [] {
      assert x !in s[1..];
      RemoveFirstAbsent(s[1..], x);
      assert s == [s[0]] + s[1..];
    }
  }

  lemma {:induction false} RemoveFirstAt<T>(s: seq<T>, x: T, i: nat)
    requires i < |s| && s[i] == x && forall k :: 0 <= k < i ==> s[k] != x
    ensures RemoveFirst(s, x) == s[..i] + s[i + 1..]
    decreases |s|
  {
    if i > 0 {
      var t := s[1..];
      assert forall k :: 0 <= k < i - 1 ==> t[k] == s[k + 1];
      RemoveFirstAt(t, x, i - 1);
      assert RemoveFirst(s, x) == [s[0]] + RemoveFirst(t, x);
      assert s[..i] == [s[0]] + t[..i - 1];
      assert s[i + 1..] == t[i..];
    }
  }

  /**
   * Removing x deletes exactly its first occurrence and keeps everything
   * else in order; a list without x is unchanged.
   */
  lemma {:induction false} RemoveFirstSpec<T>(s: seq<T>, x: T)
    ensures x !in s ==> RemoveFirst(s, x) == s
    ensures x in s ==> var i := FirstIndex(s, x); 0 <= i && RemoveFirst(s, x) == s[..i] + s[i + 1..]
    ensures multiset(RemoveFirst(s, x)) == multiset(s) - multiset{x}
  {
    if x in s {
      var i := FirstIndex(s, x);
      RemoveFirstAt(s, x, i);
      var before, after := s[..i], s[i + 1..];
      assert s == before + [x] + after;
      assert multiset(s) == multiset(before) + multiset{x} + multiset(after);
      assert RemoveFirst(s, x) == before + after;
    } else {
      RemoveFirstAbsent(s, x);
    }
  }

  /** One call of formController.open. */
  datatype FormOpening<T> = FormOpening(item: Option<T>, mode: Mode)

  class Table<T(==)> {
    var columns: seq<string>
    var items: seq<T>
    var selected: Option<T>
    /** The forms opened, in order. */
    var forms: seq<FormOpening<T>>
    /** The items passed to addToDatabase, updateInDatabase and deleteFromDatabase. */
    var added: seq<T>
    var updated: seq<Option<T>>
    var deleted: seq<Option<T>>

    constructor()
      ensures columns == [] && items == [] && selected.None?
      ensures forms == [] && added == [] && updated == [] && deleted == []
    {
      columns := [];
      items := [];
      selected := None;
      forms := [];
      added := [];
      updated := [];
      deleted := [];
    }

    /** initialize, up to populateData: the ID column, then the subclass's columns. */
    method AddColumns(ownColumns: seq<string>)
      modifies this`columns
      ensures columns == old(columns) + ["ID"] + ownColumns
    {
      columns := columns + ["ID"];
      columns := columns + ownColumns;
    }

    /** openForm: opens the form on the item and hands back the same item. */
    method OpenForm(item: Option<T>, mode: Mode) returns (r: Option<T>)
      modifies this`forms
      ensures r == item
      ensures forms == old(forms) + [FormOpening(item, mode)]
    {
      forms := forms + [FormOpening(item, mode)];
      r := item;
    }

    /** addItem: a new item, opened in Create mode, goes to addToDatabase; the list itself is untouched. */
    method AddItem(newItem: T)
      modifies this`forms, this`added
      ensures forms == old(forms) + [FormOpening(Some(newItem), Create)]
      ensures added == old(added) + [newItem]
      ensures items == old(items)
    {
      var item := OpenForm(Some(newItem), Create);
      added := added + [item.value];
    }

    /** viewItem: opens the selection in Read mode and changes nothing else. */
    method ViewItem()
      modifies this`forms
      ensures forms == old(forms) + [FormOpening(selected, Read)]
      ensures items == old(items) && added == old(added) && updated == old(updated) && deleted == old(deleted)
    {
      var _ := OpenForm(selected, Read);
    }

    /** editItem: the selection, opened in Update mode, goes to updateInDatabase. */
    method EditItem()
      modifies this`forms, this`updated
      ensures forms == old(forms) + [FormOpening(selected, Update)]
      ensures updated == old(updated) + [selected]
      ensures items == old(items)
    {
      var item := OpenForm(selected, Update);
      updated := updated + [item];
    }

    /** deleteItem: the selection goes to deleteFromDatabase and is then removed from the list. */
    method DeleteItem()
      modifies this`deleted, this`items
      ensures deleted == old(deleted) + [selected]
      ensures items == if selected.None? then old(items) else RemoveFirst(old(items), selected.value)
      ensures forms == old(forms)
    {
      var itemToDelete := selected;
      deleted := deleted + [itemToDelete];
      if itemToDelete.Some? {
        items := RemoveFirst(items, itemToDelete.value);
      }
    }
  }
}

=== FILE: text.dfy ===
/**
 * The string operations of java.lang.String and java.lang.Integer that the
 * application relies on: trim, decimal rendering (%d, Integer.toString),
 * zero padding (%02d), ASCII upper-casing, compareTo and replace.
 */
module Text {

  // ---------------------------------------------------------------------
  // String.trim: strips every character at or below U+0020 from both ends.
  // ---------------------------------------------------------------------

  predicate IsTrimmable(c: char) {
    c <= ' '
  }

  /** A string that trim leaves alone: empty, or no trimmable character at either end. */
  predicate IsTrimmed(s: string) {
    s == [] || (!IsTrimmable(s[0]) && !IsTrimmable(s[|s| - 1]))
  }

  function TrimStart(s: string): (r: string)
    ensures |r| <= |s|
  {
    if s != [] && IsTrimmable(s[0]) then TrimStart(s[1..]) else s
  }

  function TrimEnd(s: string): (r: string)
    ensures |r| <= |s|
  {
    if s != [] && IsTrimmable(s[|s| - 1]) then TrimEnd(s[..|s| - 1]) else s
  }

  /** TrimStart drops a leading run of trimmable characters and stops at the first other one. */
  lemma {:induction false} TrimStartSpec(s: string)
    ensures var r := TrimStart(s);
      && r == s[|s| - |r|..]
      && (forall k :: 0 <= k < |s| - |r| ==> IsTrimmable(s[k]))
      && (r == [] || !IsTrimmable(r[0]))
    decreases |s|
  {
    if s != [] && IsTrimmable(s[0]) {
      TrimStartSpec(s[1..]);
      var r := TrimStart(s);
      forall k | 1 <= k < |s| - |r| ensures IsTrimmable(s[k]) {
        assert s[k] == s[1..][k - 1];
      }
    }
  }

  /** TrimEnd drops a trailing run of trimmable characters and stops at the last other one. */
  lemma {:induction false} TrimEndSpec(s: string)
    ensures var r := TrimEnd(s);
      && r == s[..|r|]
      && (forall k :: |r| <= k < |s| ==> IsTrimmable(s[k]))
      && (r == [] || !IsTrimmable(r[|r| - 1]))
    decreases |s|
  {
    if s != [] && IsTrimmable(s[|s| - 1]) {
      TrimEndSpec(s[..|s| - 1]);
    }
  }

  /** Java's String.trim. */
  function Trim(s: string): (r: string)
  {
    TrimEnd(TrimStart(s))
  }

  /**
   * trim drops a run of trimmable characters at each end and keeps what lies
   * between, which has no trimmable end.
   */
  lemma TrimSpec(s: string)
    ensures IsTrimmed(Trim(s))
    ensures var i := |s| - |TrimStart(s)|;
      && i + |Trim(s)| <= |s|
      && s[i..i + |Trim(s)|] == Trim(s)
      && (forall k :: 0 <= k < i ==> IsTrimmable(s[k]))
      && (forall k :: i + |Trim(s)| <= k < |s| ==> IsTrimmable(s[k]))
  {
    TrimIsTrimmed(s);
    TrimSlice(s);
    TrimDropsEnds(s);
  }

  lemma TrimIsTrimmed(s: string)
    ensures IsTrimmed(Trim(s))
  {
    var t := TrimStart(s);
    var r := TrimEnd(t);
    TrimStartSpec(s);
    TrimEndSpec(t);
    if r != [] {
      assert r[0] == t[0];
    }
  }

  lemma TrimSlice(s: string)
    ensures var i := |s| - |TrimStart(s)|;
      i + |Trim(s)| <= |s| && s[i..i + |Trim(s)|] == Trim(s)
  {
    var t := TrimStart(s);
    var r := TrimEnd(t);
    var i := |s| - |t|;
    TrimStartSpec(s);
    TrimEndSpec(t);
    assert s[i..i + |r|] == t[..|r|];
  }

  lemma TrimDropsEnds(s: string)
    ensures var i := |s| - |TrimStart(s)|;
      && (forall k :: 0 <= k < i ==> IsTrimmable(s[k]))
      && (forall k :: i + |Trim(s)| <= k < |s| ==> IsTrimmable(s[k]))
  {
    var t := TrimStart(s);
    var r := TrimEnd(t);
    var i := |s| - |t|;
    TrimStartSpec(s);
    TrimEndSpec(t);
    forall k | i + |r| <= k < |s| ensures IsTrimmable(s[k]) {
      assert s[k] == t[k - i];
    }
  }

  /** trim leaves a string without trimmable ends unchanged. */
  lemma {:induction false} TrimOfTrimmed(s: string)
    requires IsTrimmed(s)
    ensures Trim(s) == s
  {
    assert TrimStart(s) == s;
    assert TrimEnd(s) == s;
  }

  /** trim is idempotent. */
  lemma TrimIdempotent(s: string)
    ensures Trim(Trim(s)) == Trim(s)
  {
    TrimSpec(s);
    TrimOfTrimmed(Trim(s));
  }

  /** A string made only of trimmable characters trims to the empty string. */
  lemma {:induction false} TrimOfBlank(s: string)
    requires forall k :: 0 <= k < |s| ==> IsTrimmable(s[k])
    ensures Trim(s) == ""
  {
    if s != [] {
      assert TrimStart(s) == TrimStart(s[1..]);
      TrimOfBlank(s[1..]);
    }
  }

  // ---------------------------------------------------------------------
  // Decimal rendering and parsing.
  // ---------------------------------------------------------------------

  predicate IsDigit(c: char) {
    '0' <= c <= '9'
  }

  predicate AllDigits(s: string) {
    forall k :: 0 <= k < |s| ==> IsDigit(s[k])
  }

  function DigitChar(d: nat): (c: char)
    requires d < 10
    ensures IsDigit(c)
  {
    (('0' as int) + d) as char
  }

  function DigitValue(c: char): (d: nat)
    requires IsDigit(c)
    ensures d < 10
  {
    (c as int) - ('0' as int)
  }

  /** Decimal digits of a natural number, without leading zeros. */
  function NatToString(n: nat): (r: string)
    ensures |r| >= 1 && AllDigits(r)
    ensures (r[0] == '0') == (n == 0)
    ensures n < 10 ==> |r| == 1
    ensures 10 <= n < 100 ==> |r| == 2
    decreases n
  {
    if n < 10 then [DigitChar(n)] else NatToString(n / 10) + [DigitChar(n % 10)]
  }

  /** The value of a string of decimal digits. */
  function ParseNat(s: string): nat
    requires AllDigits(s)
    decreases |s|
  {
    if s == [] then 0 else ParseNat(s[..|s| - 1]) * 10 + DigitValue(s[|s| - 1])
  }

  lemma {:induction false} ParseNatToString(n: nat)
    ensures ParseNat(NatToString(n)) == n
    decreases n
  {
    if n >= 10 {
      var s := NatToString(n);
      assert s[..|s| - 1] == NatToString(n / 10);
      ParseNatToString(n / 10);
    }
  }

  lemma NatToStringInjective(a: nat, b: nat)
    ensures NatToString(a) == NatToString(b) ==> a == b
  {
    ParseNatToString(a);
    ParseNatToString(b);
  }

  /** Integer.toString and %d: an optional minus sign, then the digits. */
  function IntToString(i: int): (r: string)
    ensures |r| >= 1
    ensures forall k :: 0 <= k < |r| ==> IsDigit(r[k]) || r[k] == '-'
  {
    if i < 0 then "-" + NatToString(-i) else NatToString(i)
  }

  /** Reads back what IntToString renders (0 for any other string). */
  function ParseInt(s: string): (r: int)
  {
    if s != [] && s[0] == '-' && AllDigits(s[1..]) then -(ParseNat(s[1..]) as int)
    else if AllDigits(s) then ParseNat(s)
    else 0
  }

  lemma IntToStringRoundTrip(i: int)
    ensures ParseInt(IntToString(i)) == i
  {
    if i < 0 {
      ParseNatToString(-i);
      assert IntToString(i)[1..] == NatToString(-i);
    } else {
      ParseNatToString(i);
    }
  }

  lemma IntToStringInjective(a: int, b: int)
    ensures IntToString(a) == IntToString(b) ==> a == b
  {
    IntToStringRoundTrip(a);
    IntToStringRoundTrip(b);
  }

  function Zeros(n: nat): (r: string)
    ensures |r| == n && AllDigits(r)
    ensures forall k :: 0 <= k < n ==> r[k] == '0'
  {
    if n == 0 then "" else Zeros(n - 1) + "0"
  }

  lemma {:induction false} ParseNatLeadingZeros(z: nat, s: string)
    requires AllDigits(s)
    ensures AllDigits(Zeros(z) + s) && ParseNat(Zeros(z) + s) == ParseNat(s)
    decreases |s|
  {
    if s == [] {
      assert Zeros(z) + s == Zeros(z);
      ParseNatOfZeros(z);
    } else {
      var t := Zeros(z) + s;
      assert t[..|t| - 1] == Zeros(z) + s[..|s| - 1];
      ParseNatLeadingZeros(z, s[..|s| - 1]);
    }
  }

  lemma {:induction false} ParseNatOfZeros(z: nat)
    ensures ParseNat(Zeros(z)) == 0
  {
    if z > 0 {
      assert Zeros(z)[..z - 1] == Zeros(z - 1);
      ParseNatOfZeros(z - 1);
    }
  }

  /** %0<width>d for a non-negative value: the digits, padded on the left with zeros. */
  function ZeroPad(n: nat, width: nat): (r: string)
  {
    var d := NatToString(n);
    if |d| < width then Zeros(width - |d|) + d else d
  }

  lemma ZeroPadSpec(n: nat, width: nat)
    ensures AllDigits(ZeroPad(n, width))
    ensures |ZeroPad(n, width)| == if |NatToString(n)| < width then width else |NatToString(n)|
    ensures ParseNat(ZeroPad(n, width)) == n
  {
    ParseNatToString(n);
    var d := NatToString(n);
    if |d| < width {
      ParseNatLeadingZeros(width - |d|, d);
    }
  }

  /** %02d of a value below 100 is exactly two digits, and reads back as the value. */
  lemma Pad2Spec(n: nat)
    requires n < 100
    ensures |ZeroPad(n, 2)| == 2 && AllDigits(ZeroPad(n, 2))
    ensures ParseNat(ZeroPad(n, 2)) == n
  {
    ZeroPadSpec(n, 2);
  }

  lemma Pad2Injective(a: nat, b: nat)
    requires a < 100 && b < 100
    ensures ZeroPad(a, 2) == ZeroPad(b, 2) ==> a == b
  {
    Pad2Spec(a);
    Pad2Spec(b);
  }

  // ---------------------------------------------------------------------
  // Case, comparison and replacement.
  // ---------------------------------------------------------------------

  predicate IsLower(c: char) {
    'a' <= c <= 'z'
  }

  predicate IsUpper(c: char) {
    'A' <= c <= 'Z'
  }

  /** Character.toUpperCase restricted to ASCII letters. */
  function UpperChar(c: char): (u: char)
    ensures IsLower(c) ==> IsUpper(u)
    ensures !IsLower(c) ==> u == c
  {
    if IsLower(c) then ((c as int) - 32) as char else c
  }

  /** String.toUpperCase restricted to ASCII letters. */
  function Upper(s: string): (r: string)
    ensures |r| == |s|
    ensures forall k :: 0 <= k < |s| ==> r[k] == UpperChar(s[k])
  {
    if s == [] then "" else [UpperChar(s[0])] + Upper(s[1..])
  }

  /** a.compareTo(b) <= 0: lexicographic order on characters. */
  predicate LexLe(a: string, b: string)
    decreases |a|
  {
    a == [] || (b != [] && (a[0] < b[0] || (a[0] == b[0] && LexLe(a[1..], b[1..]))))
  }

  lemma {:induction false} LexLeTotal(a: string, b: string)
    ensures LexLe(a, b) || LexLe(b, a)
    decreases |a|
  {
    if a != [] && b != [] && a[0] == b[0] {
      LexLeTotal(a[1..], b[1..]);
    }
  }

  lemma {:induction false} LexLeTransitive(a: string, b: string, c: string)
    requires LexLe(a, b) && LexLe(b, c)
    ensures LexLe(a, c)
    decreases |a|
  {
    if a != [] && a[0] == b[0] && b[0] == c[0] {
      LexLeTransitive(a[1..], b[1..], c[1..]);
    }
  }

  /** Number of occurrences of a character. */
  function Count(s: string, c: char): (n: nat)
    ensures n <= |s|
  {
    if s == [] then 0 else (if s[0] == c then 1 else 0) + Count(s[1..], c)
  }

  lemma {:induction false} CountAppend(a: string, b: string, c: char)
    ensures Count(a + b, c) == Count(a, c) + Count(b, c)
    decreases |a|
  {
    if a == [] {
      assert a + b == b;
    } else {
      assert (a + b)[1..] == a[1..] + b;
      CountAppend(a[1..], b, c);
    }
  }

  lemma {:induction false} CountAbsent(s: string, c: char)
    requires c !in s
    ensures Count(s, c) == 0
    decreases |s|
  {
    if s != [] {
      assert c !in s[1..];
      CountAbsent(s[1..], c);
    }
  }

  predicate IsPrefix(p: string, s: string) {
    |p| <= |s| && s[..|p|] == p
  }

  /** String.replace(target, replacement): every non-overlapping occurrence, left to right. */
  function ReplaceAll(s: string, target: string, replacement: string): (r: string)
    requires target != []
    decreases |s|
  {
    if s == [] then ""
    else if IsPrefix(target, s) then replacement + ReplaceAll(s[|target|..], target, replacement)
    else [s[0]] + ReplaceAll(s[1..], target, replacement)
  }

  /** A string shorter than the target holds no occurrence of it and is left as it is. */
  lemma {:induction false} ReplaceAllShort(s: string, target: string, replacement: string)
    requires target != [] && |s| < |target|
    ensures ReplaceAll(s, target, replacement) == s
    decreases |s|
  {
    if s != [] {
      ReplaceAllShort(s[1..], target, replacement);
      assert [s[0]] + s[1..] == s;
    }
  }

  /** A leading occurrence followed by a shorter rest: only the occurrence is replaced. */
  lemma ReplaceAllLeading(target: string, rest: string, replacement: string)
    requires target != [] && |rest| < |target|
    ensures ReplaceAll(target + rest, target, replacement) == replacement + rest
  {
    var s := target + rest;
    assert s[..|target|] == target;
    assert s[|target|..] == rest;
    ReplaceAllShort(rest, target, replacement);
  }
}

=== FILE: widgets.dfy ===
/**
 * The JavaFX controls the forms drive, reduced to the state the controllers
 * read and write: a combo box of strings (its items, its value, whether it
 * is disabled or visible), a combo box of records (its selection) and a
 * date picker (its value).
 */
module Widgets {
  import opened Wrappers
  import opened DateTimes

  /** Position of the first occurrence of x, or -1. */
  function FirstIndex<T(==)>(items: seq<T>, x: T): (i: int)
    ensures -1 <= i < |items|
    ensures 0 <= i ==> items[i] == x && forall k :: 0 <= k < i ==> items[k] != x
    ensures i == -1 ==> x !in items
    decreases |items|
  {
    if items == [] then -1
    else if items[0] == x then 0
    else
      var j := FirstIndex(items[1..], x);
      if j < 0 then -1 else j + 1
  }

  /** The selection model's selected index for a value: -1 when there is none or it is not an item. */
  function IndexOf(items: seq<string>, v: Option<string>): (i: int)
    ensures -1 <= i < |items|
    ensures 0 <= i ==> v.Some? && items[i] == v.value && forall k :: 0 <= k < i ==> items[k] != v.value
    ensures i == -1 ==> v.None? || v.value !in items
  {
    if v.None? then -1 else FirstIndex(items, v.value)
  }

  /** The index of a value is the position of its first occurrence. */
  lemma IndexOfFirst(items: seq<string>, x: string, i: nat)
    requires i < |items| && items[i] == x
    requires forall k :: 0 <= k < i ==> items[k] != x
    ensures IndexOf(items, Some(x)) == i
  {
  }

  /** ComboBox<String>. */
  class Picker {
    var items: seq<string>
    var value: Option<string>
    var disabled: bool
    var visible: bool

    constructor()
      ensures items == [] && value.None? && !disabled && visible
    {
      items := [];
      value := None;
      disabled := false;
      visible := true;
    }

    function SelectedIndex(): int
      reads this
    {
      IndexOf(items, value)
    }
  }

  /** ComboBox of records: a selection, possibly empty. */
  class RecordPicker<T> {
    var selection: Option<T>
    var disabled: bool

    constructor()
      ensures selection.None? && !disabled
    {
      selection := None;
      disabled := false;
    }
  }

  /** DatePicker. */
  class DatePicker {
    var value: Option<LocalDate>
    var disabled: bool

    constructor()
      ensures value.None? && !disabled
    {
      value := None;
      disabled := false;
    }
  }
}

=== FILE: wrappers.dfy ===
/** Option, the usual stand-in for a Java reference that may be null. */
module Wrappers {

  datatype Option<+T> = None | Some(value: T)
}
